=== FILE: README.md ===
# A Dafny model of CLIF's Python extension generator

CLIF turns a C++ API description into a CPython extension module. The module
`clif/python/gen.py` writes the C++ source of that extension. This project
models the parts of the generator that make decisions and proves what they
promise:

- **Dependency ordering.** `TopologicalSortSimple` is the depth-first sort over
  single-dependency slots. `_TypesInitInDependencyOrder` puts every wrapped
  class after the class holding its wrapped base. `ReadyFunction` writes the
  `Ready()` function, which builds each heap type, links its base, calls
  `PyType_Ready` and sets `__module__`.
  Files: `topo_sort.dfy`, `types_init.dfy`, `ready.dfy`.
- **Parameter lowering.** `_CreateInputParameter` decides how one Python
  argument becomes a C++ stack variable and an argument of the C++ call.
  File: `lowering.dfy`.
- **Call-wrapper planning.** `FunctionCall` writes the `PyCFunction` wrapper
  of one C++ function. The model covers:
  - the argument parsing and the format string;
  - the passed-argument `switch`, and how defaults are handled or refused;
  - the output variables `ret<i>`;
  - where the GIL is released and taken back, and the exception handling;
  - the shape of the value returned to Python.

  File: `function_call.dfy`.
- **Small emitters with a decision:**
  - the namespace openers and closers (`OpenNs`, `CloseNs`);
  - a method-table entry (`_DefLine`);
  - the iterator's `iternext`;
  - the wrapper type's `_dtor`;
  - the virtual-function redirector (`_VirtualFunctionCall`).

  File: `emitters.dfy`.

Shared helpers live in `common.dfy`.

The generator writes C++ text line by line. The model writes one token per
statement instead, and keeps literal strings only where they carry logic:
the `PyArg_ParseTupleAndKeywords` format, the namespace names, and the
`(PyCFunction)` cast. A comment next to each token constructor gives the C++
it stands for.

Where the source works by changing state step by step, the model has
imperative Dafny proved equal to a reference function. The reference function
is then the subject of the lemmas.

- `TopoSort.Walker` holds the closure state of the sort: the permutation list
  and its mirror set. `FollowDeps` is the recursive walk.
- The record loops of `_TypesInitInDependencyOrder` and `ReadyFunction` are
  `for` loops with invariants.
- `CallWrapper.FunctionCall` updates the `postproc` field of a `FuncAst`
  object, as the source does at `clif/python/gen.py:824-825`.

`TopologicalSortSimple` can recurse forever on a cycle that does not pass back
through the current outer root: on `[1, 2, 1]`, the walk from 0 loops
1 → 2 → 1. The model reports `Diverges` there. It never claims such inputs are
rejected.

## Model

| member | source | states |
|---|---|---|
| TopoSort.Walker.constructor | clif/python/gen.py:45-46 | the walk starts with an empty permutation whose set mirrors it |
| TopoSort.Walker.FollowDeps | clif/python/gen.py:47-68 | the recursive walk ends exactly as the reference walk `Follow` does: it places `cons` after its dependency chain, or stops with the first of the four errors, checked in the source's order, or stops where the source would recurse forever; the set keeps mirroring the list |
| TopoSort.TopologicalSortSimple | clif/python/gen.py:28-74 | the result is the reference order; when it succeeds it is a permutation of the slots with every dependency before its dependent; it succeeds exactly on acyclic inputs |
| TopoSort.TopoOrderSound | clif/python/gen.py:36-42 | any successful result lists each slot once, every dependency first |
| TopoSort.SortsExactlyAcyclic | clif/python/gen.py:47-74 | the sort succeeds if and only if the dependencies are in range and admit a rank that strictly decreases along every dependency |
| TopoSort.IdentityIffDeclaredInOrder | clif/python/gen.py:69-73 | the result is the identity exactly when every slot depends only on an earlier slot |
| TopoSort.AscendingPermutationIsIdentity | clif/python/gen.py:219 | a topological order is in ascending order exactly when it is the identity, so `sorted(p) != p` means "reordered" |
| TopoSort.DocumentedExample | clif/python/gen.py:36-42 | `[2, None, 1]` sorts to `[1, 2, 0]` |
| TopoSort.FollowRejectsDefect | clif/python/gen.py:47-68 | a walk reached from the root stops with an error only on a real fault of the input |
| TopoSort.TopoOrderRejectsDefect | clif/python/gen.py:53-67 | every error names a real fault: a negative or too large index held by the named slot, a slot holding its own index, or a chain of at least two dependencies leading from the named root back to it |
| TopoSort.RejectedExamples | clif/python/gen.py:53-67 | `[0]`, `[1, 0]`, `[5]` and `[-1]` raise the self-dependency, cycle-to-root, too-large and negative errors |
| TopoSort.DivergingExample | clif/python/gen.py:47-68 | `[1, 2, 1]` recurses forever: the cycle 1 → 2 → 1 avoids the root 0 |
| TopoSort.Nodes | clif/python/gen.py:69 | the slots `range(len(ideps))` as a set |
| TypesInit.IndexMap | clif/python/gen.py:199-201 | `cppname_indices` holds every record's name and maps each name to a record bearing it |
| TypesInit.IndexRecords | clif/python/gen.py:199-201 | the first loop builds exactly that map |
| TypesInit.ResolveBases | clif/python/gen.py:203-216 | the second loop raises NameError for the first record whose wrapped base names no record, otherwise builds `ideps` |
| TypesInit.Arrange | clif/python/gen.py:226-227 | the records come out in the order of the permutation |
| TypesInit.TypesInitInDependencyOrder | clif/python/gen.py:197-227 | the generator's result or error is the reference `DependencyOrder` |
| TypesInit.FirstUnresolved | clif/python/gen.py:204-213 | finds the first record, at or after the start, whose wrapped base is unknown, exactly when one exists |
| TypesInit.DuplicateNamesRejected | clif/python/gen.py:202 | the assertion fails exactly when two records share a C++ name |
| TypesInit.MissingBaseRejected | clif/python/gen.py:204-213 | with distinct names, NameError is raised exactly when some wrapped base names no record, and the error names the first such record, in declaration order, and its base |
| TypesInit.IndexMapDistinct | clif/python/gen.py:199-202 | with distinct names, each name maps to its own record |
| TypesInit.OrderedIsDependencyOrder | clif/python/gen.py:217-227 | whatever is yielded lists every record once, each after the record holding its wrapped base |
| TypesInit.OrderedIffAcyclic | clif/python/gen.py:217 | with distinct names and every base present, ordering succeeds exactly when the base relation is acyclic |
| TypesInit.DeclaredInOrderIffBasesFirst | clif/python/gen.py:214-216 | `ideps` points only backwards exactly when every wrapped base is declared before the class deriving from it |
| TypesInit.ReorderingRaisedExactly | clif/python/gen.py:218-225 | with the development check on, RuntimeError is raised exactly when some base is declared after its derived class; otherwise the records come out unchanged |
| Ready.LastSeparator | clif/python/gen.py:239 | finds the last `::` of a name, or reports that there is none |
| Ready.NamespaceOfSplits | clif/python/gen.py:239 | `rsplit('::', 1)[0]` is a prefix of the name: the whole name when it has no `::`, otherwise everything before a last `::`; each record's `BuildHeapType` token carries this scope as the class on which `_build_heap_type()` is called |
| Ready.EmitLink | clif/python/gen.py:241-277 | the base-linking lines of one record and the updated `pybases`/`last_pybase` are the corrected reference ones, where `last_pybase` moves to every Python base linked |
| Ready.EmitRecord | clif/python/gen.py:238-286 | the lines of one record and the updated state are the corrected reference ones |
| Ready.EmitBody | clif/python/gen.py:237-286 | the loop writes the corrected reference lines for the whole order |
| Ready.ReadyFunction | clif/python/gen.py:230-288 | the generator's lines or error are the corrected reference `ReadyOutput` |
| Ready.StateAfterMeaning | clif/python/gen.py:234-273 | in the generator as written and as corrected: after any prefix, `have_modname` says whether a record was written and `pybases` holds the Python bases seen; `last_pybase` is the base most recently seen for the first time as written, and the base most recently linked as corrected |
| Ready.BaseCheckedOnFirstUse | clif/python/gen.py:254-271 | in either version, the base-type check and the static-allocation check are written for a record exactly when its Python base is new |
| Ready.ChecksInRecord | clif/python/gen.py:254-271 | the same, for one record and any state |
| Ready.BaseImportedUnlessLast | clif/python/gen.py:244-253 | in either version, `Py_INCREF(base_cls)` is written exactly when the base is `last_pybase` as that version tracks it; otherwise the base is imported, declaring `PyObject* base_cls` only when no base was seen before |
| Ready.ImportInRecord | clif/python/gen.py:244-253 | the same, for one record and any state |
| Ready.BaseLinking | clif/python/gen.py:241-277 | a Python base takes precedence over a wrapped base; a wrapped base is linked exactly when it is non-empty and there is no Python base |
| Ready.HeapTypesInOrder | clif/python/gen.py:237-239 | the heap types are built once per record, in the dependency order |
| Ready.RecordHeapTypes | clif/python/gen.py:238-239 | one record builds exactly its own heap type |
| Ready.ModnameCreatedOnce | clif/python/gen.py:280-283 | `modname` is created exactly once when there is a type, before any `__module__` is set, and never with no type |
| Ready.ModnameAfterFirst | clif/python/gen.py:280-283 | after the first record, no record creates `modname` again |
| Ready.WrappedBaseReadyFirst | clif/python/gen.py:237-279 | a class whose base is wrapped in the module has that base made ready before its own lines |
| Ready.ReimportExample | clif/python/gen.py:244-272 | as written, a base that is not the last newly seen one is imported again, and its checks are not repeated |
| Ready.LinkBaseCls | clif/python/gen.py:241-263 | a Python base sets `tp_base` from `base_cls` once; `base_cls` then holds the freshly imported base, unless the base is `last_pybase` and `base_cls` is reused as it stood |
| Ready.RecordBaseCls | clif/python/gen.py:237-286 | the same for one record's lines: only the base-linking lines rebind or read `base_cls` |
| Ready.BodyBaseClsStep | clif/python/gen.py:237-273 | in either version, one more record adds at most one `tp_base` from `base_cls`, holding what the previous records left in it when the base is `last_pybase` |
| Ready.BaseClsHoldsOwnBase | clif/python/gen.py:237-273 | in the corrected generator, `base_cls` always holds `last_pybase`, so every class with a Python base gets its own base as `tp_base`, in order |
| Ready.StaleBaseExample | clif/python/gen.py:242-273 | as written, with Python bases A, B, A, B the fourth class is written `Py_INCREF(base_cls); z->tp_base = base_cls` while `base_cls` holds A, so it gets A instead of B |
| Lowering.CreateInputParameter | clif/python/gen.py:538-600 | reference definition of `_CreateInputParameter`; its properties are ForwardsDeclaredType, CallbacksAreMoved, NullCheckExactly, ErrorsExactly, OptionalWithoutDefaultCtor and LoweringExamples |
| Lowering.ForwardsDeclaredType | clif/python/gen.py:559-600 | every typed parameter that lowers is passed to the callee with exactly its C++ type |
| Lowering.CallbacksAreMoved | clif/python/gen.py:548-558 | an untyped parameter lowers exactly when it is a callback with at most one return; it is then a `std::function` passed by `std::move` |
| Lowering.NullCheckExactly | clif/python/gen.py:579-590 | the converted value is null-checked exactly for a non-pointer, non-smart-pointer type with a to-pointer conversion that is not an abstract type lacking a unique_ptr conversion; it is then held as `T*` and passed as `*arg` |
| Lowering.ErrorsExactly | clif/python/gen.py:545-582 | each of the four errors is raised exactly under its condition: no callable, a callback with outputs, a raw pointer without a usable conversion, a smart pointer or abstract type without a unique_ptr conversion |
| Lowering.OptionalWithoutDefaultCtor | clif/python/gen.py:570-600 | exactly the copies made without a default constructor are held in `absl::optional` |
| Lowering.LoweringExamples | clif/python/gen.py:576-597 | `int` is moved; a `Foo*` without a default constructor goes through `&arg.value()`; a `unique_ptr` without the conversion is refused |
| CallWrapper.Required | clif/python/gen.py:659 | `minargs` is at most the number of parameters |
| CallWrapper.RequiredIsCount | clif/python/gen.py:659 | all parameters are required exactly when none has a default |
| CallWrapper.FormatStringLayout | clif/python/gen.py:667-671 | the format has one `O` per parameter; with a default, one `\|` separates the `minargs` required ones from the rest |
| CallWrapper.RStrip | clif/python/gen.py:761 | `rstrip()` leaves a prefix of the type; every character it drops is whitespace, and what is left does not end in whitespace |
| CallWrapper.LastIndexOf | clif/python/gen.py:763 | `rindex('&')` finds the last `&` |
| CallWrapper.DefaultErrors | clif/python/gen.py:705-729 | an unresolved default with extra outputs, and a default for a pointer passed by address, raise ValueError, each exactly under its condition |
| CallWrapper.DeclaredThenChecked | clif/python/gen.py:681-698 | parameter i is declared first and null-checked exactly when lowering asks |
| CallWrapper.ConvertedOnce | clif/python/gen.py:699-739 | each parameter is converted exactly once: directly, or in the `else` of its default |
| CallWrapper.OptionalParamGuard | clif/python/gen.py:699-741 | an optional parameter is guarded by `if (nargs > i)` unless extra outputs rule out the switch; it takes its default when not passed; an unresolved default must be passed unless it is the last parameter |
| CallWrapper.ParamSectionMeaning | clif/python/gen.py:678-741 | the parameters convert exactly when each does; they are then passed as `arg1..argn` in order; otherwise the first failing parameter's error is raised |
| CallWrapper.ParamSectionErrors | clif/python/gen.py:678-741 | a parameter raises only a lowering error or one of the two refused defaults |
| CallWrapper.PreambleArgs | clif/python/gen.py:654-746 | the call receives self when taken, then every parameter in order, then the output variables by address |
| CallWrapper.ParamArgs | clif/python/gen.py:678-683 | converted parameters are all lowered and passed in order |
| CallWrapper.SwitchPassesLeadingArgs | clif/python/gen.py:775-792 | in the wrapper as written and as corrected: with a default and no extra outputs, the switch calls the callee once per count n from `minargs` to `nargs`, with self for an extended method and exactly the first n parameters, bound to `ret0` unless void |
| CallWrapper.CasesInRange | clif/python/gen.py:775-792 | only the switch has cases, and only for counts from `minargs` to `nargs` |
| CallWrapper.SingleCallPassesAll | clif/python/gen.py:793-807 | in the wrapper as written and as corrected: without the switch the callee is called once, with self, every parameter and every output |
| CallWrapper.GilReleasedAroundCall | clif/python/gen.py:752-823 | in the wrapper as written and as corrected: unless the GIL is kept, it is released exactly once, just around the native call; args/kw are increfed before and decrefed after exactly when there are parameters; a caught exception is raised only once the GIL is back |
| CallWrapper.GilKept | clif/python/gen.py:752-757 | in the wrapper as written and as corrected: a function that keeps the GIL neither releases it nor touches the argument references |
| CallWrapper.PreambleOutsideCall | clif/python/gen.py:641-747 | nothing before the call section runs native code or touches the GIL |
| CallWrapper.ReturnOutsideCall | clif/python/gen.py:824-882 | nothing in the return section runs native code or touches the GIL |
| CallWrapper.Ret0DeclaredOnce | clif/python/gen.py:743-807 | in the corrected wrapper, `ret0` is declared exactly once when there is a result (the return value, or a void function's first output `T ret0{};`) and never otherwise |
| CallWrapper.Ret0DeclaredTwice | clif/python/gen.py:760-807 | as written, a default parameter, an extra output, an `int` return and no exception handling declare `ret0` twice |
| CallWrapper.SlotsRet0Declarations | clif/python/gen.py:743-746 | of the output variables, only a void function's first one is `ret0` |
| CallWrapper.PreambleRet0Declarations | clif/python/gen.py:641-746 | before the call, `ret0` is declared exactly once for a void function with outputs, and never otherwise |
| CallWrapper.WrapperRet0Declarations | clif/python/gen.py:743-807 | in either wrapper, `ret0` is declared by the output slot of a void function with outputs, and otherwise only inside the native call |
| CallWrapper.ReturnShapes | clif/python/gen.py:824-881 | `-> self` with outputs fails; otherwise several outputs, or one with a post-processor or a context-manager name, give a tuple; one plain output is returned as is; with none, self is returned for `-> self` and `__enter__@`, None otherwise |
| CallWrapper.ContextManagerReturns | clif/python/gen.py:861-879 | `__enter__@` always returns self; `__exit__@` returns None unless it is marked `-> self` with no outputs |
| CallWrapper.PostprocApplied | clif/python/gen.py:847-860 | a post-processor is imported and called on the result tuple when there is an output; a context manager discards the result |
| CallWrapper.TupleItemsInOrder | clif/python/gen.py:836-846 | output i becomes tuple item i, in order |
| CallWrapper.Ret0PointerType | clif/python/gen.py:761-764 | a caught reference result is held through a pointer: `T&` becomes `T*` |
| CallWrapper.Ret0HeldByPointer | clif/python/gen.py:760-770 | in the wrapper as written and as corrected, such a `ret0` is declared with the pointer type |
| CallWrapper.InvocationsInNative | clif/python/gen.py:775-807 | every call of the callee, a switch case or the single call, runs inside the native call |
| CallWrapper.Ret0AssignedByAddress | clif/python/gen.py:775-802 | in the corrected wrapper, a `ret0` held through a pointer is assigned the address of the result by every call, in the switch as in the single call |
| CallWrapper.PointerAssignedByValue | clif/python/gen.py:760-792 | as written, `int& f(int a=1)` with exceptions caught declares `int* ret0;` and then writes `case 0: ret0 = F(); break;` |
| CallWrapper.OnlyRet0Dereferenced | clif/python/gen.py:830-876 | in the corrected wrapper, only `ret0` is ever dereferenced, and only when held through a pointer |
| CallWrapper.OutputDereferenced | clif/python/gen.py:830-846 | as written, with a caught `int&` return and two outputs, the plain `ret1` is passed as `*ret1` |
| CallWrapper.WrapperErrors | clif/python/gen.py:626-631 | an invalid context-manager name is refused first; `-> self` with outputs is refused only once every parameter converts |
| CallWrapper.FuncAst.constructor | clif/python/gen.py:603-604 | the object holds the given declaration |
| CallWrapper.EmitParams | clif/python/gen.py:678-741 | the parameter loop writes the reference parameter section or stops at the first error |
| CallWrapper.EmitRetSlots | clif/python/gen.py:743-746 | the output loop declares `ret<n>` for every output except `ret0` of a non-void function, and passes each by address |
| CallWrapper.EmitPreamble | clif/python/gen.py:641-746 | the statements before the call are the reference ones |
| CallWrapper.EmitCases | clif/python/gen.py:779-791 | the case loop writes the reference cases, each with the given binding |
| CallWrapper.EmitPrelude | clif/python/gen.py:748-751 | every command but the last of a list `call` is written in order |
| CallWrapper.EmitNative | clif/python/gen.py:758-810 | the native call is the corrected reference one |
| CallWrapper.EmitCall | clif/python/gen.py:747-823 | the call section is the corrected reference one |
| CallWrapper.EmitReturn | clif/python/gen.py:824-882 | the return section, with its tuple loop, is the corrected reference one |
| CallWrapper.FunctionCall | clif/python/gen.py:603-882 | the wrapper, or the error, is the corrected plan; `-> self` on the declaration is cleared exactly when generation reaches the return section |
| Emitters.LStripColons | clif/python/gen.py:125 | `lstrip(':')` removes only leading colons and leaves no leading colon |
| Emitters.RStripColons | clif/python/gen.py:125 | `rstrip(':')` removes only trailing colons and leaves no trailing colon |
| Emitters.NsNameStrips | clif/python/gen.py:125 | the namespace is the given one (`clif` if none) minus its leading and trailing colons, and nothing else |
| Emitters.OpenNs | clif/python/gen.py:122-124 | reference definition of `OpenNs`: the namespaces to open; its properties are NsNameStrips, SplitCount, SplitJoin, NamespacesBalanced, DefaultNamespace and NestedNamespace |
| Emitters.CloseNs | clif/python/gen.py:127-129 | reference definition of `CloseNs`: the number of braces and the namespace named in the comment; its properties are NamespacesBalanced, DefaultNamespace and NestedNamespace |
| Emitters.SplitCount | clif/python/gen.py:126-131 | splitting at `::` gives one piece more than `count('::')` |
| Emitters.SplitJoin | clif/python/gen.py:126 | joining the pieces with `::` gives back the name |
| Emitters.NamespacesBalanced | clif/python/gen.py:124-131 | `CloseNs` writes one brace per namespace `OpenNs` opens, `1 + count('::')` of each, and both name the same namespace |
| Emitters.DefaultNamespace | clif/python/gen.py:125 | no namespace means `namespace clif {` and one closing brace |
| Emitters.NestedNamespace | clif/python/gen.py:124-131 | `::a::b` opens `a` then `b`, and closes two braces |
| Emitters.DefLine | clif/python/gen.py:148-155 | reference definition of `_DefLine`; its properties are DefLineFields and DefLineExamples |
| Emitters.DefLineFields | clif/python/gen.py:150-157 | the function is cast to `PyCFunction` exactly when the flags mention KEYWORD or NOARGS; the doc is `nullptr` exactly when there is none |
| Emitters.DefLineExamples | clif/python/gen.py:151-152 | a keywords method is cast; `METH_O` is not |
| Emitters.IterNext | clif/python/gen.py:976-986 | reference definition of the `iternext` body; its property is IterNextGil |
| Emitters.IterNextGil | clif/python/gen.py:975-986 | the GIL is released and taken back exactly for an asynchronous iterator, around the one call that advances it |
| Emitters.Dtor | clif/python/gen.py:413-430 | reference definition of `_dtor`; its properties are DtorReleasesThreads, DtorDestroysOnce, DtorClears and DtorWindow |
| Emitters.DtorReleasesThreads | clif/python/gen.py:418-426 | threads are allowed exactly for an iterator or a non-trivial destructor |
| Emitters.DtorDestroysOnce | clif/python/gen.py:419-424 | the iterator or the C++ object is destroyed exactly once |
| Emitters.DtorClears | clif/python/gen.py:413-430 | weak references and the instance dict are cleared only for a wrapped class; memory is freed last |
| Emitters.DtorWindow | clif/python/gen.py:418-426 | when threads are allowed, the destruction sits between the release and the reacquire |
| Emitters.VirtualFunctionCall | clif/python/gen.py:907-940 | reference definition of `_VirtualFunctionCall`'s redirector body; its property is VirtualForwarding |
| Emitters.VirtualForwarding | clif/python/gen.py:907-940 | the Python override and the native fallback both get `len(params)+len(returns)-(ret!='void')` arguments; an abstract class has no fallback but `Py_FatalError` then `abort()` |

## Left out

- `WriteTo` (`clif/python/gen.py:77-80`) is output to a channel. The model
  returns the statements instead of writing them.
- The C++ text itself: indentation, the exact spelling of each line,
  `ArgError` messages and line numbers. Each statement is a token.
- The helpers from `astutils`, `postconv` and `slots`.
  - They are not part of this model.
  - `FuncReturnType` enters as the `returnType` field of the declaration.
  - `astutils.Type`, `TupleStr`, `FuncParamStr` and the post-conversion
    initializers are not modelled.
  - Their results appear only as token parameters.
- `typepostconversion`, `marked_non_raising`, `doc`, `wrapper` and `lineno`
  only fill in text, so they are not modelled.
- The error path keeps nothing of what was already yielded. A generator that
  raises part-way has yielded some lines, but the model's result is the error
  alone.
- CallWrapper.Wrapper: requires that a non-void function has at least one
  output description. The source indexes `returns[0]` (`clif/python/gen.py:765`)
  and its front end always provides it.
- CallWrapper.PlainName: removes a single trailing `@`, where
  `rstrip('@')` removes them all. The two agree on every name that passes the
  context-manager check, since only `__enter__@` and `__exit__@` end in `@`.
- CallWrapper.RStrip: whitespace is the ASCII set that Python strips: space,
  tab through carriage return, and the separators 0x1C-0x1F. Other Unicode
  spaces are not modelled.
- TopoSort.TopologicalSortSimple: Python's recursion limit
  (`clif/python/gen.py:43-44`) is not modelled. A deep but acyclic input
  succeeds in the model.
- The C++ runtime meaning of what is written is not modelled: the GIL,
  reference counts and `PyType_Ready`. Only what is written, and in what
  order, is proved.
- Emitters.VirtualForwarding: stated for a non-void function that has an
  output description for its return value, as the front end provides. For
  other inputs the count is clamped at zero, like `range` of a negative
  number.
- Emitters.OpenNs: `None` and the empty string are one input here, since
  both become `clif`.
- The test helper `clif/testing/python/lambda_expressions_clif_aux.h` and the
  fixed-text emitters in the same file are out of scope:
  `Headlines`, `TypeConverters`, `InitFunction`, `PyModInitFunction`, most of
  `TypeObject`, `CastAsCapsule`, `NewIter`, and the `MethodDef`/`GetSetDef`
  tables.

## Findings

| source | as written | input that shows it | evidently intended | confidence | as-written member | corrected member |
|---|---|---|---|---|---|---|
| clif/python/gen.py:760-807 | `ret0` is predeclared when `minargs < nargs or catch`, but the switch that assigns it is used only when there are also no extra outputs; otherwise the single call writes `T ret0 = call(...)` again | one parameter with default `1`, two outputs, return type `int`, no exception handling | predeclare `ret0` only when the switch or the try block assigns it | not executed | CallWrapper.Ret0DeclaredTwice | CallWrapper.Ret0DeclaredOnce |
| clif/python/gen.py:830-837 | with a caught reference return, every tuple item is written `*ret<i>`, but only `ret0` was turned into a pointer; `ret1` is a plain `T ret1{}` | exceptions caught, return type `int&`, two `int` outputs | dereference only `ret0` | not executed | CallWrapper.OutputDereferenced | CallWrapper.OnlyRet0Dereferenced |
| clif/python/gen.py:775-777 | with a caught reference return, `ret0` is declared `T*`, but each case of the switch writes `ret0 = call(...)`; only the single call takes the address with `ret0 = &call(...)` | exceptions caught, return type `int&`, one `int` parameter with default `1` | assign `&call(...)` in the switch too | not executed | CallWrapper.PointerAssignedByValue | CallWrapper.Ret0AssignedByAddress |
| clif/python/gen.py:242-273 | `last_pybase` moves only to a base seen for the first time, but an older base that is not `last_pybase` is imported again into `base_cls`; a later class whose base is `last_pybase` then reuses `base_cls`, which holds the re-imported base | four classes with Python bases A, B, A, B: the fourth gets `tp_base` A | set `last_pybase` to every base linked, so `base_cls` and `last_pybase` agree | not executed | Ready.StaleBaseExample | Ready.BaseClsHoldsOwnBase |

The second and third rows are reachable only when `astutils.FuncReturnType`
reports a return type that still ends in `&`. The comment at
`clif/python/gen.py:634` says that it drops the `&`, and
`clif/python/astutils.py` is not part of this model.

In each row, the imperative generator follows the corrected behaviour. The
reference functions take a `corrected` flag, so that the lemmas can be
stated for the code as written and for the corrected code. In the fourth
row, `EmitLink` sets `last_pybase` after every Python base it links, not
only after a new one.

=== FILE: common.dfy ===
/** Small value types and sequence/string helpers shared by the generator model. */
module Common {

  datatype Option<+T> = None | Some(value: T)

  datatype Result<+T, +E> = Ok(value: T) | Err(error: E)

  /**
   * The outcome of a generator step whose source can also recurse without
   * bound: it yields a value, raises an error, or never returns.
   */
  datatype Outcome<+T, +E> = Done(value: T) | Raised(error: E) | Diverges

  /** No element occurs twice. */
  predicate Distinct<T(==)>(s: seq<T>)
  {
    forall i, j :: 0 <= i < j < |s| ==> s[i] != s[j]
  }

  lemma DistinctSnoc<T>(s: seq<T>, x: T)
    ensures Distinct(s + [x]) <==> Distinct(s) && x !in s
  {
    var t := s + [x];
    if Distinct(t) {
      forall i, j | 0 <= i < j < |s| ensures s[i] != s[j] {
        assert t[i] == s[i] && t[j] == s[j];
      }
      forall i | 0 <= i < |s| ensures s[i] != x {
        assert t[i] == s[i] && t[|s|] == x;
      }
    }
    if Distinct(s) && x !in s {
      forall i, j | 0 <= i < j < |t| ensures t[i] != t[j] {
        if j < |s| {
          assert t[i] == s[i] && t[j] == s[j];
        } else {
          assert t[i] == s[i] && s[i] in s;
        }
      }
    }
  }

  lemma InPrefix<T>(a: seq<T>, b: seq<T>, x: T)
    requires a <= b && x in a
    ensures x in b
  {
    var i :| 0 <= i < |a| && a[i] == x;
    assert b[i] == x;
  }

  /** The identity permutation 0, 1, ..., n-1. */
  function Iota(n: nat): seq<nat>
  {
    seq(n, i => i)
  }

  /** Python's slice `s[:n]` for a non-negative n: it clamps at the length. */
  function Take<T>(s: seq<T>, n: nat): seq<T>
  {
    if n <= |s| then s[..n] else s
  }

  predicate StartsWith(s: string, prefix: string)
  {
    |prefix| <= |s| && s[..|prefix|] == prefix
  }

  predicate EndsWith(s: string, suffix: string)
  {
    |suffix| <= |s| && s[|s| - |suffix|..] == suffix
  }

  /** Python's `sub in s` for strings. */
  predicate Contains(s: string, sub: string)
    decreases |s|
  {
    StartsWith(s, sub) || (|s| > 0 && Contains(s[1..], sub))
  }

  /** Python's `s * n`. */
  function Repeat(s: string, n: nat): string
  {
    if n == 0 then "" else s + Repeat(s, n - 1)
  }

  /** The number of times `x` occurs in `s`. */
  function Count<T(==)>(s: seq<T>, x: T): nat
  {
    if s == [] then 0 else (if s[0] == x then 1 else 0) + Count(s[1..], x)
  }

  lemma {:induction false} CountAppend<T>(a: seq<T>, b: seq<T>, x: T)
    ensures Count(a + b, x) == Count(a, x) + Count(b, x)
  {
    if a == [] {
      assert a + b == b;
    } else {
      assert (a + b)[1..] == a[1..] + b;
      CountAppend(a[1..], b, x);
    }
  }

  lemma {:induction false} CountAbsent<T>(s: seq<T>, x: T)
    requires x !in s
    ensures Count(s, x) == 0
  {
    if s != [] {
      assert x !in s[1..];
      CountAbsent(s[1..], x);
    }
  }

  /** `a + [x] + b` holds `x` once and never `y`. */
  lemma CountOnce<T>(a: seq<T>, x: T, b: seq<T>, y: T)
    requires x !in a && x !in b && y !in a && y !in b && x != y
    ensures Count(a + [x] + b, x) == 1
    ensures Count(a + [x] + b, y) == 0
  {
    CountAbsent(a, x);
    CountAbsent(b, x);
    CountAppend(a, [x], x);
    CountAppend(a + [x], b, x);
    CountAbsent(a, y);
    CountAbsent(b, y);
    CountAbsent([x], y);
    CountAppend(a, [x], y);
    CountAppend(a + [x], b, y);
  }
}

=== FILE: emitters.dfy ===
/**
 * The small emitters whose output depends on a decision: the namespace
 * openers and closers, a method-table entry, the iterator's `iternext`,
 * the wrapper type's `_dtor` and the virtual-function redirector.
 */
module Emitters {
  import opened Common

  // ---------------------------------------------------------------------------
  // Namespaces

  /** Python's `s.lstrip(':')`. */
  function LStripColons(s: string): (r: string)
    ensures |r| <= |s| && s[|s| - |r|..] == r
    ensures forall k :: 0 <= k < |s| - |r| ==> s[k] == ':'
    ensures r == [] || r[0] != ':'
    decreases |s|
  {
    if |s| > 0 && s[0] == ':' then LStripColons(s[1..]) else s
  }

  /** Python's `s.rstrip(':')`. */
  function RStripColons(s: string): (r: string)
    ensures |r| <= |s| && s[..|r|] == r
    ensures forall k :: |r| <= k < |s| ==> s[k] == ':'
    ensures r == [] || r[|r| - 1] != ':'
    decreases |s|
  {
    if |s| > 0 && s[|s| - 1] == ':' then RStripColons(s[..|s| - 1]) else s
  }

  /** `namespace or 'clif'`; None and '' are both the empty string here. */
  function Given(namespace: string): string
  {
    if namespace == "" then "clif" else namespace
  }

  /** `(namespace or 'clif').strip(':')`. */
  function NsName(namespace: string): string
  {
    RStripColons(LStripColons(Given(namespace)))
  }

  /** Python's `s.count('::')`: non-overlapping occurrences, scanning from the left. */
  function CountSep(s: string): nat
    decreases |s|
  {
    if |s| < 2 then 0
    else if s[..2] == "::" then 1 + CountSep(s[2..])
    else CountSep(s[1..])
  }

  /** Python's `s.split('::')`. */
  function SplitSep(s: string): (r: seq<string>)
    ensures |r| >= 1
    decreases |s|
  {
    if |s| < 2 then [s]
    else if s[..2] == "::" then [""] + SplitSep(s[2..])
    else
      var rest := SplitSep(s[1..]);
      [[s[0]] + rest[0]] + rest[1..]
  }

  /** `'::'.join(parts)`. */
  function JoinSep(parts: seq<string>): string
    requires |parts| >= 1
  {
    if |parts| == 1 then parts[0] else parts[0] + "::" + JoinSep(parts[1..])
  }

  /** `OpenNs`: the namespaces opened, in order; each is rendered `namespace <n> {`. */
  function OpenNs(namespace: string): seq<string>
  {
    SplitSep(NsName(namespace))
  }

  /** `CloseNs`: `braces` closing braces, then the comment `// namespace <name>`. */
  datatype Closer = Closer(braces: nat, name: string)

  function CloseNs(namespace: string): Closer
  {
    var n := NsName(namespace);
    Closer(1 + CountSep(n), n)
  }

  /** Splitting at `::` yields one more piece than there are separators. */
  lemma {:induction false} SplitCount(s: string)
    ensures |SplitSep(s)| == CountSep(s) + 1
    decreases |s|
  {
    if |s| >= 2 {
      if s[..2] == "::" {
        SplitCount(s[2..]);
      } else {
        SplitCount(s[1..]);
      }
    }
  }

  /** Joining the pieces with `::` gives back the name. */
  lemma {:induction false} SplitJoin(s: string)
    ensures JoinSep(SplitSep(s)) == s
    decreases |s|
  {
    if |s| >= 2 {
      if s[..2] == "::" {
        SplitJoin(s[2..]);
        var rest := SplitSep(s[2..]);
        assert ([""] + rest)[1..] == rest;
        assert s == "::" + s[2..];
      } else {
        SplitJoin(s[1..]);
        var rest := SplitSep(s[1..]);
        var r := [[s[0]] + rest[0]] + rest[1..];
        assert r[1..] == rest[1..];
        if |rest| == 1 {
          assert JoinSep(r) == [s[0]] + rest[0];
        } else {
          assert JoinSep(r) == [s[0]] + rest[0] + "::" + JoinSep(rest[1..]);
          assert JoinSep(rest) == rest[0] + "::" + JoinSep(rest[1..]);
        }
        assert s == [s[0]] + s[1..];
      }
    }
  }

  /**
   * The braces `CloseNs` emits match the namespaces `OpenNs` opens, one
   * more than the `::` separators, and both name the same namespace.
   */
  lemma NamespacesBalanced(namespace: string)
    ensures |OpenNs(namespace)| == CloseNs(namespace).braces == 1 + CountSep(NsName(namespace))
    ensures JoinSep(OpenNs(namespace)) == CloseNs(namespace).name
  {
    SplitCount(NsName(namespace));
    SplitJoin(NsName(namespace));
  }

  /**
   * The name is the given one (`clif` if none) without its leading and trailing
   * colons, and nothing else removed: it sits at offset `i`.
   */
  lemma NsNameStrips(namespace: string) returns (i: nat)
    ensures var n := Given(namespace);
            var r := NsName(namespace);
            && i + |r| <= |n| && n[i..i + |r|] == r
            && (forall k :: 0 <= k < i ==> n[k] == ':')
            && (forall k :: i + |r| <= k < |n| ==> n[k] == ':')
    ensures NsName(namespace) == [] || (NsName(namespace)[0] != ':' && NsName(namespace)[|NsName(namespace)| - 1] != ':')
  {
    i := StripsAt(Given(namespace));
  }

  lemma StripsAt(n: string) returns (i: nat)
    ensures var r := RStripColons(LStripColons(n));
            && i + |r| <= |n| && n[i..i + |r|] == r
            && (forall k :: 0 <= k < i ==> n[k] == ':')
            && (forall k :: i + |r| <= k < |n| ==> n[k] == ':')
  {
    var l := LStripColons(n);
    var r := RStripColons(l);
    i := |n| - |l|;
    assert l == n[i..];
    assert r == l[..|r|];
    assert n[i..i + |r|] == r;
    forall k | i + |r| <= k < |n| ensures n[k] == ':' {
      assert n[k] == l[k - i];
    }
  }

  /** No `::` inside. */
  predicate NoSep(s: string)
  {
    forall i :: 0 <= i < |s| - 1 ==> !(s[i] == ':' && s[i + 1] == ':')
  }

  /** A name without `::` is one namespace. */
  lemma {:induction false} SingleComponent(s: string)
    requires NoSep(s)
    ensures SplitSep(s) == [s] && CountSep(s) == 0
    decreases |s|
  {
    if |s| >= 2 {
      assert s[..2] != "::" by {
        assert !(s[0] == ':' && s[1] == ':');
      }
      assert NoSep(s[1..]) by {
        forall i | 0 <= i < |s[1..]| - 1 ensures !(s[1..][i] == ':' && s[1..][i + 1] == ':') {
          assert s[1..][i] == s[i + 1] && s[1..][i + 1] == s[i + 2];
        }
      }
      SingleComponent(s[1..]);
      assert [s[0]] + s[1..] == s;
    }
  }

  /** With no namespace given, the generated code lives in `clif`. */
  lemma DefaultNamespace()
    ensures OpenNs("") == ["clif"] && CloseNs("") == Closer(1, "clif")
  {
    var c := "clif";
    assert c[0] == 'c' && c[|c| - 1] == 'f';
    assert LStripColons(c) == c;
    assert RStripColons(c) == c;
    assert NoSep(c);
    SingleComponent(c);
  }

  /** A leading `::` is dropped; each inner `::` opens one more namespace. */
  lemma NestedNamespace()
    ensures OpenNs("::a::b") == ["a", "b"] && CloseNs("::a::b") == Closer(2, "a::b")
  {
    var ab := ['a'] + [':', ':'] + ['b'];
    var n := [':', ':'] + ab;
    assert n == "::a::b" && ab == "a::b";
    assert n[1..] == [':'] + ab && n[1..][1..] == ab;
    assert LStripColons(ab) == ab;
    assert LStripColons(n) == ab;
    assert RStripColons(ab) == ab;
    SplitAB();
  }

  lemma SplitAB()
    ensures SplitSep("a::b") == ["a", "b"] && CountSep("a::b") == 1
  {
    var b := ['b'];
    var sb := [':', ':'] + b;
    var ab := ['a'] + sb;
    assert ab == "a::b";
    SingleComponent(b);
    assert sb[..2] == "::" && sb[2..] == b;
    assert SplitSep(sb) == ["", "b"];
    assert CountSep(sb) == 1;
    assert ab[..2] != "::" && ab[1..] == sb;
    assert SplitSep(ab) == [[ab[0]] + ""] + ["b"];
    assert [ab[0]] + "" == "a";
  }

  // ---------------------------------------------------------------------------
  // Method-table entries

  /** A `PyMethodDef` initializer `{"<name>", <callee>, <flags>, <doc>}`. */
  datatype DefEntry = DefEntry(name: string, callee: string, flags: string, doc: string)

  /** The C string literal for a docstring. */
  function Quote(s: string): string
  {
    "\"" + s + "\""
  }

  /** `_DefLine`: a method taking keywords or no arguments is cast to `PyCFunction`. */
  function DefLine(pyname: string, cname: string, meth: string, doc: Option<string>): DefEntry
  {
    var callee := if Contains(meth, "KEYWORD") || Contains(meth, "NOARGS") then "(PyCFunction)" + cname else cname;
    DefEntry(pyname, callee, meth, match doc case None => "nullptr" case Some(d) => Quote(d))
  }

  /**
   * The function is cast exactly when the flags mention KEYWORD or NOARGS
   * and is otherwise the plain name; a missing docstring is a null pointer,
   * which no quoted docstring can be.
   */
  lemma DefLineFields(pyname: string, cname: string, meth: string, doc: Option<string>)
    ensures var e := DefLine(pyname, cname, meth, doc);
      && e.name == pyname && e.flags == meth
      && (e.callee == "(PyCFunction)" + cname <==> Contains(meth, "KEYWORD") || Contains(meth, "NOARGS"))
      && (e.callee != "(PyCFunction)" + cname ==> e.callee == cname)
      && (e.doc == "nullptr" <==> doc.None?)
  {
    var e := DefLine(pyname, cname, meth, doc);
    if !(Contains(meth, "KEYWORD") || Contains(meth, "NOARGS")) {
      assert |e.callee| < |"(PyCFunction)" + cname|;
    }
    if doc.Some? {
      assert e.doc[0] == '"' && "nullptr"[0] == 'n';
    }
  }

  lemma DefLineExamples()
    ensures DefLine("f", "wrapf", "METH_VARARGS | METH_KEYWORDS", None).callee == "(PyCFunction)wrapf"
    ensures DefLine("g", "wrapg", "METH_O", Some("doc")).callee == "wrapg"
  {
    assert "METH_VARARGS | METH_KEYWORDS"[20..20 + 7] == "KEYWORD";
    ContainsAt("METH_VARARGS | METH_KEYWORDS", "KEYWORD", 20);
    NotContainedShort("METH_O", "KEYWORD");
    assert "METH_O"[..6][0] != "NOARGS"[0] && "METH_O"[1..] == "ETH_O";
    NotContainedShort("ETH_O", "NOARGS");
  }

  /** A substring found at offset `i` is contained. */
  lemma {:induction false} ContainsAt(s: string, sub: string, i: nat)
    requires i + |sub| <= |s| && s[i..i + |sub|] == sub
    ensures Contains(s, sub)
    decreases i
  {
    if i > 0 {
      assert s[1..][i - 1..i - 1 + |sub|] == sub;
      ContainsAt(s[1..], sub, i - 1);
    }
  }

  /** A string shorter than `sub` does not contain it. */
  lemma {:induction false} NotContainedShort(s: string, sub: string)
    requires |s| < |sub|
    ensures !Contains(s, sub)
    decreases |s|
  {
    if |s| > 0 {
      NotContainedShort(s[1..], sub);
    }
  }

  // ---------------------------------------------------------------------------
  // iternext

  datatype IterStmt =
    | IterOpen            // PyObject* iternext(PyObject* self) {
    | DeclareSave         // PyThreadState* _save;
    | IterUnblock         // Py_UNBLOCK_THREADS
    | AdvanceIterator     // auto* v = <iter>.Next();
    | IterBlock           // Py_BLOCK_THREADS
    | ReturnNext          // return v? Clif_PyObjFrom(*v, ...): nullptr;
    | IterClose           // }

  /** `IterNext`: the `tp_iternext` body; an asynchronous iterator advances without the GIL. */
  function IterNext(isAsync: bool): seq<IterStmt>
  {
    [IterOpen]
    + (if isAsync then [DeclareSave, IterUnblock] else [])
    + [AdvanceIterator]
    + (if isAsync then [IterBlock] else [])
    + [ReturnNext, IterClose]
  }

  /**
   * The GIL is released and reacquired exactly for an asynchronous
   * iterator, around the one call that advances it, and the value is
   * returned after the GIL is back.
   */
  lemma IterNextGil(isAsync: bool)
    ensures IterUnblock in IterNext(isAsync) <==> isAsync
    ensures IterBlock in IterNext(isAsync) <==> isAsync
    ensures Count(IterNext(isAsync), AdvanceIterator) == 1
    ensures isAsync ==> IterNext(isAsync) == [IterOpen, DeclareSave, IterUnblock, AdvanceIterator, IterBlock, ReturnNext, IterClose]
    ensures !isAsync ==> IterNext(isAsync) == [IterOpen, AdvanceIterator, ReturnNext, IterClose]
  {
    var before := [IterOpen] + (if isAsync then [DeclareSave, IterUnblock] else []);
    var after := (if isAsync then [IterBlock] else []) + [ReturnNext, IterClose];
    assert IterNext(isAsync) == before + [AdvanceIterator] + after;
    CountAbsent(before, AdvanceIterator);
    CountAbsent(after, AdvanceIterator);
    CountAppend(before, [AdvanceIterator], AdvanceIterator);
    CountAppend(before + [AdvanceIterator], after, AdvanceIterator);
  }

  // ---------------------------------------------------------------------------
  // The wrapper type's destructor

  datatype DtorStmt =
    | DtorOpen            // static void _dtor(PyObject* self) {
    | ClearWeakRefs       // if (...->weakrefs) { PyObject_ClearWeakRefs(self); }
    | AllowThreads        // Py_BEGIN_ALLOW_THREADS
    | DestroyIterator     // <iterator>.~iterator();
    | DestructCpp         // ...->cpp.Destruct();
    | EndAllowThreads     // Py_END_ALLOW_THREADS
    | ClearInstanceDict   // Py_CLEAR(...->instance_dict);
    | FreeObject          // Py_TYPE(self)->tp_free(self);
    | DtorClose           // }

  /**
   * The `_dtor` body of `TypeObject`; `iterator` is the iterator's name,
   * empty for a plain wrapped class.
   */
  function Dtor(iterName: string, trivialDtor: bool, enableInstanceDict: bool): seq<DtorStmt>
  {
    var isIter := iterName != "";
    var release := isIter || !trivialDtor;
    [DtorOpen]
    + (if !isIter then [ClearWeakRefs] else [])
    + (if release then [AllowThreads] else [])
    + [if isIter then DestroyIterator else DestructCpp]
    + (if release then [EndAllowThreads] else [])
    + (if !isIter && enableInstanceDict then [ClearInstanceDict] else [])
    + [FreeObject, DtorClose]
  }

  /** Threads are allowed to run exactly while an iterator or a class with a non-trivial destructor is destroyed. */
  lemma DtorReleasesThreads(iterName: string, trivialDtor: bool, enableInstanceDict: bool)
    ensures AllowThreads in Dtor(iterName, trivialDtor, enableInstanceDict) <==> iterName != "" || !trivialDtor
    ensures EndAllowThreads in Dtor(iterName, trivialDtor, enableInstanceDict) <==> iterName != "" || !trivialDtor
  {
  }

  /**
   * Weak references and the instance dictionary are cleared only for a
   * wrapped class, and the memory is freed last.
   */
  lemma DtorClears(iterName: string, trivialDtor: bool, enableInstanceDict: bool)
    ensures var body := Dtor(iterName, trivialDtor, enableInstanceDict);
      && (ClearWeakRefs in body <==> iterName == "")
      && (ClearInstanceDict in body <==> iterName == "" && enableInstanceDict)
      && body[|body| - 2..] == [FreeObject, DtorClose]
  {
  }

  /** The C++ object, or the iterator, is destroyed exactly once. */
  lemma DtorDestroysOnce(iterName: string, trivialDtor: bool, enableInstanceDict: bool)
    ensures var body := Dtor(iterName, trivialDtor, enableInstanceDict);
      && Count(body, DestroyIterator) + Count(body, DestructCpp) == 1
      && (Count(body, DestroyIterator) == 1 <==> iterName != "")
  {
    var body := Dtor(iterName, trivialDtor, enableInstanceDict);
    var isIter := iterName != "";
    var release := isIter || !trivialDtor;
    var a := [DtorOpen] + (if !isIter then [ClearWeakRefs] else []) + (if release then [AllowThreads] else []);
    var b := (if release then [EndAllowThreads] else []) + (if !isIter && enableInstanceDict then [ClearInstanceDict] else []) + [FreeObject, DtorClose];
    var x := if isIter then DestroyIterator else DestructCpp;
    var y := if isIter then DestructCpp else DestroyIterator;
    assert body == a + [x] + b;
    CountOnce(a, x, b, y);
  }

  /** When threads are released, the destruction is between the release and the reacquire. */
  lemma DtorWindow(iterName: string, trivialDtor: bool, enableInstanceDict: bool)
    requires iterName != "" || !trivialDtor
    ensures var body := Dtor(iterName, trivialDtor, enableInstanceDict);
      var k := if iterName == "" then 3 else 2;
      && body[k - 1] == AllowThreads
      && body[k] == (if iterName != "" then DestroyIterator else DestructCpp)
      && body[k + 1] == EndAllowThreads
  {
  }

  // ---------------------------------------------------------------------------
  // Virtual-function redirector

  datatype VirtualStmt =
    | Override                             // <ret> <fname>(<params>) <mods> override {
    | LookUpImpl                           // SafeAttr impl(self(), "<native>");
    | IfImpl                               // if (impl.get()) {
    | CallPython(hasResult: bool, args: nat) // [return ]::clif::callback::Func<...>(impl.get(), {...})(std::move(a0), ...);
    | Otherwise                            // } else {
    | FatalError                           // Py_FatalError("@virtual method ... has no Python implementation.");
    | Abort                                // abort();
    | CallNative(hasResult: bool, args: nat) // [return ]<name>(std::move(a0), ...);
    | EndIf                                // }
    | EndOverride                          // }

  /**
   * The number of arguments forwarded: the parameters and the outputs,
   * less the one output that is the C++ return value; Python's `range` of
   * a negative count is empty.
   */
  function ForwardedCount(nparams: nat, nreturns: nat, ret: string): nat
  {
    var k := nparams + nreturns - (if ret != "void" then 1 else 0);
    if k < 0 then 0 else k
  }

  /** `_VirtualFunctionCall`: call the Python override if there is one, else fall back. */
  function VirtualFunctionCall(nparams: nat, nreturns: nat, ret: string, isAbstract: bool): seq<VirtualStmt>
  {
    var n := ForwardedCount(nparams, nreturns, ret);
    var hasResult := ret != "void";
    [Override, LookUpImpl, IfImpl, CallPython(hasResult, n), Otherwise]
    + (if isAbstract then [FatalError, Abort] else [CallNative(hasResult, n)])
    + [EndIf, EndOverride]
  }

  /**
   * The Python override and the native fallback receive the same
   * arguments `a0 .. a<n-1>`: every parameter and every output that is not
   * the return value. In an abstract class there is no fallback: a missing
   * override is fatal and the process aborts.
   */
  lemma VirtualForwarding(nparams: nat, nreturns: nat, ret: string, isAbstract: bool)
    requires ret != "void" ==> nreturns >= 1
    ensures var body := VirtualFunctionCall(nparams, nreturns, ret, isAbstract);
      && body[3] == CallPython(ret != "void", nparams + nreturns - (if ret != "void" then 1 else 0))
      && (forall s :: s in body && s.CallNative? ==> s == CallNative(body[3].hasResult, body[3].args))
      && (isAbstract <==> FatalError in body)
      && (isAbstract ==> (forall s :: s in body ==> !s.CallNative?) && body[5..7] == [FatalError, Abort])
      && (!isAbstract ==> body[5] == CallNative(ret != "void", body[3].args) && Abort !in body)
  {
  }
}

=== FILE: function_call.dfy ===
/**
 * The wrapper FunctionCall writes for one C++ function: a PyCFunction that
 * parses the Python arguments, converts each to a C++ stack variable,
 * releases the GIL around the C++ call (a switch on the number of passed
 * arguments when trailing defaults may be omitted), and converts the
 * results back to Python.
 *
 * Each emitted C++ statement is a token of `Stmt`; the text around it
 * (indentation, error messages, the post-conversion initializers) is not
 * modelled.
 */
module CallWrapper {
  import opened Common
  import opened Lowering

  // ---------------------------------------------------------------------------
  // Inputs

  /** A parameter or return value of the wrapped function. */
  datatype Param = Param(name: string, ptype: ParamType, defaultValue: string)

  /**
   * The parts of the function declaration FunctionCall reads. `returnType`
   * is the C++ return type the front end reports for it ("void" when the
   * function returns nothing).
   */
  datatype FuncDecl = FuncDecl(
    params: seq<Param>,
    results: seq<Param>,
    returnType: string,
    classmethod: bool,
    pyKeepGil: bool,
    isExtendMethod: bool,
    isConstructor: bool,
    cppName: string,
    postproc: string)

  /**
   * A function whose C++ return type is not void has its return value as
   * the first entry of `results`.
   */
  predicate WellFormed(d: FuncDecl)
  {
    d.returnType != "void" ==> |d.results| >= 1
  }

  /**
   * How the wrapper is called: the Python name (ending in '@' for a
   * context-manager method), whether C++ exceptions are caught, the C++
   * statements to run before the call, the callee, the statement that
   * completes the result after the call, and the parameter that receives
   * `self` when the callee takes it as its first argument.
   */
  datatype CallSite = CallSite(
    pyname: string,
    catch: bool,
    callPrelude: seq<string>,
    callee: string,
    postcallInit: string,
    prependSelf: Option<Param>)

  datatype ContextManager = NotContextManager | Enter | Exit

  /** An argument of the C++ call: `argN` forwarded as `forward`, or `&retN`. */
  datatype Arg = Input(slot: nat, forward: Forward) | Output(n: nat)

  /** What the C++ call's value is bound to. */
  datatype Binding =
    | Discard                           // call;
    | AssignRet0                        // ret0 = call;
    | AssignRet0Address                 // ret0 = &call;
    | DefineRet0(returnType: string)    // T ret0 = call;

  /** One C++ call: the binding, the constructor name formatted in for an extended constructor, the arguments. */
  datatype Invocation = Invocation(binding: Binding, ctorName: Option<string>, args: seq<Arg>)

  /** The statements of the generated wrapper. */
  datatype Stmt =
    | Blank
    | DocComment(classmethod: bool)
    | Signature(usesCls: bool, takesArgs: bool)   // PyObject* f(PyObject* self|cls[, args, kw]) {
    | EnsureNoArgs(pyname: string)                // __call__ without parameters refuses arguments
    | DeclareSelf(decl: Decl)                     // the arg0 variable receiving self
    | ConvertSelf                                 // if (!Clif_PyObjAs(self, &arg0)) return nullptr;
    | ArgArray(size: nat, zeroed: bool)           // PyObject* a[size]{};
    | KeywordNames(names: seq<string>)            // const char* names[] = {...};
    | ParseArgs(format: string, pyname: string)   // PyArg_ParseTupleAndKeywords(args, kw, "format:pyname", ...)
    | CountPassed(nargs: nat, minargs: nat)       // the loop that finds how many arguments were passed
    | DeclareArg(n: nat, decl: Decl)              // the argN variable
    | IfPassed(i: nat)                            // if (nargs > i) {
    | EndIf
    | RequirePassed(i: nat)                       // if (!a[i]) return DefaultArgMissedError(...);
    | Convert(i: nat)                             // if (!Clif_PyObjAs(a[i], &arg<i+1>)) return ArgError(...);
    | AssignDefault(i: nat, value: string)        // if (!a[i]) arg<i+1> = (T)value;
    | ElseConvert(i: nat)                         // else if (!Clif_PyObjAs(a[i], ...)) return ArgError(...);
    | CheckNull(i: nat)                           // if (arg<i+1> == nullptr) return ArgError(...);
    | DeclareRet(n: nat)                          // T retN{};
    | CallComment
    | CallPrelude(code: string)
    | IncrefArgs                                  // Py_INCREF(args); Py_XINCREF(kw);
    | Unblock                                     // PyThreadState* _save; Py_UNBLOCK_THREADS
    | DeclareRet0(ctype: string, optional: bool)  // T ret0; or ::absl::optional<T> ret0;
    | TryOpen
    | Switch
    | Case(n: nat, call: Invocation)
    | EndSwitch
    | Invoke(call: Invocation)
    | CatchBlocks
    | PostcallInit(code: string, onRet0: bool)
    | Block                                       // Py_BLOCK_THREADS
    | DecrefArgs                                  // Py_DECREF(args); Py_XDECREF(kw);
    | RaiseIfError
    | TupleNew(size: nat)
    | TupleItem(i: nat, deref: bool)              // PyTuple_SET_ITEM(result_tuple, i, Clif_PyObjFrom(std::move([*]reti)))
    | CallPostproc(name: string)
    | DropPostprocResult
    | KeepPostprocResult
    | ReturnSelfAfterTuple
    | ReturnNoneAfterTuple
    | ReturnTuple
    | ReturnValue(deref: bool, unwrapOptional: bool)
    | ReturnSelf
    | ReturnNone
    | Close

  datatype GenError =
    | BadContextManagerName(pyname: string)        // the assertion on a name ending in '@'
    | BadParameter(name: string, cause: LowerError)
    | UnresolvedDefaultWithOutputs(param: string)  // ValueError
    | PointerDefault(param: string)                // ValueError
    | SelfReturnWithOutputs                        // the assertion on `-> self`

  /** Lines written so far, and the C++ call's argument list built beside them. */
  datatype Emitted = Emitted(lines: seq<Stmt>, args: seq<Arg>)

  // ---------------------------------------------------------------------------
  // What FunctionCall derives before writing

  /** The number of parameters without a default value. */
  function Required(params: seq<Param>): (r: nat)
    ensures r <= |params|
  {
    if params == [] then 0
    else Required(params[..|params| - 1]) + (if params[|params| - 1].defaultValue == "" then 1 else 0)
  }

  datatype Shape = Shape(nargs: nat, minargs: nat, nret: nat, isVoid: bool)
  {
    /** The function has output parameters beyond its return value. */
    predicate ExtraOutputs()
    {
      nret > (if isVoid then 0 else 1)
    }

    /** The call is a switch on the number of passed arguments. */
    predicate Switching()
    {
      minargs < nargs && !ExtraOutputs()
    }
  }

  function ShapeOf(d: FuncDecl): Shape
  {
    Shape(|d.params|, Required(d.params), |d.results|, d.returnType == "void")
  }

  function ContextOf(pyname: string): Option<ContextManager>
  {
    if !EndsWith(pyname, "@") then Some(NotContextManager)
    else if pyname == "__enter__@" then Some(Enter)
    else if pyname == "__exit__@" then Some(Exit)
    else None
  }

  /** The Python name without the context-manager marker. */
  function PlainName(pyname: string): string
  {
    if EndsWith(pyname, "@") then pyname[..|pyname| - 1] else pyname
  }

  /** The PyArg_ParseTupleAndKeywords format: one 'O' per parameter, '|' before the optional ones. */
  function FormatString(minargs: nat, nargs: nat): string
    requires minargs <= nargs
  {
    if minargs == nargs then Repeat("O", nargs)
    else Repeat("O", minargs) + "|" + Repeat("O", nargs - minargs)
  }

  /** A default value the front end could not resolve. */
  predicate Unresolved(value: string)
  {
    value == "default" || Contains(value, "inf")
  }

  /** Python's whitespace for `str.rstrip()`, on ASCII. */
  predicate IsSpace(c: char)
  {
    c == ' ' || '\t' <= c <= '\r' || '\U{1C}' <= c <= '\U{1F}'
  }

  /** Python's `s.rstrip()`: drops the trailing whitespace and nothing else. */
  function RStrip(s: string): (r: string)
    ensures r <= s
    ensures forall k :: |r| <= k < |s| ==> IsSpace(s[k])
    ensures r == [] || !IsSpace(r[|r| - 1])
  {
    if |s| > 0 && IsSpace(s[|s| - 1]) then RStrip(s[..|s| - 1]) else s
  }

  /** Python's `s.rfind(c)`. */
  function LastIndexOf(s: string, c: char): (r: int)
    ensures -1 <= r < |s|
    ensures r >= 0 ==> s[r] == c
    ensures forall j :: r < j < |s| ==> s[j] != c
  {
    if |s| == 0 then -1
    else if s[|s| - 1] == c then |s| - 1
    else LastIndexOf(s[..|s| - 1], c)
  }

  /** With exceptions caught, a function returning a reference is held through a pointer. */
  predicate ConvertsRefToPtr(d: FuncDecl, catch: bool)
  {
    catch && d.returnType != "void" && EndsWith(RStrip(d.returnType), "&")
  }

  /** The declared type of ret0: the return type, its last '&' replaced by '*' when held through a pointer. */
  function Ret0Type(d: FuncDecl, catch: bool): string
  {
    var k := LastIndexOf(d.returnType, '&');
    if ConvertsRefToPtr(d, catch) && k >= 0 then d.returnType[..k] + "*" else d.returnType
  }

  /**
   * Whether ret0 is declared before the call rather than by it. As written
   * this holds whenever a default exists or exceptions are caught;
   * corrected, a default only counts when the call is a switch.
   */
  predicate Predeclares(shape: Shape, catch: bool, corrected: bool)
  {
    (if corrected then shape.Switching() || catch else shape.minargs < shape.nargs || catch) && !shape.isVoid
  }

  // ---------------------------------------------------------------------------
  // The sections of the wrapper

  function Header(d: FuncDecl, pyname: string): seq<Stmt>
  {
    var ternary := pyname == "__call__";
    [Blank, DocComment(d.classmethod), Signature(d.classmethod, |d.params| > 0 || ternary)]
    + (if ternary && |d.params| == 0 then [EnsureNoArgs(pyname)] else [])
  }

  function Lower(p: Param): Result<Lowered, GenError>
  {
    match CreateInputParameter(p.ptype)
    case Ok(l) => Ok(l)
    case Err(e) => Err(BadParameter(p.name, e))
  }

  /** The arg0 variable holding `self`, for a callee that takes it first. */
  function SelfSection(site: CallSite): Result<Emitted, GenError>
  {
    match site.prependSelf
    case None => Ok(Emitted([], []))
    case Some(p) =>
      match Lower(p)
      case Err(e) => Err(e)
      case Ok(l) => Ok(Emitted([DeclareSelf(l.decl), ConvertSelf], [Input(0, l.forward)]))
  }

  function Names(params: seq<Param>): seq<string>
  {
    seq(|params|, i requires 0 <= i < |params| => params[i].name)
  }

  /** The argument array, the keyword names, the parse call and the passed-argument count. */
  function ArgsPrologue(d: FuncDecl, shape: Shape, pyname: string): seq<Stmt>
    requires shape == ShapeOf(d)
  {
    if shape.nargs == 0 then []
    else
      [ArgArray(shape.nargs, shape.minargs != shape.nargs),
       KeywordNames(Names(d.params)),
       ParseArgs(FormatString(shape.minargs, shape.nargs), pyname)]
      + (if shape.Switching() then [CountPassed(shape.nargs, shape.minargs)] else [])
  }

  /** The statements converting parameter `i`, lowered as `l`. */
  function ParamLines(p: Param, i: nat, shape: Shape, l: Lowered): Result<seq<Stmt>, GenError>
  {
    var declare := [DeclareArg(i + 1, l.decl)];
    var nullCheck := if l.checkNullptr then [CheckNull(i)] else [];
    if i < shape.minargs then Ok(declare + [Convert(i)] + nullCheck)
    else
      var open := if shape.ExtraOutputs() then [] else [IfPassed(i)];
      var close := if shape.ExtraOutputs() then [] else [EndIf];
      if Unresolved(p.defaultValue) then
        if shape.ExtraOutputs() then Err(UnresolvedDefaultWithOutputs(p.name))
        else Ok(declare + open + (if i + 1 < shape.nargs then [RequirePassed(i)] else [])
                + [Convert(i)] + nullCheck + close)
      else if p.defaultValue != "" && l.forward in {AddressOf, AddressOfValue} && p.ptype.rawPointer then
        Err(PointerDefault(p.name))
      else Ok(declare + open + [AssignDefault(i, p.defaultValue), ElseConvert(i)] + nullCheck + close)
  }

  /** The first `n` parameters converted in order; the first failure is reported. */
  function ParamSection(params: seq<Param>, shape: Shape, n: nat): Result<Emitted, GenError>
    requires n <= |params|
  {
    if n == 0 then Ok(Emitted([], []))
    else
      match ParamSection(params, shape, n - 1)
      case Err(e) => Err(e)
      case Ok(done) =>
        match Lower(params[n - 1])
        case Err(e) => Err(e)
        case Ok(l) =>
          match ParamLines(params[n - 1], n - 1, shape, l)
          case Err(e) => Err(e)
          case Ok(lines) => Ok(Emitted(done.lines + lines, done.args + [Input(n, l.forward)]))
  }

  /** The first output slot: ret0 is the return value unless the function is void. */
  function FirstSlot(shape: Shape): nat
  {
    if shape.isVoid then 0 else 1
  }

  function SlotCount(shape: Shape): nat
  {
    if shape.nret < FirstSlot(shape) then 0 else shape.nret - FirstSlot(shape)
  }

  /** A variable per output parameter, passed by address. */
  function RetSlots(shape: Shape): Emitted
  {
    var first := FirstSlot(shape);
    Emitted(seq(SlotCount(shape), j requires 0 <= j => DeclareRet(first + j)),
            seq(SlotCount(shape), j requires 0 <= j => Output(first + j)))
  }

  function CtorName(d: FuncDecl): Option<string>
  {
    if d.isExtendMethod && d.isConstructor then Some(d.cppName) else None
  }

  /**
   * How each case of the switch binds the call. As written it is always
   * `ret0 = call`; corrected, a ret0 held through a pointer takes the
   * call's address, as the single call does.
   */
  function CaseBinding(d: FuncDecl, catch: bool, corrected: bool): Binding
  {
    if d.returnType == "void" then Discard
    else if corrected && ConvertsRefToPtr(d, catch) then AssignRet0Address
    else AssignRet0
  }

  /** The call made when `n` arguments were passed: an extended method also passes self. */
  function CaseCall(d: FuncDecl, binding: Binding, args: seq<Arg>, n: nat): Invocation
  {
    Invocation(binding, CtorName(d), Take(args, if d.isExtendMethod && !d.isConstructor then n + 1 else n))
  }

  function Cases(d: FuncDecl, shape: Shape, binding: Binding, args: seq<Arg>): seq<Stmt>
    requires shape.minargs <= shape.nargs
  {
    seq(shape.nargs + 1 - shape.minargs,
        j requires 0 <= j => Case(shape.minargs + j, CaseCall(d, binding, args, shape.minargs + j)))
  }

  /** The call when it is not a switch. */
  function SingleCall(d: FuncDecl, catch: bool, shape: Shape, args: seq<Arg>): Invocation
  {
    var binding :=
      if shape.isVoid then Discard
      else if catch then (if ConvertsRefToPtr(d, catch) then AssignRet0Address else AssignRet0)
      else DefineRet0(d.returnType);
    Invocation(binding, CtorName(d), args)
  }

  /** What runs while the GIL is released. */
  function NativeCall(d: FuncDecl, site: CallSite, shape: Shape, args: seq<Arg>, corrected: bool): seq<Stmt>
    requires WellFormed(d) && shape == ShapeOf(d)
  {
    (if Predeclares(shape, site.catch, corrected)
     then [DeclareRet0(Ret0Type(d, site.catch), !d.results[0].ptype.hasDefCtor)] else [])
    + (if site.catch then [TryOpen] else [])
    + (if shape.Switching() then [Switch] + Cases(d, shape, CaseBinding(d, site.catch, corrected), args) + [EndSwitch]
       else [Invoke(SingleCall(d, site.catch, shape, args))])
    + (if site.catch then [CatchBlocks] else [])
    + (if site.postcallInit != "" then [PostcallInit(site.postcallInit, !shape.isVoid)] else [])
  }

  function CallSection(d: FuncDecl, site: CallSite, shape: Shape, args: seq<Arg>, corrected: bool): seq<Stmt>
    requires WellFormed(d) && shape == ShapeOf(d)
  {
    var keep := d.pyKeepGil;
    [CallComment] + seq(|site.callPrelude|, i requires 0 <= i < |site.callPrelude| => CallPrelude(site.callPrelude[i]))
    + (if keep then [] else (if shape.nargs > 0 then [IncrefArgs] else []) + [Unblock])
    + NativeCall(d, site, shape, args, corrected)
    + (if keep then [] else [Block] + (if shape.nargs > 0 then [DecrefArgs] else []))
    + (if site.catch then [RaiseIfError] else [])
  }

  /** `-> self` is not a Python post-processor: it makes the wrapper return self. */
  function PostprocAfter(postproc: string): string
  {
    if postproc == "->self" then "" else postproc
  }

  /** The results are returned as a tuple. */
  predicate ReturnsTuple(d: FuncDecl, ctx: ContextManager)
  {
    |d.results| > 1 || ((PostprocAfter(d.postproc) != "" || ctx != NotContextManager) && |d.results| > 0)
  }

  /** The `PyTuple_SET_ITEM` lines: as written every output is dereferenced, corrected only `ret0`. */
  function TupleItems(nret: nat, deref: bool, corrected: bool): seq<Stmt>
  {
    seq(nret, i requires 0 <= i => TupleItem(i, deref && (i == 0 || !corrected)))
  }

  function ReturnSection(d: FuncDecl, catch: bool, ctx: ContextManager, shape: Shape, corrected: bool)
    : Result<seq<Stmt>, GenError>
    requires WellFormed(d) && shape == ShapeOf(d)
  {
    var postproc := PostprocAfter(d.postproc);
    var deref := ConvertsRefToPtr(d, catch);
    if d.postproc == "->self" && shape.nret != 0 then Err(SelfReturnWithOutputs)
    else if ReturnsTuple(d, ctx) then
      Ok([TupleNew(shape.nret)]
         + TupleItems(shape.nret, deref, corrected)
         + (if postproc == "" then []
            else [CallPostproc(postproc), if ctx == NotContextManager then KeepPostprocResult else DropPostprocResult])
         + [match ctx
            case Enter => ReturnSelfAfterTuple
            case Exit => ReturnNoneAfterTuple
            case NotContextManager => ReturnTuple]
         + [Close])
    else if shape.nret > 0 then
      Ok([ReturnValue(deref, Predeclares(shape, catch, corrected) && !d.results[0].ptype.hasDefCtor), Close])
    else if d.postproc == "->self" || ctx == Enter then Ok([ReturnSelf, Close])
    else Ok([ReturnNone, Close])
  }

  /** Everything before the call section, with the call's argument list. */
  function Preamble(site: CallSite, d: FuncDecl): Result<Emitted, GenError>
  {
    var pyname := PlainName(site.pyname);
    var shape := ShapeOf(d);
    match SelfSection(site)
    case Err(e) => Err(e)
    case Ok(self) =>
      match ParamSection(d.params, shape, |d.params|)
      case Err(e) => Err(e)
      case Ok(ps) =>
        Ok(Emitted(Header(d, pyname) + self.lines + ArgsPrologue(d, shape, pyname) + ps.lines + RetSlots(shape).lines,
                   self.args + ps.args + RetSlots(shape).args))
  }

  /** The whole wrapper, with ret0's predeclaration as written or corrected. */
  function Wrapper(site: CallSite, d: FuncDecl, corrected: bool): Result<seq<Stmt>, GenError>
    requires WellFormed(d)
  {
    match ContextOf(site.pyname)
    case None => Err(BadContextManagerName(site.pyname))
    case Some(ctx) =>
      match Preamble(site, d)
      case Err(e) => Err(e)
      case Ok(pre) =>
        match ReturnSection(d, site.catch, ctx, ShapeOf(d), corrected)
        case Err(e) => Err(e)
        case Ok(ret) => Ok(pre.lines + CallSection(d, site, ShapeOf(d), pre.args, corrected) + ret)
  }

  /** FunctionCall as written. */
  function WrapperAsWritten(site: CallSite, d: FuncDecl): Result<seq<Stmt>, GenError>
    requires WellFormed(d)
  {
    Wrapper(site, d, false)
  }

  /** FunctionCall with ret0 predeclared only where a later statement assigns it. */
  function FunctionCallPlan(site: CallSite, d: FuncDecl): Result<seq<Stmt>, GenError>
    requires WellFormed(d)
  {
    Wrapper(site, d, true)
  }

  // ---------------------------------------------------------------------------
  // Argument parsing

  lemma {:induction false} RequiredIsCount(params: seq<Param>)
    ensures Required(params) == |params| <==> forall i :: 0 <= i < |params| ==> params[i].defaultValue == ""
  {
    if params != [] {
      var init := params[..|params| - 1];
      RequiredIsCount(init);
      if Required(params) == |params| {
        forall i | 0 <= i < |params| ensures params[i].defaultValue == "" {
          if i < |init| {
            assert params[i] == init[i];
          }
        }
      }
      if forall i :: 0 <= i < |params| ==> params[i].defaultValue == "" {
        forall i | 0 <= i < |init| ensures init[i].defaultValue == "" {
          assert init[i] == params[i];
        }
      }
    }
  }

  lemma {:induction false} RepeatChar(c: char, n: nat)
    ensures |Repeat([c], n)| == n
    ensures forall i :: 0 <= i < n ==> Repeat([c], n)[i] == c
    ensures Count(Repeat([c], n), c) == n
  {
    if n > 0 {
      RepeatChar(c, n - 1);
      assert Repeat([c], n) == [c] + Repeat([c], n - 1);
      assert Repeat([c], n)[1..] == Repeat([c], n - 1);
    }
  }

  /**
   * The parse format has one 'O' per parameter; when some parameter has a
   * default, a single '|' separates the required ones from the optional.
   */
  lemma FormatStringLayout(minargs: nat, nargs: nat)
    requires minargs <= nargs
    ensures |FormatString(minargs, nargs)| == nargs + (if minargs < nargs then 1 else 0)
    ensures Count(FormatString(minargs, nargs), 'O') == nargs
    ensures minargs == nargs ==> '|' !in FormatString(minargs, nargs)
    ensures minargs < nargs ==>
              FormatString(minargs, nargs)[minargs] == '|' && Count(FormatString(minargs, nargs), '|') == 1
  {
    RepeatChar('O', nargs);
    RepeatChar('O', minargs);
    RepeatChar('O', nargs - minargs);
    CountAbsent(Repeat("O", nargs), '|');
    if minargs < nargs {
      var a, b := Repeat("O", minargs), Repeat("O", nargs - minargs);
      CountAbsent(a, '|');
      CountAbsent(b, '|');
      CountAppend(a, "|", 'O');
      CountAppend(a + "|", b, 'O');
      CountAppend(a, "|", '|');
      CountAppend(a + "|", b, '|');
    }
  }

  /** Lowering a parameter, then writing its conversion. */
  function ParamOutcome(p: Param, i: nat, shape: Shape): Result<seq<Stmt>, GenError>
  {
    match Lower(p)
    case Err(e) => Err(e)
    case Ok(l) => ParamLines(p, i, shape, l)
  }

  /**
   * The two defaults FunctionCall refuses: one the front end could not
   * resolve, when extra outputs rule out the passed-argument switch; and
   * a default for a raw pointer that would be passed by address.
   */
  lemma DefaultErrors(p: Param, i: nat, shape: Shape, l: Lowered)
    ensures ParamLines(p, i, shape, l) == Err(UnresolvedDefaultWithOutputs(p.name)) <==>
            i >= shape.minargs && Unresolved(p.defaultValue) && shape.ExtraOutputs()
    ensures ParamLines(p, i, shape, l) == Err(PointerDefault(p.name)) <==>
            i >= shape.minargs && !Unresolved(p.defaultValue) && p.defaultValue != "" &&
            (l.forward == AddressOf || l.forward == AddressOfValue) && p.ptype.rawPointer
    ensures ParamLines(p, i, shape, l).Err? ==>
            ParamLines(p, i, shape, l) in {Err(UnresolvedDefaultWithOutputs(p.name)), Err(PointerDefault(p.name))}
  {
  }

  /** Parameter i is declared first, and checked for null exactly where lowering asks. */
  lemma DeclaredThenChecked(p: Param, i: nat, shape: Shape, l: Lowered)
    requires ParamLines(p, i, shape, l).Ok?
    ensures ParamLines(p, i, shape, l).value[0] == DeclareArg(i + 1, l.decl)
    ensures CheckNull(i) in ParamLines(p, i, shape, l).value <==> l.checkNullptr
  {
  }

  /** Parameter i is converted exactly once: directly, or in the `else` of its default. */
  lemma ConvertedOnce(p: Param, i: nat, shape: Shape, l: Lowered)
    requires ParamLines(p, i, shape, l).Ok?
    ensures Count(ParamLines(p, i, shape, l).value, Convert(i)) + Count(ParamLines(p, i, shape, l).value, ElseConvert(i)) == 1
  {
    var lines := ParamLines(p, i, shape, l).value;
    var declare := [DeclareArg(i + 1, l.decl)];
    var nullCheck := if l.checkNullptr then [CheckNull(i)] else [];
    var open := if shape.ExtraOutputs() then [] else [IfPassed(i)];
    var close := if shape.ExtraOutputs() then [] else [EndIf];
    if i < shape.minargs {
      assert lines == declare + [Convert(i)] + nullCheck;
      CountOnce(declare, Convert(i), nullCheck, ElseConvert(i));
    } else if Unresolved(p.defaultValue) {
      var pre := declare + open + (if i + 1 < shape.nargs then [RequirePassed(i)] else []);
      assert lines == pre + [Convert(i)] + (nullCheck + close);
      CountOnce(pre, Convert(i), nullCheck + close, ElseConvert(i));
    } else {
      var pre := declare + open + [AssignDefault(i, p.defaultValue)];
      assert lines == pre + [ElseConvert(i)] + (nullCheck + close);
      CountOnce(pre, ElseConvert(i), nullCheck + close, Convert(i));
    }
  }

  /**
   * A parameter past the required ones is guarded by `if (nargs > i)`
   * unless extra outputs rule out the switch; it takes its default when
   * not passed, and an unresolved default must be passed unless it is the
   * last parameter.
   */
  lemma OptionalParamGuard(p: Param, i: nat, shape: Shape, l: Lowered)
    requires ParamLines(p, i, shape, l).Ok?
    ensures var lines := ParamLines(p, i, shape, l).value;
            && (i >= shape.minargs && !shape.ExtraOutputs() ==> lines[1] == IfPassed(i) && lines[|lines| - 1] == EndIf)
            && (i < shape.minargs || shape.ExtraOutputs() ==> IfPassed(i) !in lines && EndIf !in lines)
            && (AssignDefault(i, p.defaultValue) in lines <==> i >= shape.minargs && !Unresolved(p.defaultValue))
            && (RequirePassed(i) in lines <==> i >= shape.minargs && Unresolved(p.defaultValue) && i + 1 < shape.nargs)
  {
  }

  /** The first n parameters all lower and convert. */
  predicate Convertible(params: seq<Param>, shape: Shape, n: nat)
    requires n <= |params|
  {
    forall i :: 0 <= i < n ==> ParamOutcome(params[i], i, shape).Ok?
  }

  /**
   * The parameter section succeeds exactly when every parameter does; it
   * then passes parameter i as `arg<i+1>` in order, and otherwise reports
   * the first parameter that fails.
   */
  lemma {:induction false} ParamSectionMeaning(params: seq<Param>, shape: Shape, n: nat)
    requires n <= |params|
    ensures ParamSection(params, shape, n).Ok? <==> Convertible(params, shape, n)
    ensures ParamSection(params, shape, n).Ok? ==>
              |ParamSection(params, shape, n).value.args| == n &&
              forall i :: 0 <= i < n ==>
                ParamSection(params, shape, n).value.args[i] == Input(i + 1, Lower(params[i]).value.forward)
    ensures ParamSection(params, shape, n).Err? ==>
              exists k :: 0 <= k < n && Convertible(params, shape, k) &&
                ParamOutcome(params[k], k, shape) == Err(ParamSection(params, shape, n).error)
  {
    if n > 0 {
      ParamSectionMeaning(params, shape, n - 1);
      var r := ParamSection(params, shape, n - 1);
      if r.Err? {
        var k :| 0 <= k < n - 1 && Convertible(params, shape, k) &&
                 ParamOutcome(params[k], k, shape) == Err(r.error);
        assert ParamSection(params, shape, n) == r;
      } else if ParamOutcome(params[n - 1], n - 1, shape).Err? {
        assert Convertible(params, shape, n - 1);
      } else {
        var args := ParamSection(params, shape, n).value.args;
        assert args == r.value.args + [Input(n, Lower(params[n - 1]).value.forward)];
      }
    }
  }

  // ---------------------------------------------------------------------------
  // The call's argument list

  /** Self when the callee takes it, then `arg1` .. `argn` as forwarded. */
  function LeadingArgs(site: CallSite, d: FuncDecl, n: nat): seq<Arg>
    requires n <= |d.params|
    requires site.prependSelf.Some? ==> Lower(site.prependSelf.value).Ok?
    requires forall i :: 0 <= i < n ==> Lower(d.params[i]).Ok?
  {
    (if site.prependSelf.Some? then [Input(0, Lower(site.prependSelf.value).value.forward)] else [])
    + seq(n, i requires 0 <= i < n => Input(i + 1, Lower(d.params[i]).value.forward))
  }

  /** Lowering succeeded for self and every parameter. */
  predicate AllLowered(site: CallSite, d: FuncDecl)
  {
    && (site.prependSelf.Some? ==> Lower(site.prependSelf.value).Ok?)
    && (forall i :: 0 <= i < |d.params| ==> Lower(d.params[i]).Ok?)
  }

  /**
   * The C++ call receives self (when taken), then every parameter in
   * order, then the output variables by address.
   */
  lemma PreambleArgs(site: CallSite, d: FuncDecl)
    requires Preamble(site, d).Ok?
    ensures AllLowered(site, d)
    ensures Preamble(site, d).value.args == LeadingArgs(site, d, |d.params|) + RetSlots(ShapeOf(d)).args
  {
    var shape := ShapeOf(d);
    ParamArgs(d.params, shape);
    var self := SelfSection(site).value;
    assert Preamble(site, d).value.args == self.args + ParamSection(d.params, shape, |d.params|).value.args + RetSlots(shape).args;
    assert self.args == if site.prependSelf.Some? then [Input(0, Lower(site.prependSelf.value).value.forward)] else [];
  }

  /** A converted parameter list lowered every parameter and passes each in order. */
  lemma ParamArgs(params: seq<Param>, shape: Shape)
    requires ParamSection(params, shape, |params|).Ok?
    ensures forall i :: 0 <= i < |params| ==> Lower(params[i]).Ok?
    ensures ParamSection(params, shape, |params|).value.args
            == seq(|params|, i requires 0 <= i < |params| => Input(i + 1, Lower(params[i]).value.forward))
  {
    ParamSectionMeaning(params, shape, |params|);
    forall i | 0 <= i < |params| ensures Lower(params[i]).Ok? {
      assert ParamOutcome(params[i], i, shape).Ok?;
    }
  }

  lemma LeadingArgsPrefix(site: CallSite, d: FuncDecl, n: nat)
    requires AllLowered(site, d) && n <= |d.params|
    ensures Take(LeadingArgs(site, d, |d.params|) + RetSlots(ShapeOf(d)).args,
                 n + (if site.prependSelf.Some? then 1 else 0)) == LeadingArgs(site, d, n)
  {
    var all := LeadingArgs(site, d, |d.params|);
    var k := n + (if site.prependSelf.Some? then 1 else 0);
    assert k <= |all|;
    assert (all + RetSlots(ShapeOf(d)).args)[..k] == all[..k];
  }

  // ---------------------------------------------------------------------------
  // Where each statement belongs

  /** Statements that run while the GIL is released. */
  predicate NativeStep(s: Stmt)
  {
    s.DeclareRet0? || s.TryOpen? || s.Switch? || s.Case? || s.EndSwitch? || s.Invoke? ||
    s.CatchBlocks? || s.PostcallInit?
  }

  /** Statements that manage the GIL and the argument references. */
  predicate GilStep(s: Stmt)
  {
    s.IncrefArgs? || s.Unblock? || s.Block? || s.DecrefArgs?
  }

  predicate OutsideCall(lines: seq<Stmt>)
  {
    forall s :: s in lines ==> !NativeStep(s) && !GilStep(s)
  }

  lemma OutsideCallAppend(a: seq<Stmt>, b: seq<Stmt>)
    requires OutsideCall(a) && OutsideCall(b)
    ensures OutsideCall(a + b)
  {
  }

  lemma ParamLinesOutsideCall(p: Param, i: nat, shape: Shape, l: Lowered)
    requires ParamLines(p, i, shape, l).Ok?
    ensures OutsideCall(ParamLines(p, i, shape, l).value)
  {
    var declare := [DeclareArg(i + 1, l.decl)];
    var nullCheck := if l.checkNullptr then [CheckNull(i)] else [];
    var open := if shape.ExtraOutputs() then [] else [IfPassed(i)];
    var close := if shape.ExtraOutputs() then [] else [EndIf];
    var required := if i + 1 < shape.nargs then [RequirePassed(i)] else [];
    OutsideCallAppend(declare, open);
    OutsideCallAppend(declare + open, required);
    OutsideCallAppend(declare + open + required, [Convert(i)]);
    OutsideCallAppend(declare + open + required + [Convert(i)], nullCheck);
    OutsideCallAppend(declare + open + required + [Convert(i)] + nullCheck, close);
    OutsideCallAppend(declare, [Convert(i)]);
    OutsideCallAppend(declare + [Convert(i)], nullCheck);
    OutsideCallAppend(declare + open, [AssignDefault(i, p.defaultValue), ElseConvert(i)]);
    OutsideCallAppend(declare + open + [AssignDefault(i, p.defaultValue), ElseConvert(i)], nullCheck);
    OutsideCallAppend(declare + open + [AssignDefault(i, p.defaultValue), ElseConvert(i)] + nullCheck, close);
  }

  lemma {:induction false} ParamSectionOutsideCall(params: seq<Param>, shape: Shape, n: nat)
    requires n <= |params| && ParamSection(params, shape, n).Ok?
    ensures OutsideCall(ParamSection(params, shape, n).value.lines)
  {
    if n > 0 {
      var done := ParamSection(params, shape, n - 1).value;
      var l := Lower(params[n - 1]).value;
      ParamSectionOutsideCall(params, shape, n - 1);
      ParamLinesOutsideCall(params[n - 1], n - 1, shape, l);
      OutsideCallAppend(done.lines, ParamLines(params[n - 1], n - 1, shape, l).value);
    }
  }

  lemma HeaderOutsideCall(d: FuncDecl, pyname: string)
    ensures OutsideCall(Header(d, pyname))
  {
  }

  lemma SelfOutsideCall(site: CallSite)
    requires SelfSection(site).Ok?
    ensures OutsideCall(SelfSection(site).value.lines)
  {
  }

  lemma PrologueOutsideCall(d: FuncDecl, shape: Shape, pyname: string)
    requires shape == ShapeOf(d)
    ensures OutsideCall(ArgsPrologue(d, shape, pyname))
  {
  }

  lemma SlotsOutsideCall(shape: Shape)
    ensures OutsideCall(RetSlots(shape).lines)
  {
  }

  lemma OutsideCallJoin(a: seq<Stmt>, b: seq<Stmt>, c: seq<Stmt>, e: seq<Stmt>, f: seq<Stmt>)
    requires OutsideCall(a) && OutsideCall(b) && OutsideCall(c) && OutsideCall(e) && OutsideCall(f)
    ensures OutsideCall(a + b + c + e + f)
  {
    OutsideCallAppend(a, b);
    OutsideCallAppend(a + b, c);
    OutsideCallAppend(a + b + c, e);
    OutsideCallAppend(a + b + c + e, f);
  }

  lemma PreambleOutsideCall(site: CallSite, d: FuncDecl)
    requires Preamble(site, d).Ok?
    ensures OutsideCall(Preamble(site, d).value.lines)
  {
    var shape := ShapeOf(d);
    var pyname := PlainName(site.pyname);
    ParamSectionOutsideCall(d.params, shape, |d.params|);
    HeaderOutsideCall(d, pyname);
    SelfOutsideCall(site);
    PrologueOutsideCall(d, shape, pyname);
    SlotsOutsideCall(shape);
    OutsideCallJoin(Header(d, pyname), SelfSection(site).value.lines, ArgsPrologue(d, shape, pyname),
                    ParamSection(d.params, shape, |d.params|).value.lines, RetSlots(shape).lines);
  }

  lemma ReturnOutsideCall(d: FuncDecl, catch: bool, ctx: ContextManager, corrected: bool)
    requires WellFormed(d) && ReturnSection(d, catch, ctx, ShapeOf(d), corrected).Ok?
    ensures OutsideCall(ReturnSection(d, catch, ctx, ShapeOf(d), corrected).value)
  {
  }

  lemma ReturnNoSlot(d: FuncDecl, catch: bool, ctx: ContextManager, corrected: bool)
    requires WellFormed(d) && ReturnSection(d, catch, ctx, ShapeOf(d), corrected).Ok?
    ensures NoSlot(ReturnSection(d, catch, ctx, ShapeOf(d), corrected).value)
  {
  }

  /** The pieces of a successful wrapper. */
  lemma WrapperParts(site: CallSite, d: FuncDecl, corrected: bool)
    requires WellFormed(d) && Wrapper(site, d, corrected).Ok?
    ensures ContextOf(site.pyname).Some? && Preamble(site, d).Ok?
    ensures ReturnSection(d, site.catch, ContextOf(site.pyname).value, ShapeOf(d), corrected).Ok?
    ensures Wrapper(site, d, corrected).value ==
            Preamble(site, d).value.lines
            + CallSection(d, site, ShapeOf(d), Preamble(site, d).value.args, corrected)
            + ReturnSection(d, site.catch, ContextOf(site.pyname).value, ShapeOf(d), corrected).value
  {
  }

  /** What the native call writes is part of the wrapper. */
  lemma NativeInWrapper(site: CallSite, d: FuncDecl, corrected: bool, s: Stmt)
    requires WellFormed(d) && Wrapper(site, d, corrected).Ok? && Preamble(site, d).Ok?
    requires s in NativeCall(d, site, ShapeOf(d), Preamble(site, d).value.args, corrected)
    ensures s in Wrapper(site, d, corrected).value
  {
    WrapperParts(site, d, corrected);
    CallSectionParts(d, site, ShapeOf(d), Preamble(site, d).value.args, corrected);
  }

  // ---------------------------------------------------------------------------
  // The call

  lemma NativeCallSteps(d: FuncDecl, site: CallSite, shape: Shape, args: seq<Arg>, corrected: bool)
    requires WellFormed(d) && shape == ShapeOf(d)
    ensures forall s :: s in NativeCall(d, site, shape, args, corrected) ==> NativeStep(s)
  {
  }

  /** The pieces of the call section around the native call. */
  lemma CallSectionParts(d: FuncDecl, site: CallSite, shape: Shape, args: seq<Arg>, corrected: bool)
    requires WellFormed(d) && shape == ShapeOf(d)
    ensures var prelude := seq(|site.callPrelude|, i requires 0 <= i < |site.callPrelude| => CallPrelude(site.callPrelude[i]));
            var incref := if shape.nargs > 0 then [IncrefArgs] else [];
            var decref := if shape.nargs > 0 then [DecrefArgs] else [];
            var raise := if site.catch then [RaiseIfError] else [];
            var native := NativeCall(d, site, shape, args, corrected);
            CallSection(d, site, shape, args, corrected) ==
              if d.pyKeepGil then [CallComment] + prelude + native + raise
              else [CallComment] + prelude + incref + [Unblock] + native + [Block] + decref + raise
  {
  }

  /**
   * With a default that may be omitted and no extra outputs, the callee is
   * called once per possible number of passed arguments n, from the
   * required count to all of them, with self (for an extended method) and
   * exactly the first n parameters.
   */
  lemma SwitchPassesLeadingArgs(site: CallSite, d: FuncDecl, corrected: bool, n: nat)
    requires WellFormed(d) && Wrapper(site, d, corrected).Ok?
    requires ShapeOf(d).Switching() && ShapeOf(d).minargs <= n <= ShapeOf(d).nargs
    requires site.prependSelf.Some? <==> d.isExtendMethod && !d.isConstructor
    ensures AllLowered(site, d)
    ensures Case(n, Invocation(CaseBinding(d, site.catch, corrected), CtorName(d), LeadingArgs(site, d, n)))
            in Wrapper(site, d, corrected).value
  {
    WrapperParts(site, d, corrected);
    PreambleArgs(site, d);
    var args := Preamble(site, d).value.args;
    LeadingArgsPrefix(site, d, n);
    NativeCase(d, site, ShapeOf(d), args, corrected, n);
    NativeInWrapper(site, d, corrected, Case(n, CaseCall(d, CaseBinding(d, site.catch, corrected), args, n)));
  }

  /** The switch of the native call has the case for `n` passed arguments. */
  lemma NativeCase(d: FuncDecl, site: CallSite, shape: Shape, args: seq<Arg>, corrected: bool, n: nat)
    requires WellFormed(d) && shape == ShapeOf(d) && shape.Switching() && shape.minargs <= n <= shape.nargs
    ensures Case(n, CaseCall(d, CaseBinding(d, site.catch, corrected), args, n)) in NativeCall(d, site, shape, args, corrected)
  {
    var binding := CaseBinding(d, site.catch, corrected);
    assert Cases(d, shape, binding, args)[n - shape.minargs] == Case(n, CaseCall(d, binding, args, n));
  }

  /** A case statement, if `s` is one, is for a passed-argument count the switch handles. */
  predicate CaseInRange(s: Stmt, shape: Shape)
  {
    s.Case? ==> shape.Switching() && shape.minargs <= s.n <= shape.nargs
  }

  lemma NativeCasesInRange(d: FuncDecl, site: CallSite, shape: Shape, args: seq<Arg>, corrected: bool)
    requires WellFormed(d) && shape == ShapeOf(d)
    ensures forall s :: s in NativeCall(d, site, shape, args, corrected) ==> CaseInRange(s, shape)
  {
  }

  lemma CasesWitness(p: seq<Stmt>, prelude: seq<Stmt>, open: seq<Stmt>, native: seq<Stmt>,
                     close: seq<Stmt>, raise: seq<Stmt>, r: seq<Stmt>, shape: Shape)
    requires OutsideCall(p) && OutsideCall(r)
    requires forall s :: s in prelude ==> s.CallPrelude?
    requires forall s :: s in open + close ==> GilStep(s)
    requires forall s :: s in raise ==> s.RaiseIfError?
    requires forall s :: s in native ==> CaseInRange(s, shape)
    ensures forall s :: s in p + ([CallComment] + prelude + open + native + close + raise) + r ==> CaseInRange(s, shape)
  {
    forall s | s in p + ([CallComment] + prelude + open + native + close + raise) + r
      ensures CaseInRange(s, shape)
    {
      if s in p || s in r {
        assert !NativeStep(s);
      } else if s in open || s in close {
        assert s in open + close;
      }
    }
  }

  /** Only the passed-argument switch has cases, and only for counts from the required number to all. */
  lemma CasesInRange(site: CallSite, d: FuncDecl, corrected: bool)
    requires WellFormed(d) && Wrapper(site, d, corrected).Ok?
    ensures forall s :: s in Wrapper(site, d, corrected).value && s.Case? ==>
              ShapeOf(d).Switching() && ShapeOf(d).minargs <= s.n <= ShapeOf(d).nargs
  {
    WrapperParts(site, d, corrected);
    PreambleOutsideCall(site, d);
    var ctx := ContextOf(site.pyname).value;
    ReturnOutsideCall(d, site.catch, ctx, corrected);
    var shape := ShapeOf(d);
    var pre := Preamble(site, d).value;
    NativeCasesInRange(d, site, shape, pre.args, corrected);
    var prelude := seq(|site.callPrelude|, i requires 0 <= i < |site.callPrelude| => CallPrelude(site.callPrelude[i]));
    CasesWitness(pre.lines, prelude,
                 if d.pyKeepGil then [] else (if shape.nargs > 0 then [IncrefArgs] else []) + [Unblock],
                 NativeCall(d, site, shape, pre.args, corrected),
                 if d.pyKeepGil then [] else [Block] + (if shape.nargs > 0 then [DecrefArgs] else []),
                 if site.catch then [RaiseIfError] else [],
                 ReturnSection(d, site.catch, ctx, shape, corrected).value, shape);
  }

  /** Without the switch the callee is called once, with self, every parameter and every output. */
  lemma SingleCallPassesAll(site: CallSite, d: FuncDecl, corrected: bool)
    requires WellFormed(d) && Wrapper(site, d, corrected).Ok? && !ShapeOf(d).Switching()
    ensures AllLowered(site, d)
    ensures Invoke(SingleCall(d, site.catch, ShapeOf(d), LeadingArgs(site, d, |d.params|) + RetSlots(ShapeOf(d)).args))
            in Wrapper(site, d, corrected).value
  {
    WrapperParts(site, d, corrected);
    PreambleArgs(site, d);
    var shape := ShapeOf(d);
    var args := Preamble(site, d).value.args;
    assert Invoke(SingleCall(d, site.catch, shape, args)) in NativeCall(d, site, shape, args, corrected);
    NativeInWrapper(site, d, corrected, Invoke(SingleCall(d, site.catch, shape, args)));
  }

  // ---------------------------------------------------------------------------
  // The GIL

  /**
   * `lines` releases the GIL exactly once: `pre`, Py_UNBLOCK_THREADS, the
   * native call `mid`, Py_BLOCK_THREADS, `post`. The argument references
   * are taken before and dropped after exactly when there are arguments,
   * and a caught C++ exception is raised only once the GIL is held again.
   */
  predicate GilSplit(lines: seq<Stmt>, pre: seq<Stmt>, mid: seq<Stmt>, post: seq<Stmt>, nargs: nat, catch: bool)
  {
    && lines == pre + [Unblock] + mid + [Block] + post
    && (forall s :: s in mid ==> NativeStep(s))
    && (forall s :: s in pre + post ==> !NativeStep(s) && !s.Unblock? && !s.Block?)
    && (IncrefArgs in pre <==> nargs > 0)
    && (DecrefArgs in post <==> nargs > 0)
    && (catch ==> RaiseIfError in post)
  }

  lemma GilWitness(p: seq<Stmt>, prelude: seq<Stmt>, native: seq<Stmt>, r: seq<Stmt>, nargs: nat, catch: bool)
    requires OutsideCall(p) && OutsideCall(r)
    requires forall s :: s in prelude ==> s.CallPrelude?
    requires forall s :: s in native ==> NativeStep(s)
    ensures var incref := if nargs > 0 then [IncrefArgs] else [];
            var decref := if nargs > 0 then [DecrefArgs] else [];
            var raise := if catch then [RaiseIfError] else [];
            GilSplit(p + ([CallComment] + prelude + (incref + [Unblock]) + native + ([Block] + decref) + raise) + r,
                     p + [CallComment] + prelude + incref, native, decref + raise + r, nargs, catch)
  {
    var incref := if nargs > 0 then [IncrefArgs] else [];
    var decref := if nargs > 0 then [DecrefArgs] else [];
    var raise := if catch then [RaiseIfError] else [];
    var pre := p + [CallComment] + prelude + incref;
    var post := decref + raise + r;
    assert p + ([CallComment] + prelude + (incref + [Unblock]) + native + ([Block] + decref) + raise) + r
           == pre + [Unblock] + native + [Block] + post;
    assert IncrefArgs !in p + [CallComment] + prelude;
    assert DecrefArgs !in raise + r;
  }

  /** Unless the function keeps the GIL, it is released exactly around the native call. */
  lemma GilReleasedAroundCall(site: CallSite, d: FuncDecl, corrected: bool)
    requires WellFormed(d) && Wrapper(site, d, corrected).Ok? && !d.pyKeepGil
    ensures exists pre, mid, post :: GilSplit(Wrapper(site, d, corrected).value, pre, mid, post, |d.params|, site.catch)
  {
    WrapperParts(site, d, corrected);
    PreambleOutsideCall(site, d);
    var ctx := ContextOf(site.pyname).value;
    ReturnOutsideCall(d, site.catch, ctx, corrected);
    var shape := ShapeOf(d);
    var pre := Preamble(site, d).value;
    NativeCallSteps(d, site, shape, pre.args, corrected);
    var prelude := seq(|site.callPrelude|, i requires 0 <= i < |site.callPrelude| => CallPrelude(site.callPrelude[i]));
    var native := NativeCall(d, site, shape, pre.args, corrected);
    var r := ReturnSection(d, site.catch, ctx, shape, corrected).value;
    var incref := if shape.nargs > 0 then [IncrefArgs] else [];
    var decref := if shape.nargs > 0 then [DecrefArgs] else [];
    var raise := if site.catch then [RaiseIfError] else [];
    var call := [CallComment] + prelude + (incref + [Unblock]) + native + ([Block] + decref) + raise;
    assert CallSection(d, site, shape, pre.args, corrected) == call;
    var lines := Wrapper(site, d, corrected).value;
    assert lines == pre.lines + call + r;
    GilWitness(pre.lines, prelude, native, r, shape.nargs, site.catch);
    GilExists(lines, pre.lines + [CallComment] + prelude + incref, native, decref + raise + r, |d.params|, site.catch);
  }

  lemma GilExists(lines: seq<Stmt>, pre: seq<Stmt>, mid: seq<Stmt>, post: seq<Stmt>, nargs: nat, catch: bool)
    requires GilSplit(lines, pre, mid, post, nargs, catch)
    ensures exists pre, mid, post :: GilSplit(lines, pre, mid, post, nargs, catch)
  {
  }

  lemma KeptWitness(p: seq<Stmt>, prelude: seq<Stmt>, native: seq<Stmt>, raise: seq<Stmt>, r: seq<Stmt>)
    requires OutsideCall(p) && OutsideCall(r)
    requires forall s :: s in prelude ==> s.CallPrelude?
    requires forall s :: s in native ==> NativeStep(s)
    requires forall s :: s in raise ==> s.RaiseIfError?
    ensures forall s :: s in p + ([CallComment] + prelude + native + raise) + r ==> !GilStep(s)
  {
  }

  /** A function that keeps the GIL neither releases it nor touches the argument references. */
  lemma GilKept(site: CallSite, d: FuncDecl, corrected: bool)
    requires WellFormed(d) && Wrapper(site, d, corrected).Ok? && d.pyKeepGil
    ensures forall s :: s in Wrapper(site, d, corrected).value ==> !GilStep(s)
  {
    WrapperParts(site, d, corrected);
    PreambleOutsideCall(site, d);
    var ctx := ContextOf(site.pyname).value;
    ReturnOutsideCall(d, site.catch, ctx, corrected);
    var shape := ShapeOf(d);
    var pre := Preamble(site, d).value;
    NativeCallSteps(d, site, shape, pre.args, corrected);
    CallSectionParts(d, site, shape, pre.args, corrected);
    var prelude := seq(|site.callPrelude|, i requires 0 <= i < |site.callPrelude| => CallPrelude(site.callPrelude[i]));
    KeptWitness(pre.lines, prelude, NativeCall(d, site, shape, pre.args, corrected),
                if site.catch then [RaiseIfError] else [], ReturnSection(d, site.catch, ctx, shape, corrected).value);
  }

  // ---------------------------------------------------------------------------
  // ret0

  /** A statement that declares the C++ variable ret0: an output slot, the predeclaration or `T ret0 = call`. */
  predicate DeclaresRet0(s: Stmt)
  {
    (s.DeclareRet? && s.n == 0) || s.DeclareRet0? || (s.Invoke? && s.call.binding.DefineRet0?)
  }

  /** No statement declares an output variable. */
  predicate NoSlot(lines: seq<Stmt>)
  {
    forall s :: s in lines ==> !s.DeclareRet?
  }

  function Ret0Declarations(lines: seq<Stmt>): nat
  {
    if lines == [] then 0 else (if DeclaresRet0(lines[0]) then 1 else 0) + Ret0Declarations(lines[1..])
  }

  lemma {:induction false} Ret0DeclarationsAppend(a: seq<Stmt>, b: seq<Stmt>)
    ensures Ret0Declarations(a + b) == Ret0Declarations(a) + Ret0Declarations(b)
  {
    if a == [] {
      assert a + b == b;
    } else {
      assert (a + b)[1..] == a[1..] + b;
      Ret0DeclarationsAppend(a[1..], b);
    }
  }

  lemma {:induction false} Ret0DeclarationsNone(lines: seq<Stmt>)
    requires forall s :: s in lines ==> !DeclaresRet0(s)
    ensures Ret0Declarations(lines) == 0
  {
    if lines != [] {
      assert lines[0] in lines;
      Ret0DeclarationsNone(lines[1..]);
    }
  }

  lemma Ret0DeclarationsJoin(a: seq<Stmt>, b: seq<Stmt>, c: seq<Stmt>, e: seq<Stmt>, f: seq<Stmt>)
    ensures Ret0Declarations(a + b + c + e + f) ==
            Ret0Declarations(a) + Ret0Declarations(b) + Ret0Declarations(c) + Ret0Declarations(e) + Ret0Declarations(f)
  {
    Ret0DeclarationsAppend(a + b + c + e, f);
    Ret0DeclarationsAppend(a + b + c, e);
    Ret0DeclarationsAppend(a + b, c);
    Ret0DeclarationsAppend(a, b);
  }

  lemma Ret0DeclarationsSingle(s: Stmt)
    ensures Ret0Declarations([s]) == if DeclaresRet0(s) then 1 else 0
  {
    assert [s][1..] == [];
  }

  /** Of the output slots, only a void function's first declares ret0. */
  lemma SlotsRet0Declarations(shape: Shape)
    ensures Ret0Declarations(RetSlots(shape).lines) == if shape.isVoid && shape.nret > 0 then 1 else 0
  {
    var lines := RetSlots(shape).lines;
    if shape.isVoid && shape.nret > 0 {
      assert lines == [DeclareRet(0)] + lines[1..];
      Ret0DeclarationsAppend([DeclareRet(0)], lines[1..]);
      Ret0DeclarationsSingle(DeclareRet(0));
      Ret0DeclarationsNone(lines[1..]);
    } else {
      Ret0DeclarationsNone(lines);
    }
  }

  lemma ParamLinesNoSlot(p: Param, i: nat, shape: Shape, l: Lowered)
    requires ParamLines(p, i, shape, l).Ok?
    ensures NoSlot(ParamLines(p, i, shape, l).value)
  {
  }

  lemma {:induction false} ParamSectionNoSlot(params: seq<Param>, shape: Shape, n: nat)
    requires n <= |params| && ParamSection(params, shape, n).Ok?
    ensures NoSlot(ParamSection(params, shape, n).value.lines)
  {
    if n > 0 {
      var l := Lower(params[n - 1]).value;
      ParamSectionNoSlot(params, shape, n - 1);
      ParamLinesNoSlot(params[n - 1], n - 1, shape, l);
    }
  }

  /** The preamble declares ret0 only as the first output slot of a void function. */
  lemma PreambleRet0Declarations(site: CallSite, d: FuncDecl)
    requires Preamble(site, d).Ok?
    ensures Ret0Declarations(Preamble(site, d).value.lines) ==
            if d.returnType == "void" && |d.results| > 0 then 1 else 0
  {
    var shape := ShapeOf(d);
    var pyname := PlainName(site.pyname);
    var h := Header(d, pyname);
    var s := SelfSection(site).value.lines;
    var a := ArgsPrologue(d, shape, pyname);
    var ps := ParamSection(d.params, shape, |d.params|).value.lines;
    HeaderOutsideCall(d, pyname);
    SelfOutsideCall(site);
    PrologueOutsideCall(d, shape, pyname);
    ParamSectionOutsideCall(d.params, shape, |d.params|);
    ParamSectionNoSlot(d.params, shape, |d.params|);
    Ret0DeclarationsNone(h);
    Ret0DeclarationsNone(s);
    Ret0DeclarationsNone(a);
    Ret0DeclarationsNone(ps);
    SlotsRet0Declarations(shape);
    Ret0DeclarationsJoin(h, s, a, ps, RetSlots(shape).lines);
  }

  lemma CallRet0Declarations(d: FuncDecl, site: CallSite, shape: Shape, binding: Binding, args: seq<Arg>)
    requires WellFormed(d) && shape == ShapeOf(d)
    ensures Ret0Declarations(if shape.Switching() then [Switch] + Cases(d, shape, binding, args) + [EndSwitch]
                             else [Invoke(SingleCall(d, site.catch, shape, args))]) ==
            (if !shape.Switching() && !shape.isVoid && !site.catch then 1 else 0)
  {
    if shape.Switching() {
      Ret0DeclarationsNone([Switch] + Cases(d, shape, binding, args) + [EndSwitch]);
    } else {
      Ret0DeclarationsSingle(Invoke(SingleCall(d, site.catch, shape, args)));
    }
  }

  /** ret0 is declared by the predeclaration and by a single call that defines it. */
  lemma NativeRet0Declarations(d: FuncDecl, site: CallSite, shape: Shape, args: seq<Arg>, corrected: bool)
    requires WellFormed(d) && shape == ShapeOf(d)
    ensures Ret0Declarations(NativeCall(d, site, shape, args, corrected)) ==
            (if Predeclares(shape, site.catch, corrected) then 1 else 0) +
            (if !shape.Switching() && !shape.isVoid && !site.catch then 1 else 0)
  {
    var a := if Predeclares(shape, site.catch, corrected)
             then [DeclareRet0(Ret0Type(d, site.catch), !d.results[0].ptype.hasDefCtor)] else [];
    var b := if site.catch then [TryOpen] else [];
    var binding := CaseBinding(d, site.catch, corrected);
    var c := if shape.Switching() then [Switch] + Cases(d, shape, binding, args) + [EndSwitch]
             else [Invoke(SingleCall(d, site.catch, shape, args))];
    var e := if site.catch then [CatchBlocks] else [];
    var f := if site.postcallInit != "" then [PostcallInit(site.postcallInit, !shape.isVoid)] else [];
    Ret0DeclarationsJoin(a, b, c, e, f);
    if Predeclares(shape, site.catch, corrected) {
      Ret0DeclarationsSingle(a[0]);
    }
    Ret0DeclarationsNone(b);
    Ret0DeclarationsNone(e);
    Ret0DeclarationsNone(f);
    CallRet0Declarations(d, site, shape, binding, args);
  }

  lemma Ret0Witness(p: seq<Stmt>, prelude: seq<Stmt>, open: seq<Stmt>, native: seq<Stmt>,
                    close: seq<Stmt>, raise: seq<Stmt>, r: seq<Stmt>)
    requires OutsideCall(p) && OutsideCall(r)
    requires forall s :: s in prelude ==> s.CallPrelude?
    requires forall s :: s in open + close ==> GilStep(s)
    requires forall s :: s in raise ==> s.RaiseIfError?
    requires NoSlot(r)
    ensures Ret0Declarations(p + ([CallComment] + prelude + open + native + close + raise) + r) ==
            Ret0Declarations(p) + Ret0Declarations(native)
  {
    var before := [CallComment] + prelude + open;
    var after := close + raise + r;
    assert p + ([CallComment] + prelude + open + native + close + raise) + r == p + before + native + after;
    forall s | s in before ensures !DeclaresRet0(s) {
      assert s == CallComment || s in prelude || s in open;
      if s in prelude {
        assert s.CallPrelude?;
      } else if s in open {
        assert s in open + close;
      }
    }
    forall s | s in after ensures !DeclaresRet0(s) {
      assert s in close || s in raise || s in r;
      if s in r {
        assert !NativeStep(s);
      } else if s in close {
        assert s in open + close;
      }
    }
    Ret0DeclarationsAppend(p + before + native, after);
    Ret0DeclarationsAppend(p + before, native);
    Ret0DeclarationsAppend(p, before);
    Ret0DeclarationsNone(before);
    Ret0DeclarationsNone(after);
  }

  /**
   * ret0 is declared by the output slot of a void function with outputs,
   * and otherwise only by the native call.
   */
  lemma WrapperRet0Declarations(site: CallSite, d: FuncDecl, corrected: bool)
    requires WellFormed(d) && Wrapper(site, d, corrected).Ok?
    ensures Ret0Declarations(Wrapper(site, d, corrected).value) ==
            (if d.returnType == "void" && |d.results| > 0 then 1 else 0) +
            Ret0Declarations(NativeCall(d, site, ShapeOf(d), Preamble(site, d).value.args, corrected))
  {
    WrapperParts(site, d, corrected);
    PreambleOutsideCall(site, d);
    PreambleRet0Declarations(site, d);
    var ctx := ContextOf(site.pyname).value;
    ReturnOutsideCall(d, site.catch, ctx, corrected);
    ReturnNoSlot(d, site.catch, ctx, corrected);
    var shape := ShapeOf(d);
    var pre := Preamble(site, d).value;
    var prelude := seq(|site.callPrelude|, i requires 0 <= i < |site.callPrelude| => CallPrelude(site.callPrelude[i]));
    Ret0Witness(pre.lines, prelude,
                if d.pyKeepGil then [] else (if shape.nargs > 0 then [IncrefArgs] else []) + [Unblock],
                NativeCall(d, site, shape, pre.args, corrected),
                if d.pyKeepGil then [] else [Block] + (if shape.nargs > 0 then [DecrefArgs] else []),
                if site.catch then [RaiseIfError] else [],
                ReturnSection(d, site.catch, ctx, shape, corrected).value);
  }

  /**
   * ret0 is declared exactly once when there is a result (the return value
   * or a void function's first output), and never otherwise.
   */
  lemma Ret0DeclaredOnce(site: CallSite, d: FuncDecl)
    requires WellFormed(d) && FunctionCallPlan(site, d).Ok?
    ensures Ret0Declarations(FunctionCallPlan(site, d).value) == if |d.results| > 0 then 1 else 0
  {
    WrapperRet0Declarations(site, d, true);
    NativeRet0Declarations(d, site, ShapeOf(d), Preamble(site, d).value.args, true);
  }

  /**
   * As written, a function with a default parameter, an output beyond its
   * return value and no exception handling declares ret0 twice: once
   * before the call and again in `T ret0 = call(...)`.
   */
  lemma Ret0DeclaredTwice()
    ensures var intType := ParamType("int", "int", None, false, false, false, false, true, true);
            var d := FuncDecl([Param("a", intType, "1")], [Param("r", intType, ""), Param("out", intType, "")], "int",
                              false, false, false, false, "F", "");
            var site := CallSite("f", false, [], "F", "", None);
            && WellFormed(d) && WrapperAsWritten(site, d).Ok?
            && Ret0Declarations(WrapperAsWritten(site, d).value) == 2
  {
    var intType := ParamType("int", "int", None, false, false, false, false, true, true);
    var d := FuncDecl([Param("a", intType, "1")], [Param("r", intType, ""), Param("out", intType, "")], "int",
                      false, false, false, false, "F", "");
    var site := CallSite("f", false, [], "F", "", None);
    assert !Contains("1", "inf") by {
      assert !StartsWith("1", "inf");
      assert "1"[1..] == "";
      assert !Contains("", "inf");
    }
    assert !EndsWith("f", "@");
    assert d.params[..0] == [];
    assert Required(d.params) == 0;
    var shape := ShapeOf(d);
    assert shape == Shape(1, 0, 2, false);
    var l := Lowered(false, Plain("int"), Move);
    assert Lower(d.params[0]) == Ok(l);
    assert ParamLines(d.params[0], 0, shape, l).Ok?;
    assert ParamSection(d.params, shape, 1).Ok?;
    assert Preamble(site, d).Ok?;
    assert ReturnSection(d, false, NotContextManager, shape, false).Ok?;
    WrapperRet0Declarations(site, d, false);
    NativeRet0Declarations(d, site, ShapeOf(d), Preamble(site, d).value.args, false);
  }

  // ---------------------------------------------------------------------------
  // Returning to Python

  /** The statement that returns to Python, just before the closing brace. */
  function FinalReturn(lines: seq<Stmt>): Stmt
    requires |lines| >= 2
  {
    lines[|lines| - 2]
  }

  /**
   * `-> self` fails with outputs. Otherwise several outputs, or one with a
   * post-processor or a context-manager name, become a tuple; a single
   * plain output is returned as is; with none, self is returned for
   * `-> self` and `__enter__`, and None otherwise.
   */
  lemma ReturnShapes(d: FuncDecl, catch: bool, ctx: ContextManager, corrected: bool)
    requires WellFormed(d)
    ensures var r := ReturnSection(d, catch, ctx, ShapeOf(d), corrected);
            && (r.Err? <==> d.postproc == "->self" && |d.results| > 0)
            && (r.Err? ==> r.error == SelfReturnWithOutputs)
            && (r.Ok? ==> |r.value| >= 2 && r.value[|r.value| - 1] == Close)
            && (r.Ok? ==> (r.value[0] == TupleNew(|d.results|) <==>
                           |d.results| > 1 || (|d.results| == 1 && (PostprocAfter(d.postproc) != "" || ctx != NotContextManager))))
            && (r.Ok? ==> (FinalReturn(r.value).ReturnValue? <==>
                           |d.results| == 1 && PostprocAfter(d.postproc) == "" && ctx == NotContextManager))
            && (r.Ok? ==> (FinalReturn(r.value) == ReturnSelf <==>
                           |d.results| == 0 && (d.postproc == "->self" || ctx == Enter)))
            && (r.Ok? ==> (FinalReturn(r.value) == ReturnNone <==>
                           |d.results| == 0 && d.postproc != "->self" && ctx != Enter))
  {
  }

  /**
   * `__enter__` always returns self and `__exit__` returns None whatever
   * the outputs (unless it is marked `-> self` and has none).
   */
  lemma ContextManagerReturns(d: FuncDecl, catch: bool, ctx: ContextManager, corrected: bool)
    requires WellFormed(d) && ReturnSection(d, catch, ctx, ShapeOf(d), corrected).Ok?
    ensures var lines := ReturnSection(d, catch, ctx, ShapeOf(d), corrected).value;
            && |lines| >= 2
            && (ctx == Enter ==> FinalReturn(lines) in {ReturnSelf, ReturnSelfAfterTuple})
            && (ctx == Exit && d.postproc != "->self" ==> FinalReturn(lines) in {ReturnNone, ReturnNoneAfterTuple})
            && (ctx == NotContextManager ==>
                  FinalReturn(lines) !in {ReturnSelfAfterTuple, ReturnNoneAfterTuple})
  {
  }

  /**
   * The post-processor is imported and called on the result tuple when
   * there is at least one output; a context manager discards its result.
   */
  lemma PostprocApplied(d: FuncDecl, catch: bool, ctx: ContextManager, corrected: bool, name: string)
    requires WellFormed(d) && ReturnSection(d, catch, ctx, ShapeOf(d), corrected).Ok?
    ensures var lines := ReturnSection(d, catch, ctx, ShapeOf(d), corrected).value;
            && (CallPostproc(name) in lines <==> name == PostprocAfter(d.postproc) && name != "" && |d.results| > 0)
            && (DropPostprocResult in lines <==>
                  PostprocAfter(d.postproc) != "" && |d.results| > 0 && ctx != NotContextManager)
  {
  }

  /** Output i becomes item i of the result tuple, in order. */
  lemma TupleItemsInOrder(d: FuncDecl, catch: bool, ctx: ContextManager, corrected: bool)
    requires WellFormed(d) && ReturnSection(d, catch, ctx, ShapeOf(d), corrected).Ok?
    requires ReturnsTuple(d, ctx)
    ensures var lines := ReturnSection(d, catch, ctx, ShapeOf(d), corrected).value;
            && |lines| > |d.results|
            && forall i :: 1 <= i <= |d.results| ==> lines[i].TupleItem? && lines[i].i == i - 1
  {
  }

  /** A reference result held through a pointer: ret0 is declared with the pointer type. */
  lemma Ret0PointerType(d: FuncDecl, catch: bool)
    requires ConvertsRefToPtr(d, catch)
    ensures EndsWith(Ret0Type(d, catch), "*")
    ensures Ret0Type(d, catch) == d.returnType[..LastIndexOf(d.returnType, '&')] + "*"
  {
    var t := d.returnType;
    var u := RStrip(t);
    assert u[|u| - 1] == '&';
    assert t[|u| - 1] == '&';
    assert LastIndexOf(t, '&') >= |u| - 1;
  }

  /** Only ret0 is ever dereferenced when results are converted, and only when held through a pointer. */
  lemma OnlyRet0Dereferenced(d: FuncDecl, catch: bool, ctx: ContextManager)
    requires WellFormed(d) && ReturnSection(d, catch, ctx, ShapeOf(d), true).Ok?
    ensures forall s :: s in ReturnSection(d, catch, ctx, ShapeOf(d), true).value && s.TupleItem? && s.deref ==>
              s.i == 0 && ConvertsRefToPtr(d, catch)
    ensures forall s :: s in ReturnSection(d, catch, ctx, ShapeOf(d), true).value && s.ReturnValue? && s.deref ==>
              ConvertsRefToPtr(d, catch)
  {
  }

  /** A reference result caught from C++ is held in a ret0 declared with the pointer type. */
  lemma Ret0HeldByPointer(site: CallSite, d: FuncDecl, corrected: bool)
    requires WellFormed(d) && Wrapper(site, d, corrected).Ok? && ConvertsRefToPtr(d, site.catch)
    ensures EndsWith(Ret0Type(d, site.catch), "*")
    ensures DeclareRet0(Ret0Type(d, site.catch), !d.results[0].ptype.hasDefCtor) in Wrapper(site, d, corrected).value
  {
    WrapperParts(site, d, corrected);
    var pre := Preamble(site, d).value;
    Ret0PointerType(d, site.catch);
    var decl := DeclareRet0(Ret0Type(d, site.catch), !d.results[0].ptype.hasDefCtor);
    assert NativeCall(d, site, ShapeOf(d), pre.args, corrected)[0] == decl;
    NativeInWrapper(site, d, corrected, decl);
  }

  /** `int f() -> (int r, int out)` wrapped with a reference return and exceptions caught. */
  function RefReturnDecl(): FuncDecl
  {
    var intType := ParamType("int", "int", None, false, false, false, false, true, true);
    FuncDecl([], [Param("r", intType, ""), Param("out", intType, "")], "int&",
             false, false, false, false, "F", "")
  }

  function RefReturnSite(): CallSite
  {
    CallSite("f", true, [], "F", "", None)
  }

  /** The output `ret1` of the example is declared as a plain variable. */
  lemma RefReturnPreamble()
    ensures Preamble(RefReturnSite(), RefReturnDecl()).Ok?
    ensures DeclareRet(1) in Preamble(RefReturnSite(), RefReturnDecl()).value.lines
  {
    var d := RefReturnDecl();
    var shape := ShapeOf(d);
    assert shape == Shape(0, 0, 2, false);
    assert RetSlots(shape).lines == [DeclareRet(1)];
  }

  /** As written, the example's result tuple dereferences `ret1`. */
  lemma RefReturnTuple()
    ensures ReturnSection(RefReturnDecl(), true, NotContextManager, ShapeOf(RefReturnDecl()), false).Ok?
    ensures TupleItem(1, true) in ReturnSection(RefReturnDecl(), true, NotContextManager, ShapeOf(RefReturnDecl()), false).value
  {
    var d := RefReturnDecl();
    assert ShapeOf(d) == Shape(0, 0, 2, false);
    assert RStrip("int&") == "int&";
    assert EndsWith("int&", "&");
    assert ConvertsRefToPtr(d, true);
    var r := ReturnSection(d, true, NotContextManager, ShapeOf(d), false);
    assert r.Ok? && r.value[2] == TupleItem(1, true);
  }

  /**
   * As written, with exceptions caught and a reference return, every
   * output in the result tuple is dereferenced, although only ret0 was
   * declared as a pointer: here ret1 is a plain `T ret1{}` and is passed
   * as `*ret1`.
   */
  lemma OutputDereferenced()
    ensures WellFormed(RefReturnDecl()) && WrapperAsWritten(RefReturnSite(), RefReturnDecl()).Ok?
    ensures DeclareRet(1) in WrapperAsWritten(RefReturnSite(), RefReturnDecl()).value
    ensures TupleItem(1, true) in WrapperAsWritten(RefReturnSite(), RefReturnDecl()).value
  {
    var d := RefReturnDecl();
    var site := RefReturnSite();
    assert !EndsWith("f", "@");
    assert ContextOf(site.pyname) == Some(NotContextManager);
    RefReturnPreamble();
    RefReturnTuple();
    WrapperParts(site, d, false);
  }

  /** Every C++ call of the wrapper (a switch case or the single call) is part of the native call. */
  lemma InvocationsInNative(site: CallSite, d: FuncDecl, corrected: bool)
    requires WellFormed(d) && Wrapper(site, d, corrected).Ok?
    ensures forall s :: s in Wrapper(site, d, corrected).value && (s.Case? || s.Invoke?) ==>
              s in NativeCall(d, site, ShapeOf(d), Preamble(site, d).value.args, corrected)
  {
    WrapperParts(site, d, corrected);
    PreambleOutsideCall(site, d);
    var ctx := ContextOf(site.pyname).value;
    ReturnOutsideCall(d, site.catch, ctx, corrected);
    var shape := ShapeOf(d);
    var pre := Preamble(site, d).value;
    var prelude := seq(|site.callPrelude|, i requires 0 <= i < |site.callPrelude| => CallPrelude(site.callPrelude[i]));
    InvocationWitness(pre.lines, prelude,
                      if d.pyKeepGil then [] else (if shape.nargs > 0 then [IncrefArgs] else []) + [Unblock],
                      NativeCall(d, site, shape, pre.args, corrected),
                      if d.pyKeepGil then [] else [Block] + (if shape.nargs > 0 then [DecrefArgs] else []),
                      if site.catch then [RaiseIfError] else [],
                      ReturnSection(d, site.catch, ctx, shape, corrected).value);
  }

  lemma InvocationWitness(p: seq<Stmt>, prelude: seq<Stmt>, open: seq<Stmt>, native: seq<Stmt>,
                          close: seq<Stmt>, raise: seq<Stmt>, r: seq<Stmt>)
    requires OutsideCall(p) && OutsideCall(r)
    requires forall s :: s in prelude ==> s.CallPrelude?
    requires forall s :: s in open + close ==> GilStep(s)
    requires forall s :: s in raise ==> s.RaiseIfError?
    ensures forall s :: s in p + ([CallComment] + prelude + open + native + close + raise) + r && (s.Case? || s.Invoke?) ==>
              s in native
  {
    forall s | s in p + ([CallComment] + prelude + open + native + close + raise) + r && (s.Case? || s.Invoke?)
      ensures s in native
    {
      assert NativeStep(s) && !GilStep(s);
      assert s !in p && s !in r && s !in open + close;
    }
  }

  /** Corrected, a ret0 held through a pointer takes the address of the call at every call site. */
  lemma NativeBindsAddress(d: FuncDecl, site: CallSite, shape: Shape, args: seq<Arg>)
    requires WellFormed(d) && shape == ShapeOf(d) && ConvertsRefToPtr(d, site.catch)
    ensures forall s :: s in NativeCall(d, site, shape, args, true) && (s.Case? || s.Invoke?) ==>
              s.call.binding == AssignRet0Address
  {
    var binding := CaseBinding(d, site.catch, true);
    assert binding == AssignRet0Address;
    if shape.Switching() {
      var cases := Cases(d, shape, binding, args);
      forall j | 0 <= j < |cases| ensures cases[j].call.binding == AssignRet0Address {
        assert cases[j] == Case(shape.minargs + j, CaseCall(d, binding, args, shape.minargs + j));
      }
      var call := [Switch] + cases + [EndSwitch];
      assert forall s :: s in call && s.Case? ==> s in cases;
    } else {
      assert SingleCall(d, site.catch, shape, args).binding == AssignRet0Address;
    }
  }

  /**
   * When a reference result caught from C++ is held in a pointer ret0,
   * every call, in the switch as in the single call, assigns it the
   * address of the result.
   */
  lemma Ret0AssignedByAddress(site: CallSite, d: FuncDecl)
    requires WellFormed(d) && FunctionCallPlan(site, d).Ok? && ConvertsRefToPtr(d, site.catch)
    ensures forall s :: s in FunctionCallPlan(site, d).value && (s.Case? || s.Invoke?) ==>
              s.call.binding == AssignRet0Address
  {
    InvocationsInNative(site, d, true);
    NativeBindsAddress(d, site, ShapeOf(d), Preamble(site, d).value.args);
  }

  /** `int& f(int a=1)` wrapped with exceptions caught. */
  function RefSwitchDecl(): FuncDecl
  {
    var intType := ParamType("int", "int", None, false, false, false, false, true, true);
    FuncDecl([Param("a", intType, "1")], [Param("r", intType, "")], "int&",
             false, false, false, false, "F", "")
  }

  /**
   * As written, the switch assigns the call itself to ret0 even when ret0
   * was declared as a pointer: here `int* ret0;` is followed by
   * `case 0: ret0 = F(); break;`, which assigns an `int&` to an `int*`.
   */
  lemma PointerAssignedByValue()
    ensures WellFormed(RefSwitchDecl()) && WrapperAsWritten(RefReturnSite(), RefSwitchDecl()).Ok?
    ensures DeclareRet0("int*", false) in WrapperAsWritten(RefReturnSite(), RefSwitchDecl()).value
    ensures Case(0, Invocation(AssignRet0, None, [])) in WrapperAsWritten(RefReturnSite(), RefSwitchDecl()).value
  {
    var d := RefSwitchDecl();
    var site := RefReturnSite();
    assert !Contains("1", "inf") by {
      assert !StartsWith("1", "inf");
      assert "1"[1..] == "";
      assert !Contains("", "inf");
    }
    assert !EndsWith("f", "@");
    assert d.params[..0] == [];
    assert Required(d.params) == 0;
    var shape := ShapeOf(d);
    assert shape == Shape(1, 0, 1, false);
    var l := Lowered(false, Plain("int"), Move);
    assert Lower(d.params[0]) == Ok(l);
    assert ParamLines(d.params[0], 0, shape, l).Ok?;
    assert ParamSection(d.params, shape, 1).Ok?;
    assert Preamble(site, d).Ok?;
    assert ReturnSection(d, true, NotContextManager, shape, false).Ok?;
    assert RStrip("int&") == "int&";
    assert EndsWith("int&", "&");
    assert LastIndexOf("int&", '&') == 3;
    assert Ret0Type(d, true) == "int*";
    Ret0HeldByPointer(site, d, false);
    SwitchPassesLeadingArgs(site, d, false, 0);
    assert LeadingArgs(site, d, 0) == [];
  }

  // ---------------------------------------------------------------------------
  // Errors

  /** The errors a parameter can raise: its lowering, or one of the two refused defaults. */
  predicate ParamError(e: GenError)
  {
    e.BadParameter? || e.UnresolvedDefaultWithOutputs? || e.PointerDefault?
  }

  lemma {:induction false} ParamSectionErrors(params: seq<Param>, shape: Shape, n: nat)
    requires n <= |params| && ParamSection(params, shape, n).Err?
    ensures ParamError(ParamSection(params, shape, n).error)
  {
    if ParamSection(params, shape, n - 1).Err? {
      ParamSectionErrors(params, shape, n - 1);
    } else if Lower(params[n - 1]).Ok? {
      DefaultErrors(params[n - 1], n - 1, shape, Lower(params[n - 1]).value);
    }
  }

  /**
   * A name ending in '@' other than `__enter__@` and `__exit__@` is
   * refused before anything else; `-> self` with outputs is refused only
   * once every parameter has been converted.
   */
  lemma WrapperErrors(site: CallSite, d: FuncDecl, corrected: bool)
    requires WellFormed(d)
    ensures Wrapper(site, d, corrected) == Err(BadContextManagerName(site.pyname)) <==>
            EndsWith(site.pyname, "@") && site.pyname != "__enter__@" && site.pyname != "__exit__@"
    ensures Wrapper(site, d, corrected) == Err(SelfReturnWithOutputs) <==>
            ContextOf(site.pyname).Some? && Preamble(site, d).Ok? && d.postproc == "->self" && |d.results| > 0
    ensures Wrapper(site, d, corrected).Err? && ContextOf(site.pyname).Some? && Preamble(site, d).Err? ==>
            ParamError(Wrapper(site, d, corrected).error)
  {
    if ContextOf(site.pyname).Some? && Preamble(site, d).Err? {
      if SelfSection(site).Ok? {
        ParamSectionErrors(d.params, ShapeOf(d), |d.params|);
      }
    }
  }

  // ---------------------------------------------------------------------------
  // The generator

  /** The function declaration FunctionCall reads; it clears a `-> self` post-processor once handled. */
  class FuncAst {
    const params: seq<Param>
    const results: seq<Param>
    const returnType: string
    const classmethod: bool
    const pyKeepGil: bool
    const isExtendMethod: bool
    const isConstructor: bool
    const cppName: string
    var postproc: string

    constructor (d: FuncDecl)
      ensures Decl() == d
    {
      params, results, returnType := d.params, d.results, d.returnType;
      classmethod, pyKeepGil := d.classmethod, d.pyKeepGil;
      isExtendMethod, isConstructor, cppName := d.isExtendMethod, d.isConstructor, d.cppName;
      postproc := d.postproc;
    }

    function Decl(): FuncDecl
      reads this
    {
      FuncDecl(params, results, returnType, classmethod, pyKeepGil, isExtendMethod, isConstructor, cppName, postproc)
    }
  }

  lemma {:induction false} ParamSectionStops(params: seq<Param>, shape: Shape, i: nat, n: nat)
    requires i <= n <= |params| && ParamSection(params, shape, i).Err?
    ensures ParamSection(params, shape, n) == ParamSection(params, shape, i)
  {
    if i < n {
      ParamSectionStops(params, shape, i, n - 1);
    }
  }

  /** The loop over the parameters, growing the C++ argument list beside the lines. */
  method EmitParams(params: seq<Param>, shape: Shape) returns (r: Result<Emitted, GenError>)
    ensures r == ParamSection(params, shape, |params|)
  {
    var lines: seq<Stmt> := [];
    var args: seq<Arg> := [];
    var i := 0;
    while i < |params|
      invariant 0 <= i <= |params|
      invariant ParamSection(params, shape, i) == Ok(Emitted(lines, args))
    {
      var p := params[i];
      var lowered := Lower(p);
      if lowered.Err? {
        ParamSectionStops(params, shape, i + 1, |params|);
        return Err(lowered.error);
      }
      var l := lowered.value;
      args := args + [Input(i + 1, l.forward)];
      var out := ParamLines(p, i, shape, l);
      if out.Err? {
        ParamSectionStops(params, shape, i + 1, |params|);
        return Err(out.error);
      }
      lines := lines + out.value;
      i := i + 1;
    }
    r := Ok(Emitted(lines, args));
  }

  /** The loop declaring a variable for each output parameter. */
  method EmitRetSlots(shape: Shape) returns (e: Emitted)
    ensures e == RetSlots(shape)
  {
    var first := FirstSlot(shape);
    var lines: seq<Stmt> := [];
    var args: seq<Arg> := [];
    var n := 0;
    while n < shape.nret
      invariant 0 <= n <= shape.nret
      invariant |lines| == |args| == (if n < first then 0 else n - first)
      invariant forall j :: 0 <= j < |lines| ==> lines[j] == DeclareRet(first + j) && args[j] == Output(first + j)
    {
      if n > 0 || shape.isVoid {
        lines := lines + [DeclareRet(n)];
        args := args + [Output(n)];
      }
      n := n + 1;
    }
    e := Emitted(lines, args);
  }

  method EmitPreamble(site: CallSite, d: FuncDecl) returns (r: Result<Emitted, GenError>)
    ensures r == Preamble(site, d)
  {
    var pyname := PlainName(site.pyname);
    var shape := ShapeOf(d);
    var self := SelfSection(site);
    if self.Err? {
      return Err(self.error);
    }
    var ps := EmitParams(d.params, shape);
    if ps.Err? {
      return Err(ps.error);
    }
    var slots := EmitRetSlots(shape);
    r := Ok(Emitted(Header(d, pyname) + self.value.lines + ArgsPrologue(d, shape, pyname) + ps.value.lines + slots.lines,
                    self.value.args + ps.value.args + slots.args));
  }

  /** The loop writing one case per possible number of passed arguments. */
  method EmitCases(d: FuncDecl, shape: Shape, binding: Binding, args: seq<Arg>) returns (lines: seq<Stmt>)
    requires shape.minargs <= shape.nargs
    ensures lines == Cases(d, shape, binding, args)
  {
    lines := [];
    var n := shape.minargs;
    while n <= shape.nargs
      invariant shape.minargs <= n <= shape.nargs + 1
      invariant |lines| == n - shape.minargs
      invariant forall j :: 0 <= j < |lines| ==>
                  lines[j] == Case(shape.minargs + j, CaseCall(d, binding, args, shape.minargs + j))
    {
      lines := lines + [Case(n, CaseCall(d, binding, args, n))];
      n := n + 1;
    }
  }

  /** The loop over the C++ statements that run before the call. */
  method EmitPrelude(prelude: seq<string>) returns (lines: seq<Stmt>)
    ensures lines == seq(|prelude|, i requires 0 <= i < |prelude| => CallPrelude(prelude[i]))
  {
    lines := [];
    var k := 0;
    while k < |prelude|
      invariant 0 <= k <= |prelude|
      invariant |lines| == k
      invariant forall i :: 0 <= i < k ==> lines[i] == CallPrelude(prelude[i])
    {
      lines := lines + [CallPrelude(prelude[k])];
      k := k + 1;
    }
  }

  method EmitNative(d: FuncDecl, site: CallSite, shape: Shape, args: seq<Arg>) returns (lines: seq<Stmt>)
    requires WellFormed(d) && shape == ShapeOf(d)
    ensures lines == NativeCall(d, site, shape, args, true)
  {
    var call: seq<Stmt>;
    if shape.Switching() {
      var cases := EmitCases(d, shape, CaseBinding(d, site.catch, true), args);
      call := [Switch] + cases + [EndSwitch];
    } else {
      call := [Invoke(SingleCall(d, site.catch, shape, args))];
    }
    lines := (if Predeclares(shape, site.catch, true)
              then [DeclareRet0(Ret0Type(d, site.catch), !d.results[0].ptype.hasDefCtor)] else [])
             + (if site.catch then [TryOpen] else [])
             + call
             + (if site.catch then [CatchBlocks] else [])
             + (if site.postcallInit != "" then [PostcallInit(site.postcallInit, !shape.isVoid)] else []);
  }

  method EmitCall(d: FuncDecl, site: CallSite, shape: Shape, args: seq<Arg>) returns (lines: seq<Stmt>)
    requires WellFormed(d) && shape == ShapeOf(d)
    ensures lines == CallSection(d, site, shape, args, true)
  {
    var prelude := EmitPrelude(site.callPrelude);
    var native := EmitNative(d, site, shape, args);
    var open: seq<Stmt> := [];
    var close: seq<Stmt> := [];
    if !d.pyKeepGil {
      open := (if shape.nargs > 0 then [IncrefArgs] else []) + [Unblock];
      close := [Block] + (if shape.nargs > 0 then [DecrefArgs] else []);
    }
    lines := [CallComment] + prelude + open + native + close + (if site.catch then [RaiseIfError] else []);
  }

  /** The loop converting each output into the result tuple, then the return to Python. */
  method EmitReturn(d: FuncDecl, catch: bool, ctx: ContextManager, shape: Shape) returns (r: Result<seq<Stmt>, GenError>)
    requires WellFormed(d) && shape == ShapeOf(d)
    ensures r == ReturnSection(d, catch, ctx, shape, true)
  {
    var returnSelf := d.postproc == "->self";
    var postproc := PostprocAfter(d.postproc);
    if returnSelf && shape.nret != 0 {
      return Err(SelfReturnWithOutputs);
    }
    var deref := ConvertsRefToPtr(d, catch);
    if ReturnsTuple(d, ctx) {
      var items: seq<Stmt> := [];
      var i := 0;
      while i < shape.nret
        invariant 0 <= i <= shape.nret
        invariant |items| == i
        invariant forall j :: 0 <= j < i ==> items[j] == TupleItem(j, deref && j == 0)
      {
        items := items + [TupleItem(i, deref && i == 0)];
        i := i + 1;
      }
      assert items == TupleItems(shape.nret, deref, true);
      var applied: seq<Stmt> := [];
      if postproc != "" {
        applied := [CallPostproc(postproc), if ctx == NotContextManager then KeepPostprocResult else DropPostprocResult];
      }
      var last := match ctx
        case Enter => ReturnSelfAfterTuple
        case Exit => ReturnNoneAfterTuple
        case NotContextManager => ReturnTuple;
      r := Ok([TupleNew(shape.nret)] + items + applied + [last] + [Close]);
    } else if shape.nret > 0 {
      r := Ok([ReturnValue(deref, Predeclares(shape, catch, true) && !d.results[0].ptype.hasDefCtor), Close]);
    } else if returnSelf || ctx == Enter {
      r := Ok([ReturnSelf, Close]);
    } else {
      r := Ok([ReturnNone, Close]);
    }
  }

  /** FunctionCall reaches the return section: the name is valid and every parameter converts. */
  predicate ReachesReturn(site: CallSite, d: FuncDecl)
  {
    ContextOf(site.pyname).Some? && Preamble(site, d).Ok?
  }

  /**
   * FunctionCall: the wrapper for `f` called as `site`. Once the call is
   * written, a `-> self` post-processor is cleared on `f`.
   */
  method FunctionCall(site: CallSite, f: FuncAst) returns (r: Result<seq<Stmt>, GenError>)
    requires WellFormed(f.Decl())
    modifies f
    ensures r == FunctionCallPlan(site, old(f.Decl()))
    ensures f.postproc == if ReachesReturn(site, old(f.Decl())) then PostprocAfter(old(f.postproc)) else old(f.postproc)
  {
    var d := f.Decl();
    var ctx := ContextOf(site.pyname);
    if ctx.None? {
      return Err(BadContextManagerName(site.pyname));
    }
    var shape := ShapeOf(d);
    var pre := EmitPreamble(site, d);
    if pre.Err? {
      return Err(pre.error);
    }
    var call := EmitCall(d, site, shape, pre.value.args);
    if f.postproc == "->self" {
      f.postproc := "";
    }
    var ret := EmitReturn(d, site.catch, ctx.value, shape);
    if ret.Err? {
      return Err(ret.error);
    }
    r := Ok(pre.value.lines + call + ret.value);
  }
}

=== FILE: lowering.dfy ===
/**
 * How one Python argument becomes a C++ stack variable and an argument of
 * the C++ call: the declaration of the variable, the expression that
 * forwards it to the callee, and whether the converted pointer must be
 * checked for null.
 */
module Lowering {
  import opened Common

  /** A callback's signature; only its number of return values is read here. */
  datatype Callable = Callable(returnCount: nat)

  /** The parameter's type as the front end describes it. */
  datatype ParamType = ParamType(
    langType: string,
    cppType: string,
    callable: Option<Callable>,
    rawPointer: bool,
    toptrConversion: bool,
    isAbstract: bool,
    touniqptrConversion: bool,
    hasPublicDtor: bool,
    hasDefCtor: bool)

  /** The declaration of the stack variable `arg`. */
  datatype Decl =
    | StdFunction                           // std::function<signature> arg;
    | Plain(t: string)                      // t arg;
    | PointerTo(t: string)                  // t* arg;
    | UniquePtr(t: string, rooted: bool)    // ::std::unique_ptr<t> arg; (std::unique_ptr<t> when not rooted)
    | Optional(t: string)                   // ::absl::optional<t> arg;

  /** The expression that passes `arg` to the callee. */
  datatype Forward =
    | Move            // std::move(arg)
    | Same            // arg
    | Get             // arg.get()
    | AddressOf       // &arg
    | AddressOfValue  // &arg.value()
    | Deref           // *arg
    | Value           // arg.value()

  datatype Lowered = Lowered(checkNullptr: bool, decl: Decl, forward: Forward)

  datatype LowerError =
    | UntypedNonCallable                            // the assertion on a parameter without a C++ type
    | CallbackWithOutputs(outputs: nat)             // ValueError
    | NoPointerConversion(langType: string, cppType: string)  // TypeError: can't convert
    | NoValidConversion(cppType: string)            // TypeError: no valid conversion defined

  predicate SmartPointer(ctype: string)
  {
    StartsWith(ctype, "::std::unique_ptr") || StartsWith(ctype, "::std::shared_ptr")
  }

  /** `_CreateInputParameter`: the variable and forwarding expression for one parameter. */
  function CreateInputParameter(ptype: ParamType): Result<Lowered, LowerError>
  {
    var ctype := ptype.cppType;
    if ctype == "" then
      match ptype.callable
      case None => Err(UntypedNonCallable)
      case Some(c) =>
        if c.returnCount > 1 then Err(CallbackWithOutputs(c.returnCount - 1))
        else Ok(Lowered(false, StdFunction, Move))
    else if ptype.rawPointer then
      if ptype.toptrConversion then Ok(Lowered(false, Plain(ctype), Same))
      else
        var t := ctype[..|ctype| - 1];
        if EndsWith(ctype, "*") && ptype.isAbstract && ptype.touniqptrConversion then
          Ok(Lowered(false, UniquePtr(t, true), Get))
        else if EndsWith(ctype, "*") && !ptype.isAbstract && ptype.hasPublicDtor then
          if ptype.hasDefCtor then Ok(Lowered(false, Plain(t), AddressOf))
          else Ok(Lowered(false, Optional(t), AddressOfValue))
        else Err(NoPointerConversion(ptype.langType, ctype))
    else if (SmartPointer(ctype) || ptype.isAbstract) && !ptype.touniqptrConversion then
      Err(NoValidConversion(ctype))
    else if SmartPointer(ctype) then Ok(Lowered(false, Plain(ctype), Move))
    else if ptype.toptrConversion then Ok(Lowered(true, PointerTo(ctype), Deref))
    else if ptype.isAbstract then Ok(Lowered(false, UniquePtr(ctype, false), Deref))
    else if ptype.hasDefCtor then Ok(Lowered(false, Plain(ctype), Move))
    else Ok(Lowered(false, Optional(ctype), Value))
  }

  /**
   * The C++ type of the expression `forward` applied to a variable declared
   * by `decl`, where that combination is meaningful.
   */
  function ForwardedType(decl: Decl, forward: Forward): Option<string>
  {
    match (decl, forward)
    case (Plain(t), Move) => Some(t)
    case (Plain(t), Same) => Some(t)
    case (Plain(t), AddressOf) => Some(t + "*")
    case (PointerTo(t), Deref) => Some(t)
    case (UniquePtr(t, _), Get) => Some(t + "*")
    case (UniquePtr(t, _), Deref) => Some(t)
    case (Optional(t), AddressOfValue) => Some(t + "*")
    case (Optional(t), Value) => Some(t)
    case _ => None
  }

  // ---------------------------------------------------------------------------
  // Lemmas

  /** Every successfully lowered typed parameter is passed to the callee with exactly its C++ type. */
  lemma ForwardsDeclaredType(ptype: ParamType)
    requires ptype.cppType != "" && CreateInputParameter(ptype).Ok?
    ensures ForwardedType(CreateInputParameter(ptype).value.decl, CreateInputParameter(ptype).value.forward)
            == Some(ptype.cppType)
  {
    var ctype := ptype.cppType;
    if ptype.rawPointer && !ptype.toptrConversion {
      assert ctype == ctype[..|ctype| - 1] + "*";
    }
  }

  /** A callback is held in a std::function and moved into the call. */
  lemma CallbacksAreMoved(ptype: ParamType)
    requires ptype.cppType == ""
    ensures CreateInputParameter(ptype).Ok? <==> ptype.callable.Some? && ptype.callable.value.returnCount <= 1
    ensures CreateInputParameter(ptype).Ok? ==> CreateInputParameter(ptype).value == Lowered(false, StdFunction, Move)
  {
  }

  /**
   * The converted value is checked for null exactly for a by-value or
   * reference parameter (neither raw nor smart pointer) with a to-pointer
   * conversion, when it is not an abstract type lacking a unique_ptr
   * conversion; it is then held by pointer and dereferenced.
   */
  lemma NullCheckExactly(ptype: ParamType)
    ensures (CreateInputParameter(ptype).Ok? && CreateInputParameter(ptype).value.checkNullptr) <==>
            ptype.cppType != "" && !ptype.rawPointer && !SmartPointer(ptype.cppType) &&
            ptype.toptrConversion && (!ptype.isAbstract || ptype.touniqptrConversion)
    ensures CreateInputParameter(ptype).Ok? && CreateInputParameter(ptype).value.checkNullptr ==>
            CreateInputParameter(ptype).value.decl == PointerTo(ptype.cppType) &&
            CreateInputParameter(ptype).value.forward == Deref
  {
  }

  /** Each error is raised exactly under its condition. */
  lemma ErrorsExactly(ptype: ParamType)
    ensures CreateInputParameter(ptype) == Err(UntypedNonCallable) <==>
            ptype.cppType == "" && ptype.callable.None?
    ensures (CreateInputParameter(ptype).Err? && CreateInputParameter(ptype).error.CallbackWithOutputs?) <==>
            ptype.cppType == "" && ptype.callable.Some? && ptype.callable.value.returnCount > 1
    ensures CreateInputParameter(ptype).Err? && CreateInputParameter(ptype).error.CallbackWithOutputs? ==>
            CreateInputParameter(ptype).error.outputs + 1 == ptype.callable.value.returnCount
    ensures CreateInputParameter(ptype) == Err(NoPointerConversion(ptype.langType, ptype.cppType)) <==>
            ptype.cppType != "" && ptype.rawPointer && !ptype.toptrConversion &&
            !(EndsWith(ptype.cppType, "*") &&
              (if ptype.isAbstract then ptype.touniqptrConversion else ptype.hasPublicDtor))
    ensures CreateInputParameter(ptype) == Err(NoValidConversion(ptype.cppType)) <==>
            ptype.cppType != "" && !ptype.rawPointer &&
            (SmartPointer(ptype.cppType) || ptype.isAbstract) && !ptype.touniqptrConversion
  {
  }

  /**
   * A copy without a default constructor is held in an absl::optional;
   * exactly the parameters copied onto the stack without a default
   * constructor get one.
   */
  lemma OptionalWithoutDefaultCtor(ptype: ParamType)
    ensures (CreateInputParameter(ptype).Ok? && CreateInputParameter(ptype).value.decl.Optional?) <==>
            && ptype.cppType != ""
            && !ptype.hasDefCtor
            && !ptype.toptrConversion
            && !ptype.isAbstract
            && (if ptype.rawPointer then EndsWith(ptype.cppType, "*") && ptype.hasPublicDtor
                else !SmartPointer(ptype.cppType))
  {
  }

  lemma LoweringExamples()
    ensures CreateInputParameter(ParamType("int", "int", None, false, false, false, false, true, true))
            == Ok(Lowered(false, Plain("int"), Move))
    ensures CreateInputParameter(ParamType("Foo", "Foo*", None, true, false, false, false, true, false))
            == Ok(Lowered(false, Optional("Foo"), AddressOfValue))
    ensures CreateInputParameter(ParamType("Foo", "::std::unique_ptr<Foo>", None, false, true, false, false, true, true))
            == Err(NoValidConversion("::std::unique_ptr<Foo>"))
  {
    assert StartsWith("::std::unique_ptr<Foo>", "::std::unique_ptr");
    assert !StartsWith("int", "::std::unique_ptr") && !StartsWith("int", "::std::shared_ptr");
    assert EndsWith("Foo*", "*");
    assert "Foo*"[..3] == "Foo";
  }
}

=== FILE: ready.dfy ===
/**
 * The generated `Ready()` function: for every wrapped type, in dependency
 * order, build its heap type, link its base class, call `PyType_Ready` and
 * set its `__module__`.
 *
 * The output is modelled as a sequence of statement tokens; each token
 * stands for the one or more C++ lines the generator writes for it.
 */
module Ready {
  import opened Common
  import opened TopoSort
  import opened TypesInit

  datatype Line =
    | Blank                                              // the empty line before the function
    | OpenReady                                          // bool Ready() {
    | BuildHeapType(cppname: string, scope: string)      // <cppname> = <scope>::_build_heap_type();
    | IncrefBaseCls                                      // Py_INCREF(base_cls);
    | ImportBase(declares: bool, fqName: string, toplevelFqName: string)
        // [PyObject* ]base_cls = ImportFQName(...); the second argument only when toplevelFqName != ""
    | CheckBaseIsType(fqName: string)                    // null check, then the PyObject_TypeCheck block
    | SetBaseFromImport(cppname: string)                 // <cppname>->tp_base = ...(base_cls);
    | CheckStaticBase(cppname: string, fqName: string)   // the tp_alloc == PyType_GenericAlloc block
    | IncrefWrappedBase(wrappedBase: string)             // Py_INCREF(<wrappedBase>);
    | SetWrappedBase(cppname: string, wrappedBase: string) // <cppname>->tp_base = <wrappedBase>;
    | TypeReady(cppname: string)                         // if (PyType_Ready(<cppname>) < 0) return false;
    | CreateModname                                      // PyObject *modname = ...; and its null check
    | SetModule(cppname: string)                         // PyObject_SetAttrString(..., "__module__", modname);
    | IncrefForModule(cppname: string)                  // Py_INCREF(<cppname>);
    | ReturnTrue                                         // return true;
    | CloseReady                                         // }

  // ---------------------------------------------------------------------------
  // `cppname.rsplit('::', 1)[0]`

  /** A `::` separator starts at index i of name. */
  predicate SeparatorAt(name: string, i: int)
  {
    0 <= i && i + 2 <= |name| && name[i] == ':' && name[i + 1] == ':'
  }

  /** The start of the last `::` in name. */
  function LastSeparator(name: string): (k: Option<nat>)
    ensures k.Some? ==> SeparatorAt(name, k.value) &&
                        forall j :: k.value < j < |name| ==> !SeparatorAt(name, j)
    ensures k.None? ==> forall j :: 0 <= j < |name| ==> !SeparatorAt(name, j)
  {
    if |name| < 2 then None
    else if name[|name| - 2] == ':' && name[|name| - 1] == ':' then Some(|name| - 2)
    else
      var k := LastSeparator(name[..|name| - 1]);
      assert forall j :: SeparatorAt(name, j) && j + 2 <= |name| - 1 ==> SeparatorAt(name[..|name| - 1], j);
      k
  }

  /** The enclosing scope of a C++ name: everything before its last `::`, or the whole name. */
  function NamespaceOf(name: string): string
  {
    match LastSeparator(name)
    case None => name
    case Some(k) => name[..k]
  }

  /**
   * The scope is a prefix of the name; it is the whole name exactly when
   * the name has no `::`, and otherwise the name continues with `::` and a
   * last component free of `::`.
   */
  lemma NamespaceOfSplits(name: string)
    ensures var ns := NamespaceOf(name);
      && |ns| <= |name| && name[..|ns|] == ns
      && (ns == name <==> forall j :: 0 <= j < |name| ==> !SeparatorAt(name, j))
      && (ns != name ==> SeparatorAt(name, |ns|) && forall j :: |ns| < j < |name| ==> !SeparatorAt(name, j))
  {
  }

  // ---------------------------------------------------------------------------
  // The generator's state and one record's lines

  /** `have_modname`, `pybases` and `last_pybase` (None for the initial ''). */
  datatype ReadyState = ReadyState(haveModname: bool, pybases: set<PyBase>, lastPybase: Option<PyBase>)

  const Initial := ReadyState(false, {}, None)

  /** How the type's base is linked: a Python base, else a non-empty base wrapped here, else nothing. */
  function LinkBase(t: TypeInit, st: ReadyState): seq<Line>
  {
    match t.base
    case Some(b) =>
      var isNew := b !in st.pybases;
      (if st.lastPybase == Some(b) then [IncrefBaseCls]
       else [ImportBase(st.pybases == {}, b.fqName, b.toplevelFqName)])
      + (if isNew then [CheckBaseIsType(b.fqName)] else [])
      + [SetBaseFromImport(t.cppname)]
      + (if isNew then [CheckStaticBase(t.cppname, b.fqName)] else [])
    case None =>
      match t.wrappedBase
      case Some(w) => if w != "" then [IncrefWrappedBase(w), SetWrappedBase(t.cppname, w)] else []
      case None => []
  }

  function RecordLines(t: TypeInit, st: ReadyState): seq<Line>
  {
    [BuildHeapType(t.cppname, NamespaceOf(t.cppname))]
    + LinkBase(t, st)
    + [TypeReady(t.cppname)]
    + (if st.haveModname then [] else [CreateModname])
    + [SetModule(t.cppname), IncrefForModule(t.cppname)]
  }

  lemma InRecordLines(t: TypeInit, st: ReadyState, x: Line)
    ensures x in RecordLines(t, st) <==>
      || x == BuildHeapType(t.cppname, NamespaceOf(t.cppname))
      || x in LinkBase(t, st)
      || x == TypeReady(t.cppname)
      || (!st.haveModname && x == CreateModname)
      || x == SetModule(t.cppname)
      || x == IncrefForModule(t.cppname)
  {
  }

  /**
   * The state after record t. As written, `last_pybase` moves only to a
   * Python base seen for the first time; corrected, it moves to every Python
   * base linked, which is what `base_cls` then holds.
   */
  function NextState(t: TypeInit, st: ReadyState, corrected: bool): ReadyState
  {
    if t.base.Some? && t.base.value !in st.pybases then
      ReadyState(true, st.pybases + {t.base.value}, t.base)
    else if corrected && t.base.Some? then
      ReadyState(true, st.pybases, t.base)
    else
      ReadyState(true, st.pybases, st.lastPybase)
  }

  function StateAfter(order: seq<TypeInit>, corrected: bool): ReadyState
  {
    if order == [] then Initial else NextState(order[|order| - 1], StateAfter(order[..|order| - 1], corrected), corrected)
  }

  function BodyLines(order: seq<TypeInit>, corrected: bool): seq<Line>
  {
    if order == [] then []
    else BodyLines(order[..|order| - 1], corrected) + RecordLines(order[|order| - 1], StateAfter(order[..|order| - 1], corrected))
  }

  function ReadyLines(order: seq<TypeInit>, corrected: bool): seq<Line>
  {
    [Blank, OpenReady] + BodyLines(order, corrected) + [ReturnTrue, CloseReady]
  }

  /** What `ReadyFunction` yields, or the error of the ordering step. */
  function ReadyOutput(typesInit: seq<TypeInit>, corrected: bool): Outcome<seq<Line>, InitError>
  {
    match DependencyOrder(typesInit, false)
    case Done(order) => Done(ReadyLines(order, corrected))
    case Raised(e) => Raised(e)
    case Diverges => Diverges
  }

  /** The lines written for the k-th record of the order. */
  function Segment(order: seq<TypeInit>, k: nat, corrected: bool): seq<Line>
    requires k < |order|
  {
    RecordLines(order[k], StateAfter(order[..k], corrected))
  }

  // ---------------------------------------------------------------------------
  // What the state means

  /** Every Python base of the records so far. */
  ghost function ForeignBases(order: seq<TypeInit>): set<PyBase>
  {
    set j | 0 <= j < |order| && order[j].base.Some? :: order[j].base.value
  }

  /** The Python base most recently seen for the first time. */
  ghost function LastNewBase(order: seq<TypeInit>): Option<PyBase>
  {
    if order == [] then None
    else
      var init := order[..|order| - 1];
      var t := order[|order| - 1];
      if t.base.Some? && t.base.value !in ForeignBases(init) then t.base else LastNewBase(init)
  }

  /** The Python base of the latest record that has one. */
  ghost function LastBase(order: seq<TypeInit>): Option<PyBase>
  {
    if order == [] then None
    else if order[|order| - 1].base.Some? then order[|order| - 1].base
    else LastBase(order[..|order| - 1])
  }

  /** What `last_pybase` is meant to track: as written, the last new base; corrected, the last base. */
  ghost function Cached(order: seq<TypeInit>, corrected: bool): Option<PyBase>
  {
    if corrected then LastBase(order) else LastNewBase(order)
  }

  lemma ForeignBasesSnoc(order: seq<TypeInit>)
    requires order != []
    ensures ForeignBases(order) ==
            ForeignBases(order[..|order| - 1]) +
            (if order[|order| - 1].base.Some? then {order[|order| - 1].base.value} else {})
  {
    var init := order[..|order| - 1];
    forall b | b in ForeignBases(order)
      ensures b in ForeignBases(init) || (order[|order| - 1].base == Some(b))
    {
      var j :| 0 <= j < |order| && order[j].base == Some(b);
      if j < |init| {
        assert init[j] == order[j];
      }
    }
    forall b | b in ForeignBases(init) ensures b in ForeignBases(order) {
      var j :| 0 <= j < |init| && init[j].base == Some(b);
      assert order[j] == init[j];
    }
  }

  /**
   * After any prefix of the order, `have_modname` says whether a record was
   * written, `pybases` holds the Python bases seen and `last_pybase` the one
   * most recently seen for the first time (as written) or most recently
   * linked (corrected).
   */
  lemma {:induction false} StateAfterMeaning(order: seq<TypeInit>, corrected: bool)
    ensures StateAfter(order, corrected) == ReadyState(order != [], ForeignBases(order), Cached(order, corrected))
  {
    if order != [] {
      StateAfterMeaning(order[..|order| - 1], corrected);
      ForeignBasesSnoc(order);
    }
  }

  /** The lines of a prefix of the order begin the lines of the whole order. */
  lemma {:induction false} BodyLinesPrefix(order: seq<TypeInit>, n: nat, corrected: bool)
    requires n <= |order|
    ensures BodyLines(order[..n], corrected) <= BodyLines(order, corrected)
    decreases |order| - n
  {
    if n < |order| {
      assert order[..n + 1][..n] == order[..n];
      assert BodyLines(order[..n + 1], corrected) == BodyLines(order[..n], corrected) + Segment(order, n, corrected);
      BodyLinesPrefix(order, n + 1, corrected);
    } else {
      assert order[..n] == order;
    }
  }

  lemma BodyLinesStep(order: seq<TypeInit>, k: nat, corrected: bool)
    requires k < |order|
    ensures BodyLines(order[..k + 1], corrected) == BodyLines(order[..k], corrected) + Segment(order, k, corrected)
  {
    assert order[..k + 1][..k] == order[..k];
  }

  // ---------------------------------------------------------------------------
  // Properties of one record's lines

  /**
   * The base checks are written the first time a Python base is seen, and
   * only then.
   */
  lemma BaseCheckedOnFirstUse(order: seq<TypeInit>, k: nat, fqName: string, cppname: string, corrected: bool)
    requires k < |order|
    ensures CheckBaseIsType(fqName) in Segment(order, k, corrected) <==>
            order[k].base.Some? && order[k].base.value !in ForeignBases(order[..k]) &&
            fqName == order[k].base.value.fqName
    ensures CheckStaticBase(cppname, fqName) in Segment(order, k, corrected) <==>
            order[k].base.Some? && order[k].base.value !in ForeignBases(order[..k]) &&
            fqName == order[k].base.value.fqName && cppname == order[k].cppname
  {
    StateAfterMeaning(order[..k], corrected);
    ChecksInRecord(order[k], StateAfter(order[..k], corrected), fqName, cppname);
  }

  lemma ChecksInRecord(t: TypeInit, st: ReadyState, fqName: string, cppname: string)
    ensures CheckBaseIsType(fqName) in RecordLines(t, st) <==>
            t.base.Some? && t.base.value !in st.pybases && fqName == t.base.value.fqName
    ensures CheckStaticBase(cppname, fqName) in RecordLines(t, st) <==>
            t.base.Some? && t.base.value !in st.pybases && fqName == t.base.value.fqName && cppname == t.cppname
  {
    InRecordLines(t, st, CheckBaseIsType(fqName));
    InRecordLines(t, st, CheckStaticBase(cppname, fqName));
  }

  /**
   * A Python base equal to `last_pybase` (see `Cached`) reuses `base_cls`;
   * any other is imported, declaring `base_cls` only if no Python base was
   * seen before.
   */
  lemma BaseImportedUnlessLast(order: seq<TypeInit>, k: nat, corrected: bool)
    requires k < |order| && order[k].base.Some?
    ensures var b := order[k].base.value;
      && (IncrefBaseCls in Segment(order, k, corrected) <==> Cached(order[..k], corrected) == Some(b))
      && (Cached(order[..k], corrected) != Some(b) ==>
            ImportBase(ForeignBases(order[..k]) == {}, b.fqName, b.toplevelFqName) in Segment(order, k, corrected))
      && (forall d, f, t :: ImportBase(d, f, t) in Segment(order, k, corrected) ==>
            Cached(order[..k], corrected) != Some(b) && d == (ForeignBases(order[..k]) == {}) &&
            f == b.fqName && t == b.toplevelFqName)
  {
    StateAfterMeaning(order[..k], corrected);
    ImportInRecord(order[k], StateAfter(order[..k], corrected));
  }

  lemma ImportInRecord(t: TypeInit, st: ReadyState)
    requires t.base.Some?
    ensures var b := t.base.value;
      && (IncrefBaseCls in RecordLines(t, st) <==> st.lastPybase == Some(b))
      && (st.lastPybase != Some(b) ==> ImportBase(st.pybases == {}, b.fqName, b.toplevelFqName) in RecordLines(t, st))
      && (forall d, f, u :: ImportBase(d, f, u) in RecordLines(t, st) ==>
            st.lastPybase != Some(b) && d == (st.pybases == {}) && f == b.fqName && u == b.toplevelFqName)
  {
    InRecordLines(t, st, IncrefBaseCls);
    forall d, f, u ensures ImportBase(d, f, u) in RecordLines(t, st) <==> ImportBase(d, f, u) in LinkBase(t, st) {
      InRecordLines(t, st, ImportBase(d, f, u));
    }
  }

  /**
   * A Python base takes precedence over a base wrapped here; a wrapped base
   * is linked only when its name is non-empty and there is no Python base.
   */
  lemma BaseLinking(t: TypeInit, st: ReadyState, w: string)
    ensures SetWrappedBase(t.cppname, w) in RecordLines(t, st) <==>
            t.base.None? && t.wrappedBase == Some(w) && w != ""
    ensures SetBaseFromImport(t.cppname) in RecordLines(t, st) <==> t.base.Some?
    ensures t.base.Some? ==> IncrefWrappedBase(w) !in RecordLines(t, st)
  {
    InRecordLines(t, st, SetWrappedBase(t.cppname, w));
    InRecordLines(t, st, SetBaseFromImport(t.cppname));
    InRecordLines(t, st, IncrefWrappedBase(w));
    LinkBaseLinking(t, st, w);
  }

  lemma LinkBaseLinking(t: TypeInit, st: ReadyState, w: string)
    ensures SetWrappedBase(t.cppname, w) in LinkBase(t, st) <==>
            t.base.None? && t.wrappedBase == Some(w) && w != ""
    ensures SetBaseFromImport(t.cppname) in LinkBase(t, st) <==> t.base.Some?
    ensures t.base.Some? ==> IncrefWrappedBase(w) !in LinkBase(t, st)
  {
    if t.base.None? {
      assert LinkBase(t, st) == if t.wrappedBase.Some? && t.wrappedBase.value != "" then
        [IncrefWrappedBase(t.wrappedBase.value), SetWrappedBase(t.cppname, t.wrappedBase.value)] else [];
    }
  }

  // ---------------------------------------------------------------------------
  // What `base_cls` holds

  /** `base_cls` after line x: an import rebinds it, every other line keeps it. */
  function BaseClsAfterLine(x: Line, baseCls: Option<PyBase>): Option<PyBase>
  {
    if x.ImportBase? then Some(PyBase(x.fqName, x.toplevelFqName)) else baseCls
  }

  /** `base_cls` after the lines, starting from baseCls. */
  function BaseClsAfter(lines: seq<Line>, baseCls: Option<PyBase>): Option<PyBase>
  {
    if lines == [] then baseCls else BaseClsAfter(lines[1..], BaseClsAfterLine(lines[0], baseCls))
  }

  /** Each type whose `tp_base` is set from `base_cls`, with what `base_cls` holds at that line. */
  function BasesFromImport(lines: seq<Line>, baseCls: Option<PyBase>): seq<(string, Option<PyBase>)>
  {
    if lines == [] then []
    else
      (if lines[0].SetBaseFromImport? then [(lines[0].cppname, baseCls)] else [])
      + BasesFromImport(lines[1..], BaseClsAfterLine(lines[0], baseCls))
  }

  /** The records with a Python base, each with that base: what `tp_base` is meant to be. */
  function PythonBases(order: seq<TypeInit>): (r: seq<(string, Option<PyBase>)>)
    ensures |r| <= |order|
    ensures forall i :: 0 <= i < |r| ==> r[i].1.Some?
  {
    if order == [] then []
    else
      var t := order[|order| - 1];
      PythonBases(order[..|order| - 1]) + (if t.base.Some? then [(t.cppname, t.base)] else [])
  }

  lemma {:induction false} BaseClsAppend(a: seq<Line>, b: seq<Line>, baseCls: Option<PyBase>)
    ensures BaseClsAfter(a + b, baseCls) == BaseClsAfter(b, BaseClsAfter(a, baseCls))
    ensures BasesFromImport(a + b, baseCls) ==
            BasesFromImport(a, baseCls) + BasesFromImport(b, BaseClsAfter(a, baseCls))
  {
    if a == [] {
      assert a + b == b;
    } else {
      assert (a + b)[1..] == a[1..] + b;
      BaseClsAppend(a[1..], b, BaseClsAfterLine(a[0], baseCls));
    }
  }

  /** Lines that neither rebind nor read `base_cls`. */
  lemma {:induction false} BaseClsUntouched(lines: seq<Line>, baseCls: Option<PyBase>)
    requires forall i :: 0 <= i < |lines| ==> !lines[i].ImportBase? && !lines[i].SetBaseFromImport?
    ensures BaseClsAfter(lines, baseCls) == baseCls
    ensures BasesFromImport(lines, baseCls) == []
  {
    if lines != [] {
      BaseClsUntouched(lines[1..], baseCls);
    }
  }

  /** The link lines of one record, as `RecordBaseCls` states for the whole record. */
  lemma LinkBaseCls(t: TypeInit, st: ReadyState, baseCls: Option<PyBase>)
    ensures BasesFromImport(LinkBase(t, st), baseCls) ==
            if t.base.Some? then [(t.cppname, if st.lastPybase == t.base then baseCls else t.base)] else []
    ensures BaseClsAfter(LinkBase(t, st), baseCls) ==
            if t.base.Some? && st.lastPybase != t.base then t.base else baseCls
  {
    if t.base.Some? {
      var b := t.base.value;
      var isNew := b !in st.pybases;
      var head := if st.lastPybase == Some(b) then [IncrefBaseCls]
                  else [ImportBase(st.pybases == {}, b.fqName, b.toplevelFqName)];
      var check := if isNew then [CheckBaseIsType(b.fqName)] else [];
      var staticCheck := if isNew then [CheckStaticBase(t.cppname, b.fqName)] else [];
      var rest := check + ([SetBaseFromImport(t.cppname)] + staticCheck);
      assert LinkBase(t, st) == head + rest;
      var h := if st.lastPybase == t.base then baseCls else t.base;
      HeadBaseCls(head, baseCls, h);
      LinkRestBaseCls(check, t.cppname, staticCheck, h);
      BaseClsAppend(head, rest, baseCls);
    } else {
      BaseClsUntouched(LinkBase(t, st), baseCls);
    }
  }

  lemma HeadBaseCls(head: seq<Line>, baseCls: Option<PyBase>, h: Option<PyBase>)
    requires |head| == 1
    requires head[0].ImportBase? ==> h == Some(PyBase(head[0].fqName, head[0].toplevelFqName))
    requires !head[0].ImportBase? ==> h == baseCls
    requires !head[0].SetBaseFromImport?
    ensures BaseClsAfter(head, baseCls) == h
    ensures BasesFromImport(head, baseCls) == []
  {
    assert head[1..] == [];
  }

  lemma LinkRestBaseCls(check: seq<Line>, cppname: string, staticCheck: seq<Line>, h: Option<PyBase>)
    requires forall i :: 0 <= i < |check| ==> !check[i].ImportBase? && !check[i].SetBaseFromImport?
    requires forall i :: 0 <= i < |staticCheck| ==> !staticCheck[i].ImportBase? && !staticCheck[i].SetBaseFromImport?
    ensures BaseClsAfter(check + ([SetBaseFromImport(cppname)] + staticCheck), h) == h
    ensures BasesFromImport(check + ([SetBaseFromImport(cppname)] + staticCheck), h) == [(cppname, h)]
  {
    BaseClsUntouched(check, h);
    BaseClsUntouched(staticCheck, h);
    assert ([SetBaseFromImport(cppname)] + staticCheck)[1..] == staticCheck;
    BaseClsAppend(check, [SetBaseFromImport(cppname)] + staticCheck, h);
  }

  /**
   * In one record, a type with a Python base gets `base_cls` as it stood
   * when `last_pybase` is that base, and the freshly imported base otherwise;
   * `base_cls` is rebound exactly in the second case.
   */
  lemma RecordBaseCls(t: TypeInit, st: ReadyState, baseCls: Option<PyBase>)
    ensures BasesFromImport(RecordLines(t, st), baseCls) ==
            if t.base.Some? then [(t.cppname, if st.lastPybase == t.base then baseCls else t.base)] else []
    ensures BaseClsAfter(RecordLines(t, st), baseCls) ==
            if t.base.Some? && st.lastPybase != t.base then t.base else baseCls
  {
    var modname := if st.haveModname then [] else [CreateModname];
    var tail := [TypeReady(t.cppname)] + modname + [SetModule(t.cppname), IncrefForModule(t.cppname)];
    assert RecordLines(t, st) == [BuildHeapType(t.cppname, NamespaceOf(t.cppname))] + (LinkBase(t, st) + tail);
    LinkBaseCls(t, st, baseCls);
    AroundBaseCls([BuildHeapType(t.cppname, NamespaceOf(t.cppname))], LinkBase(t, st), tail, baseCls);
  }

  /** Lines around the link lines that leave `base_cls` alone change nothing about it. */
  lemma AroundBaseCls(before: seq<Line>, link: seq<Line>, after: seq<Line>, baseCls: Option<PyBase>)
    requires forall i :: 0 <= i < |before| ==> !before[i].ImportBase? && !before[i].SetBaseFromImport?
    requires forall i :: 0 <= i < |after| ==> !after[i].ImportBase? && !after[i].SetBaseFromImport?
    ensures BaseClsAfter(before + (link + after), baseCls) == BaseClsAfter(link, baseCls)
    ensures BasesFromImport(before + (link + after), baseCls) == BasesFromImport(link, baseCls)
  {
    BaseClsUntouched(before, baseCls);
    BaseClsUntouched(after, BaseClsAfter(link, baseCls));
    BaseClsAppend(link, after, baseCls);
    BaseClsAppend(before, link + after, baseCls);
  }

  /**
   * Corrected, `base_cls` always holds the base of `last_pybase`, so every
   * type with a Python base gets its own base as `tp_base`.
   */
  lemma {:induction false} BaseClsHoldsOwnBase(order: seq<TypeInit>)
    ensures BaseClsAfter(BodyLines(order, true), None) == StateAfter(order, true).lastPybase
    ensures BasesFromImport(BodyLines(order, true), None) == PythonBases(order)
  {
    if order != [] {
      var init := order[..|order| - 1];
      var t := order[|order| - 1];
      BaseClsHoldsOwnBase(init);
      BaseClsAppend(BodyLines(init, true), RecordLines(t, StateAfter(init, true)), None);
      RecordBaseCls(t, StateAfter(init, true), BaseClsAfter(BodyLines(init, true), None));
    }
  }

  /** One record appended to the output, for either version of `last_pybase`. */
  lemma BodyBaseClsStep(order: seq<TypeInit>, corrected: bool)
    requires order != []
    ensures var init := order[..|order| - 1];
            var t := order[|order| - 1];
            var st := StateAfter(init, corrected);
            var h := BaseClsAfter(BodyLines(init, corrected), None);
            && BasesFromImport(BodyLines(order, corrected), None) ==
               BasesFromImport(BodyLines(init, corrected), None) +
               (if t.base.Some? then [(t.cppname, if st.lastPybase == t.base then h else t.base)] else [])
            && BaseClsAfter(BodyLines(order, corrected), None) ==
               (if t.base.Some? && st.lastPybase != t.base then t.base else h)
  {
    var init := order[..|order| - 1];
    var t := order[|order| - 1];
    BaseClsAppend(BodyLines(init, corrected), RecordLines(t, StateAfter(init, corrected)), None);
    RecordBaseCls(t, StateAfter(init, corrected), BaseClsAfter(BodyLines(init, corrected), None));
  }

  /**
   * As written, with Python bases A, B, A, B the third record re-imports A
   * without moving `last_pybase` off B, so the fourth reuses `base_cls`,
   * which holds A, and gets A as its base instead of B.
   */
  lemma StaleBaseExample()
    ensures var a := PyBase("m.A", "");
            var b := PyBase("m.B", "");
            var order := [TypeInit("w", Some(a), None), TypeInit("x", Some(b), None),
                          TypeInit("y", Some(a), None), TypeInit("z", Some(b), None)];
            && Segment(order, 3, false)[..3] == [BuildHeapType("z", "z"), IncrefBaseCls, SetBaseFromImport("z")]
            && BasesFromImport(BodyLines(order, false), None) ==
               [("w", Some(a)), ("x", Some(b)), ("y", Some(a)), ("z", Some(a))]
            && BasesFromImport(BodyLines(order, false), None) != PythonBases(order)
  {
    var a := PyBase("m.A", "");
    var b := PyBase("m.B", "");
    var order := [TypeInit("w", Some(a), None), TypeInit("x", Some(b), None),
                  TypeInit("y", Some(a), None), TypeInit("z", Some(b), None)];
    StaleStates(a, b, order);
    StaleSegment(a, b, order);
    StaleLinks(a, b, order);
    StalePythonBases(a, b, order);
  }

  lemma StaleSegment(a: PyBase, b: PyBase, order: seq<TypeInit>)
    requires a != b
    requires order == [TypeInit("w", Some(a), None), TypeInit("x", Some(b), None),
                       TypeInit("y", Some(a), None), TypeInit("z", Some(b), None)]
    requires StateAfter(order[..3], false) == ReadyState(true, {a, b}, Some(b))
    ensures Segment(order, 3, false)[..3] == [BuildHeapType("z", "z"), IncrefBaseCls, SetBaseFromImport("z")]
  {
    assert LastSeparator("z") == None;
  }

  lemma StaleLinks(a: PyBase, b: PyBase, order: seq<TypeInit>)
    requires a != b
    requires order == [TypeInit("w", Some(a), None), TypeInit("x", Some(b), None),
                       TypeInit("y", Some(a), None), TypeInit("z", Some(b), None)]
    requires order[..1][..0] == [] && order[..2][..1] == order[..1] && order[..3][..2] == order[..2]
    requires StateAfter(order[..1], false) == ReadyState(true, {a}, Some(a))
    requires StateAfter(order[..2], false) == ReadyState(true, {a, b}, Some(b))
    requires StateAfter(order[..3], false) == ReadyState(true, {a, b}, Some(b))
    ensures BasesFromImport(BodyLines(order, false), None) ==
            [("w", Some(a)), ("x", Some(b)), ("y", Some(a)), ("z", Some(a))]
  {
    assert order[..4] == order;
    BodyBaseClsStep(order[..1], false);
    BodyBaseClsStep(order[..2], false);
    BodyBaseClsStep(order[..3], false);
    BodyBaseClsStep(order, false);
  }

  /** The as-written states after each prefix of the A, B, A, B example. */
  lemma StaleStates(a: PyBase, b: PyBase, order: seq<TypeInit>)
    requires a != b
    requires order == [TypeInit("w", Some(a), None), TypeInit("x", Some(b), None),
                       TypeInit("y", Some(a), None), TypeInit("z", Some(b), None)]
    ensures order[..1][..0] == [] && order[..2][..1] == order[..1] && order[..3][..2] == order[..2]
    ensures StateAfter(order[..1], false) == ReadyState(true, {a}, Some(a))
    ensures StateAfter(order[..2], false) == ReadyState(true, {a, b}, Some(b))
    ensures StateAfter(order[..3], false) == ReadyState(true, {a, b}, Some(b))
  {
    assert order[..1][..0] == [];
    assert order[..2][..1] == order[..1];
    assert order[..3][..2] == order[..2];
  }

  lemma StalePythonBases(a: PyBase, b: PyBase, order: seq<TypeInit>)
    requires order == [TypeInit("w", Some(a), None), TypeInit("x", Some(b), None),
                       TypeInit("y", Some(a), None), TypeInit("z", Some(b), None)]
    ensures PythonBases(order) == [("w", Some(a)), ("x", Some(b)), ("y", Some(a)), ("z", Some(b))]
  {
    assert order[..1][..0] == [];
    assert order[..2][..1] == order[..1];
    assert order[..3][..2] == order[..2];
    assert order[..4][..3] == order[..3];
    assert PythonBases(order[..1]) == [("w", Some(a))];
    assert PythonBases(order[..2]) == [("w", Some(a)), ("x", Some(b))];
    assert PythonBases(order[..3]) == [("w", Some(a)), ("x", Some(b)), ("y", Some(a))];
  }

  // ---------------------------------------------------------------------------
  // Properties of the whole function

  /** Heap types are built once per record, in the dependency order. */
  function HeapTypes(lines: seq<Line>): seq<string>
  {
    if lines == [] then []
    else (if lines[0].BuildHeapType? then [lines[0].cppname] else []) + HeapTypes(lines[1..])
  }

  lemma {:induction false} HeapTypesAppend(a: seq<Line>, b: seq<Line>)
    ensures HeapTypes(a + b) == HeapTypes(a) + HeapTypes(b)
  {
    if a == [] {
      assert a + b == b;
    } else {
      assert (a + b)[1..] == a[1..] + b;
      HeapTypesAppend(a[1..], b);
    }
  }

  lemma RecordHeapTypes(t: TypeInit, st: ReadyState)
    ensures HeapTypes(RecordLines(t, st)) == [t.cppname]
  {
    var link := LinkBase(t, st);
    var modname := if st.haveModname then [] else [CreateModname];
    var tail := [TypeReady(t.cppname)] + modname + [SetModule(t.cppname), IncrefForModule(t.cppname)];
    assert RecordLines(t, st) == [BuildHeapType(t.cppname, NamespaceOf(t.cppname))] + (link + tail);
    LinkWithoutHeapType(t, st);
    NoHeapTypes(tail);
    HeapTypesAppend(link, tail);
    HeapTypesAppend([BuildHeapType(t.cppname, NamespaceOf(t.cppname))], link + tail);
    assert HeapTypes([BuildHeapType(t.cppname, NamespaceOf(t.cppname))]) == [t.cppname] + HeapTypes([]);
  }

  lemma LinkWithoutHeapType(t: TypeInit, st: ReadyState)
    ensures HeapTypes(LinkBase(t, st)) == []
  {
    var link := LinkBase(t, st);
    forall i | 0 <= i < |link| ensures !link[i].BuildHeapType? {
      assert link[i] in link;
    }
    NoHeapTypes(link);
  }

  lemma {:induction false} NoHeapTypes(lines: seq<Line>)
    requires forall i :: 0 <= i < |lines| ==> !lines[i].BuildHeapType?
    ensures HeapTypes(lines) == []
  {
    if lines != [] {
      NoHeapTypes(lines[1..]);
    }
  }

  lemma {:induction false} HeapTypesInOrder(order: seq<TypeInit>, corrected: bool)
    ensures HeapTypes(BodyLines(order, corrected)) == Names(order)
  {
    if order != [] {
      var init := order[..|order| - 1];
      HeapTypesInOrder(init, corrected);
      HeapTypesSnoc(BodyLines(init, corrected), init, order[|order| - 1], StateAfter(init, corrected));
      assert init + [order[|order| - 1]] == order;
    }
  }

  lemma HeapTypesSnoc(body: seq<Line>, init: seq<TypeInit>, t: TypeInit, st: ReadyState)
    requires HeapTypes(body) == Names(init)
    ensures HeapTypes(body + RecordLines(t, st)) == Names(init + [t])
  {
    HeapTypesAppend(body, RecordLines(t, st));
    RecordHeapTypes(t, st);
    assert (init + [t])[..|init|] == init;
  }

  lemma SegmentWithoutModname(order: seq<TypeInit>, k: nat, corrected: bool)
    requires 0 < k < |order|
    ensures CreateModname !in Segment(order, k, corrected)
  {
    assert StateAfter(order[..k], corrected).haveModname;
    InRecordLines(order[k], StateAfter(order[..k], corrected), CreateModname);
  }

  /** The lines of records 1 .. n-1. */
  function Later(order: seq<TypeInit>, n: nat, corrected: bool): seq<Line>
    requires n <= |order|
  {
    if n <= 1 then [] else Later(order, n - 1, corrected) + Segment(order, n - 1, corrected)
  }

  /** After the first record's lines, no later record creates `modname` again. */
  lemma {:induction false} ModnameAfterFirst(order: seq<TypeInit>, n: nat, corrected: bool)
    requires 0 < n <= |order|
    ensures BodyLines(order[..n], corrected) == Segment(order, 0, corrected) + Later(order, n, corrected)
    ensures CreateModname !in Later(order, n, corrected)
  {
    BodyLinesStep(order, n - 1, corrected);
    if n == 1 {
      assert order[..0] == [];
    } else {
      ModnameAfterFirst(order, n - 1, corrected);
      SegmentWithoutModname(order, n - 1, corrected);
      AppendAssoc(Segment(order, 0, corrected), Later(order, n - 1, corrected), Segment(order, n - 1, corrected));
    }
  }

  lemma AppendAssoc(a: seq<Line>, b: seq<Line>, c: seq<Line>)
    ensures (a + b) + c == a + (b + c)
  {
  }

  lemma FirstSegment(order: seq<TypeInit>, corrected: bool)
    requires order != []
    ensures var t := order[0];
      Segment(order, 0, corrected) ==
        ([BuildHeapType(t.cppname, NamespaceOf(t.cppname))] + LinkBase(t, Initial) + [TypeReady(t.cppname)]) +
        [CreateModname] + [SetModule(t.cppname), IncrefForModule(t.cppname)]
  {
    assert order[..0] == [];
  }

  lemma NoModnameInLink(t: TypeInit, st: ReadyState)
    ensures CreateModname !in LinkBase(t, st) && forall c :: SetModule(c) !in LinkBase(t, st)
  {
  }

  /**
   * `modname` is created exactly once when there is a type, in the first
   * type's lines and before any `__module__` is set; with no type it is
   * never created.
   */
  lemma ModnameCreatedOnce(order: seq<TypeInit>, corrected: bool)
    ensures order == [] ==> CreateModname !in ReadyLines(order, corrected)
    ensures order != [] ==>
      exists pre, post :: ReadyLines(order, corrected) == pre + [CreateModname] + post &&
                          CreateModname !in pre && CreateModname !in post &&
                          forall c :: SetModule(c) !in pre
  {
    if order != [] {
      ModnameAfterFirst(order, |order|, corrected);
      assert order[..|order|] == order;
      var rest := Later(order, |order|, corrected);
      var t := order[0];
      FirstSegment(order, corrected);
      var head := [BuildHeapType(t.cppname, NamespaceOf(t.cppname))] + LinkBase(t, Initial) + [TypeReady(t.cppname)];
      var tail := [SetModule(t.cppname), IncrefForModule(t.cppname)];
      ModnameSplit(head, tail, rest);
      HeadWithoutModule(t);
      var pre := [Blank, OpenReady] + head;
      var post := tail + rest + [ReturnTrue, CloseReady];
      ModnameWitness(ReadyLines(order, corrected), pre, post);
    }
  }

  lemma ModnameWitness(lines: seq<Line>, pre: seq<Line>, post: seq<Line>)
    requires lines == pre + [CreateModname] + post
    requires CreateModname !in pre && CreateModname !in post && forall c :: SetModule(c) !in pre
    ensures exists pre, post :: lines == pre + [CreateModname] + post &&
                                CreateModname !in pre && CreateModname !in post &&
                                forall c :: SetModule(c) !in pre
  {
  }

  lemma HeadWithoutModule(t: TypeInit)
    ensures var head := [Blank, OpenReady] + ([BuildHeapType(t.cppname, NamespaceOf(t.cppname))] + LinkBase(t, Initial) + [TypeReady(t.cppname)]);
      CreateModname !in head && forall c :: SetModule(c) !in head
  {
    NoModnameInLink(t, Initial);
  }

  lemma ModnameSplit(head: seq<Line>, tail: seq<Line>, rest: seq<Line>)
    ensures [Blank, OpenReady] + (head + [CreateModname] + tail + rest) + [ReturnTrue, CloseReady] ==
            ([Blank, OpenReady] + head) + [CreateModname] + (tail + rest + [ReturnTrue, CloseReady])
  {
  }

  /** A record's own `PyType_Ready` is among the lines of every later prefix. */
  lemma ReadyInPrefix(order: seq<TypeInit>, m: nat, k: nat, corrected: bool)
    requires m < k <= |order|
    ensures TypeReady(order[m].cppname) in BodyLines(order[..k], corrected)
  {
    BodyLinesPrefix(order[..k], m + 1, corrected);
    assert order[..k][..m + 1] == order[..m + 1];
    BodyLinesStep(order, m, corrected);
    InRecordLines(order[m], StateAfter(order[..m], corrected), TypeReady(order[m].cppname));
    assert TypeReady(order[m].cppname) in BodyLines(order[..m + 1], corrected);
    InPrefix(BodyLines(order[..m + 1], corrected), BodyLines(order[..k], corrected), TypeReady(order[m].cppname));
  }

  /** The lines of records n .. |order|-1. */
  function LinesFrom(order: seq<TypeInit>, n: nat, corrected: bool): seq<Line>
    requires n <= |order|
    decreases |order| - n
  {
    if n == |order| then [] else Segment(order, n, corrected) + LinesFrom(order, n + 1, corrected)
  }

  lemma {:induction false} BodyLinesSplit(order: seq<TypeInit>, n: nat, corrected: bool)
    requires n <= |order|
    ensures BodyLines(order, corrected) == BodyLines(order[..n], corrected) + LinesFrom(order, n, corrected)
    decreases |order| - n
  {
    if n == |order| {
      assert order[..n] == order;
    } else {
      BodyLinesStep(order, n, corrected);
      BodyLinesSplit(order, n + 1, corrected);
      AppendAssoc(BodyLines(order[..n], corrected), Segment(order, n, corrected), LinesFrom(order, n + 1, corrected));
    }
  }

  /** The whole output is the lines before record k, its segment, and the rest. */
  lemma SegmentInOutput(order: seq<TypeInit>, k: nat, corrected: bool)
    requires k < |order|
    ensures ReadyLines(order, corrected) ==
            [Blank, OpenReady] + BodyLines(order[..k], corrected) + Segment(order, k, corrected) +
            (LinesFrom(order, k + 1, corrected) + [ReturnTrue, CloseReady])
  {
    BodyLinesSplit(order, k, corrected);
    SplitAround([Blank, OpenReady], BodyLines(order[..k], corrected), Segment(order, k, corrected),
                LinesFrom(order, k + 1, corrected), [ReturnTrue, CloseReady]);
  }

  lemma SplitAround(a: seq<Line>, b: seq<Line>, c: seq<Line>, d: seq<Line>, e: seq<Line>)
    ensures a + (b + (c + d)) + e == a + b + c + (d + e)
  {
  }

  /** Record m's `PyType_Ready` comes before the lines of every later record k. */
  lemma ReadyBeforeLaterSegment(order: seq<TypeInit>, m: nat, k: nat, corrected: bool)
    requires m < k < |order|
    ensures var pre := [Blank, OpenReady] + BodyLines(order[..k], corrected);
      ReadyLines(order, corrected) == pre + Segment(order, k, corrected) + (LinesFrom(order, k + 1, corrected) + [ReturnTrue, CloseReady]) &&
      TypeReady(order[m].cppname) in pre
  {
    ReadyInPrefix(order, m, k, corrected);
    SegmentInOutput(order, k, corrected);
  }

  /**
   * A type whose base is wrapped in this module has that base made ready
   * before its own lines link to it.
   */
  lemma ReadyWitness(out: Outcome<seq<Line>, InitError>, pre: seq<Line>, seg: seq<Line>, post: seq<Line>, base: string)
    requires out == Done(pre + seg + post) && TypeReady(base) in pre
    ensures exists pre, post :: out == Done(pre + seg + post) && TypeReady(base) in pre
  {
  }

  lemma WrappedBaseReadyFirst(typesInit: seq<TypeInit>, k: nat, corrected: bool)
    requires DependencyOrder(typesInit, false).Done?
    requires var order := DependencyOrder(typesInit, false).value;
             k < |order| && order[k].wrappedBase.Some?
    ensures var order := DependencyOrder(typesInit, false).value;
      exists pre, post :: ReadyOutput(typesInit, corrected) == Done(pre + Segment(order, k, corrected) + post) &&
                          TypeReady(order[k].wrappedBase.value) in pre
  {
    var order := DependencyOrder(typesInit, false).value;
    OrderedIsDependencyOrder(typesInit, false);
    var m :| 0 <= m < k && order[m].cppname == order[k].wrappedBase.value;
    ReadyBeforeLaterSegment(order, m, k, corrected);
    var pre := [Blank, OpenReady] + BodyLines(order[..k], corrected);
    var post := LinesFrom(order, k + 1, corrected) + [ReturnTrue, CloseReady];
    ReadyWitness(ReadyOutput(typesInit, corrected), pre, Segment(order, k, corrected), post, order[k].wrappedBase.value);
  }

  /**
   * When the most recently new base is not the one a type uses, the base is
   * imported again, and its checks are not repeated.
   */
  lemma ReimportExample()
    ensures var a := PyBase("m.A", "");
            var b := PyBase("m.B", "");
            var order := [TypeInit("x", Some(a), None), TypeInit("y", Some(b), None),
                          TypeInit("z", Some(a), None)];
            Segment(order, 2, false) ==
              [BuildHeapType("z", "z"), ImportBase(false, "m.A", ""), SetBaseFromImport("z"),
               TypeReady("z"), SetModule("z"), IncrefForModule("z")]
  {
    var a := PyBase("m.A", "");
    var b := PyBase("m.B", "");
    var order := [TypeInit("x", Some(a), None), TypeInit("y", Some(b), None), TypeInit("z", Some(a), None)];
    assert order[..1][..0] == [];
    assert StateAfter(order[..1], false) == ReadyState(true, {a}, Some(a));
    assert order[..2][..1] == order[..1];
    assert StateAfter(order[..2], false) == ReadyState(true, {a, b}, Some(b));
  }

  // ---------------------------------------------------------------------------
  // The generator as the source writes it.

  /** The base-linking part of one iteration, with the bases it records. */
  method EmitLink(t: TypeInit, haveModname: bool, pybases: set<PyBase>, lastPybase: Option<PyBase>)
    returns (lines: seq<Line>, pybases': set<PyBase>, lastPybase': Option<PyBase>)
    ensures lines == LinkBase(t, ReadyState(haveModname, pybases, lastPybase))
    ensures ReadyState(true, pybases', lastPybase') == NextState(t, ReadyState(haveModname, pybases, lastPybase), true)
  {
    pybases', lastPybase' := pybases, lastPybase;
    lines := [];
    if t.base.Some? {
      var base := t.base.value;
      if Some(base) == lastPybase {
        lines := [IncrefBaseCls];
      } else {
        lines := [ImportBase(pybases == {}, base.fqName, base.toplevelFqName)];
      }
      if base !in pybases {
        lines := lines + [CheckBaseIsType(base.fqName)];
      }
      lines := lines + [SetBaseFromImport(t.cppname)];
      if base !in pybases {
        lines := lines + [CheckStaticBase(t.cppname, base.fqName)];
        pybases' := pybases + {base};
      }
      lastPybase' := Some(base);
    } else if t.wrappedBase.Some? && t.wrappedBase.value != "" {
      lines := [IncrefWrappedBase(t.wrappedBase.value), SetWrappedBase(t.cppname, t.wrappedBase.value)];
    }
  }

  /** One iteration of the generator's loop: the lines for record t and the updated state. */
  method EmitRecord(t: TypeInit, haveModname: bool, pybases: set<PyBase>, lastPybase: Option<PyBase>)
    returns (lines: seq<Line>, haveModname': bool, pybases': set<PyBase>, lastPybase': Option<PyBase>)
    ensures lines == RecordLines(t, ReadyState(haveModname, pybases, lastPybase))
    ensures ReadyState(haveModname', pybases', lastPybase') == NextState(t, ReadyState(haveModname, pybases, lastPybase), true)
  {
    lines := [BuildHeapType(t.cppname, NamespaceOf(t.cppname))];
    var link;
    link, pybases', lastPybase' := EmitLink(t, haveModname, pybases, lastPybase);
    lines := lines + link;
    lines := lines + [TypeReady(t.cppname)];
    if !haveModname {
      lines := lines + [CreateModname];
    }
    haveModname' := true;
    lines := lines + [SetModule(t.cppname), IncrefForModule(t.cppname)];
  }

  /** The loop of the generator over the ordered records. */
  method EmitBody(order: seq<TypeInit>) returns (body: seq<Line>)
    ensures body == BodyLines(order, true)
  {
    body := [];
    var haveModname := false;
    var pybases: set<PyBase> := {};
    var lastPybase: Option<PyBase> := None;
    for k := 0 to |order|
      invariant body == BodyLines(order[..k], true)
      invariant ReadyState(haveModname, pybases, lastPybase) == StateAfter(order[..k], true)
    {
      var lines;
      lines, haveModname, pybases, lastPybase := EmitRecord(order[k], haveModname, pybases, lastPybase);
      BodyLinesStep(order, k, true);
      assert order[..k + 1][..k] == order[..k];
      body := body + lines;
    }
    assert order[..|order|] == order;
  }

  method ReadyFunction(typesInit: seq<TypeInit>) returns (r: Outcome<seq<Line>, InitError>)
    ensures r == ReadyOutput(typesInit, true)
  {
    var ordered := TypesInitInDependencyOrder(typesInit, false);
    match ordered
    case Raised(e) => return Raised(e);
    case Diverges => return Diverges;
    case Done(order) =>
      var body := EmitBody(order);
      return Done([Blank, OpenReady] + body + [ReturnTrue, CloseReady]);
  }
}

=== FILE: topo_sort.dfy ===
/**
 * The dependency sorter: a depth-first topological sort over an array in
 * which slot `i` holds at most one dependency index (`i` depends on it).
 *
 * `Follow` and `TopoOrder` are the reference definition of what the sort
 * computes; `Walker.FollowDeps` and `TopologicalSortSimple` are the
 * imperative algorithm, proved equal to it. Where the source would recurse
 * forever (a cycle that does not pass back through the current outer root),
 * the model stops and reports `Diverges` instead of an error.
 */
module TopoSort {
  import opened Common

  /** The dependency of each slot, or None for a slot with no dependency. */
  type Deps = seq<Option<int>>

  /** One case per ValueError the sort raises. */
  datatype SortError =
    | NegativeIndex(cons: nat, prod: int)
    | IndexTooLarge(cons: nat, prod: int)
    | SelfDependency(cons: nat)
    | CycleToRoot(root: nat)

  /** Why a depth-first walk did not place its node. */
  datatype Stop = Rejects(error: SortError) | Loops

  datatype Walk = Placed(permutation: seq<nat>) | Stopped(stop: Stop)

  function Nodes(n: nat): (s: set<nat>)
    ensures forall i :: i in s <==> 0 <= i < n
  {
    if n == 0 then {} else Nodes(n - 1) + {n - 1}
  }

  /**
   * The walk from `cons` on behalf of the outer root `root`, given the
   * permutation built so far. `path` holds the nodes the walk already went
   * through; re-entering one of them (other than the root, which is an
   * error) is where the source recurses forever.
   */
  function Follow(ideps: Deps, root: nat, cons: nat, perm: seq<nat>, path: set<nat>): Walk
    requires cons < |ideps| && cons !in path && path <= Nodes(|ideps|)
    decreases Nodes(|ideps|) - path
  {
    if cons in perm then Placed(perm)
    else match ideps[cons]
      case None => Placed(perm + [cons])
      case Some(prod) =>
        if prod < 0 then Stopped(Rejects(NegativeIndex(cons, prod)))
        else if prod >= |ideps| then Stopped(Rejects(IndexTooLarge(cons, prod)))
        else if prod == cons then Stopped(Rejects(SelfDependency(cons)))
        else if prod == root then Stopped(Rejects(CycleToRoot(root)))
        else if prod in path then Stopped(Loops)
        else match Follow(ideps, root, prod, perm, path + {cons})
          case Placed(p) => Placed(p + [cons])
          case stopped => stopped
  }

  /** The outer loop: one walk per slot, in ascending order, from `next` on. */
  function SortFrom(ideps: Deps, next: nat, perm: seq<nat>): Outcome<seq<nat>, SortError>
    decreases |ideps| - next
  {
    if next >= |ideps| then Done(perm)
    else match Follow(ideps, next, next, perm, {})
      case Placed(p) => SortFrom(ideps, next + 1, p)
      case Stopped(Rejects(e)) => Raised(e)
      case Stopped(Loops) => Diverges
  }

  /** What the sort returns for `ideps`. */
  function TopoOrder(ideps: Deps): Outcome<seq<nat>, SortError>
  {
    SortFrom(ideps, 0, [])
  }

  // ---------------------------------------------------------------------------
  // What a topological order is, and what acyclic means.

  /** Each element of `p` is a slot whose dependency occurs strictly earlier in `p`. */
  ghost predicate DependenciesFirst(ideps: Deps, p: seq<nat>)
  {
    forall k :: 0 <= k < |p| ==>
      p[k] < |ideps| &&
      (ideps[p[k]].Some? ==> exists m :: 0 <= m < k && p[m] == ideps[p[k]].value)
  }

  /** `p` lists every slot exactly once, each after its dependency. */
  ghost predicate IsTopologicalOrder(ideps: Deps, p: seq<nat>)
  {
    |p| == |ideps| && Distinct(p) && (forall i :: 0 <= i < |ideps| ==> i in p) &&
    DependenciesFirst(ideps, p)
  }

  /** Every dependency is a valid index of strictly smaller rank. */
  ghost predicate Ranked(ideps: Deps, rank: seq<nat>)
  {
    |rank| == |ideps| &&
    forall i :: 0 <= i < |ideps| && ideps[i].Some? ==>
      0 <= ideps[i].value < |ideps| && rank[ideps[i].value] < rank[i]
  }

  /** All dependencies are in range and following them never closes a cycle. */
  ghost predicate Acyclic(ideps: Deps)
  {
    exists rank :: Ranked(ideps, rank)
  }

  /** Every slot depends on an earlier slot, if on any. */
  ghost predicate DeclaredInOrder(ideps: Deps)
  {
    forall i :: 0 <= i < |ideps| && ideps[i].Some? ==> 0 <= ideps[i].value < i
  }

  predicate NonDecreasing(p: seq<nat>)
  {
    forall i, j :: 0 <= i < j < |p| ==> p[i] <= p[j]
  }

  // ---------------------------------------------------------------------------
  // Soundness: whatever the sort returns is a topological order.

  lemma {:induction false} FollowExtends(ideps: Deps, root: nat, cons: nat, perm: seq<nat>, path: set<nat>)
    requires cons < |ideps| && cons !in path && path <= Nodes(|ideps|)
    requires Distinct(perm) && DependenciesFirst(ideps, perm)
    ensures var w := Follow(ideps, root, cons, perm, path);
      w.Placed? ==>
        && Distinct(w.permutation) && DependenciesFirst(ideps, w.permutation)
        && perm <= w.permutation
        && cons in w.permutation
        && (forall x :: x in w.permutation[|perm|..] ==> x !in path)
    decreases Nodes(|ideps|) - path
  {
    if cons in perm {
      assert perm[|perm|..] == [];
    } else {
      match ideps[cons]
      case None =>
        AppendPlaced(ideps, perm, cons);
        assert (perm + [cons])[|perm|..] == [cons];
      case Some(prod) =>
        if 0 <= prod < |ideps| && prod != cons && prod != root && prod !in path {
          FollowExtends(ideps, root, prod, perm, path + {cons});
          var w := Follow(ideps, root, prod, perm, path + {cons});
          if w.Placed? {
            ExtendByConsumer(ideps, perm, w.permutation, cons, prod, path);
          }
        }
    }
  }

  /** The step after the walk from `prod` placed it: `cons` goes last. */
  lemma ExtendByConsumer(ideps: Deps, perm: seq<nat>, p: seq<nat>, cons: nat, prod: nat, path: set<nat>)
    requires Distinct(p) && DependenciesFirst(ideps, p)
    requires perm <= p && prod in p && cons !in perm
    requires forall x :: x in p[|perm|..] ==> x !in path + {cons}
    requires cons < |ideps| && ideps[cons] == Some(prod as int)
    ensures Distinct(p + [cons]) && DependenciesFirst(ideps, p + [cons])
    ensures perm <= p + [cons] && cons in p + [cons]
    ensures cons !in path ==> forall x :: x in (p + [cons])[|perm|..] ==> x !in path
  {
    assert p == perm + p[|perm|..];
    assert cons !in p;
    var m :| 0 <= m < |p| && p[m] == prod;
    AppendPlaced(ideps, p, cons);
    assert (p + [cons])[|perm|..] == p[|perm|..] + [cons];
  }

  /** Appending a fresh slot whose dependency is already placed keeps the placement valid. */
  lemma AppendPlaced(ideps: Deps, p: seq<nat>, cons: nat)
    requires Distinct(p) && DependenciesFirst(ideps, p)
    requires cons < |ideps| && cons !in p
    requires ideps[cons].Some? ==> exists m :: 0 <= m < |p| && p[m] == ideps[cons].value
    ensures Distinct(p + [cons]) && DependenciesFirst(ideps, p + [cons])
  {
    var q := p + [cons];
    forall k | 0 <= k < |q|
      ensures q[k] < |ideps| &&
        (ideps[q[k]].Some? ==> exists m :: 0 <= m < k && q[m] == ideps[q[k]].value)
    {
      if k < |p| {
        assert q[k] == p[k];
        if ideps[q[k]].Some? {
          var m :| 0 <= m < k && p[m] == ideps[p[k]].value;
          assert q[m] == p[m];
        }
      } else if ideps[cons].Some? {
        var m :| 0 <= m < |p| && p[m] == ideps[cons].value;
        assert q[m] == p[m];
      }
    }
  }

  lemma {:induction false} SortFromSound(ideps: Deps, next: nat, perm: seq<nat>)
    requires Distinct(perm) && DependenciesFirst(ideps, perm)
    requires forall i :: 0 <= i < next && i < |ideps| ==> i in perm
    ensures var r := SortFrom(ideps, next, perm);
      r.Done? ==>
        Distinct(r.value) && DependenciesFirst(ideps, r.value) &&
        forall i :: 0 <= i < |ideps| ==> i in r.value
    decreases |ideps| - next
  {
    if next < |ideps| {
      FollowExtends(ideps, next, next, perm, {});
      var w := Follow(ideps, next, next, perm, {});
      if w.Placed? {
        forall i | 0 <= i < next + 1 && i < |ideps| ensures i in w.permutation {
          if i < next {
            assert i in perm;
            assert perm <= w.permutation;
          }
        }
        SortFromSound(ideps, next + 1, w.permutation);
      }
    }
  }

  function Elements(p: seq<nat>): set<nat>
  {
    set x | x in p
  }

  lemma {:induction false} DistinctCard(p: seq<nat>)
    requires Distinct(p)
    ensures |Elements(p)| == |p|
  {
    if p == [] {
      assert Elements(p) == {};
    } else {
      var init := p[..|p| - 1];
      var last := p[|p| - 1];
      assert Distinct(init);
      DistinctCard(init);
      var s := Elements(init);
      assert last !in init;
      assert last !in s;
      assert Elements(p) == s + {last} by {
        assert p == init + [last];
      }
    }
  }

  lemma {:induction false} NodesCard(n: nat)
    ensures |Nodes(n)| == n
  {
    if n > 0 {
      NodesCard(n - 1);
      CardAdd(Nodes(n - 1), n - 1);
    }
  }

  lemma CardAdd(s: set<nat>, x: nat)
    requires x !in s
    ensures |s + {x}| == |s| + 1
  {
  }

  /** A duplicate-free list of slots that mentions every slot has one entry per slot. */
  lemma CoversAll(p: seq<nat>, n: nat)
    requires Distinct(p) && (forall k :: 0 <= k < |p| ==> p[k] < n)
    requires forall i :: 0 <= i < n ==> i in p
    ensures |p| == n
  {
    DistinctCard(p);
    NodesCard(n);
    assert Elements(p) == Nodes(n);
  }

  /** Whatever the sort returns is a permutation of the slots with every dependency first. */
  lemma TopoOrderSound(ideps: Deps)
    ensures TopoOrder(ideps).Done? ==> IsTopologicalOrder(ideps, TopoOrder(ideps).value)
  {
    SortFromSound(ideps, 0, []);
    if TopoOrder(ideps).Done? {
      CoversAll(TopoOrder(ideps).value, |ideps|);
    }
  }

  // ---------------------------------------------------------------------------
  // Completeness: an acyclic input is always sorted.

  lemma {:induction false} FollowPlacesRanked(ideps: Deps, rank: seq<nat>, root: nat, cons: nat,
                                               perm: seq<nat>, path: set<nat>)
    requires Ranked(ideps, rank)
    requires cons < |ideps| && cons !in path && path <= Nodes(|ideps|) && root < |ideps|
    requires rank[cons] <= rank[root]
    requires forall x :: x in path ==> rank[cons] < rank[x]
    ensures Follow(ideps, root, cons, perm, path).Placed?
    decreases Nodes(|ideps|) - path
  {
    if cons !in perm && ideps[cons].Some? {
      var prod := ideps[cons].value;
      assert rank[prod] < rank[cons];
      FollowPlacesRanked(ideps, rank, root, prod, perm, path + {cons});
    }
  }

  lemma {:induction false} SortFromRanked(ideps: Deps, rank: seq<nat>, next: nat, perm: seq<nat>)
    requires Ranked(ideps, rank)
    ensures SortFrom(ideps, next, perm).Done?
    decreases |ideps| - next
  {
    if next < |ideps| {
      FollowPlacesRanked(ideps, rank, next, next, perm, {});
      SortFromRanked(ideps, rank, next + 1, Follow(ideps, next, next, perm, {}).permutation);
    }
  }

  /** The first position of `x` in `p`. */
  function IndexOf(p: seq<nat>, x: nat): (k: nat)
    requires x in p
    ensures k < |p| && p[k] == x && x !in p[..k]
  {
    if p[0] == x then 0
    else
      var k := 1 + IndexOf(p[1..], x);
      assert p[..k] == [p[0]] + p[1..][..k - 1];
      k
  }

  /** A topological order ranks the slots by their position in it. */
  lemma OrderGivesRank(ideps: Deps, p: seq<nat>)
    requires IsTopologicalOrder(ideps, p)
    ensures Acyclic(ideps)
  {
    var rank := seq(|ideps|, i => if i in p then IndexOf(p, i) else 0);
    forall i | 0 <= i < |ideps| && ideps[i].Some?
      ensures 0 <= ideps[i].value < |ideps| && rank[ideps[i].value] < rank[i]
    {
      var k := IndexOf(p, i);
      var m :| 0 <= m < k && p[m] == ideps[p[k]].value;
      var j := p[m];
      assert j < |ideps|;
      var kj := IndexOf(p, j);
    }
    assert Ranked(ideps, rank);
  }

  /** The sort succeeds exactly on the acyclic inputs. */
  lemma SortsExactlyAcyclic(ideps: Deps)
    ensures TopoOrder(ideps).Done? <==> Acyclic(ideps)
  {
    if TopoOrder(ideps).Done? {
      TopoOrderSound(ideps);
      OrderGivesRank(ideps, TopoOrder(ideps).value);
    }
    if Acyclic(ideps) {
      var rank :| Ranked(ideps, rank);
      SortFromRanked(ideps, rank, 0, []);
    }
  }

  // ---------------------------------------------------------------------------
  // When the sort keeps the declaration order.

  lemma {:induction false} SortFromInOrder(ideps: Deps, next: nat)
    requires DeclaredInOrder(ideps) && next <= |ideps|
    ensures SortFrom(ideps, next, Iota(next)) == Done(Iota(|ideps|))
    decreases |ideps| - next
  {
    if next < |ideps| {
      assert next !in Iota(next);
      assert Iota(next) + [next] == Iota(next + 1);
      SortFromInOrder(ideps, next + 1);
      match ideps[next]
      case None =>
        assert Follow(ideps, next, next, Iota(next), {}) == Placed(Iota(next + 1));
      case Some(j) =>
        assert j in Iota(next) by { assert Iota(next)[j] == j; }
        assert Follow(ideps, next, j, Iota(next), {next}) == Placed(Iota(next));
        assert Follow(ideps, next, next, Iota(next), {}) == Placed(Iota(next + 1));
    }
  }

  /** The sort returns the identity exactly when every slot depends only on an earlier one. */
  lemma IdentityIffDeclaredInOrder(ideps: Deps)
    ensures TopoOrder(ideps) == Done(Iota(|ideps|)) <==> DeclaredInOrder(ideps)
  {
    if DeclaredInOrder(ideps) {
      SortFromInOrder(ideps, 0);
      assert Iota(0) == [];
    }
    if TopoOrder(ideps) == Done(Iota(|ideps|)) {
      TopoOrderSound(ideps);
      var p := Iota(|ideps|);
      forall i | 0 <= i < |ideps| && ideps[i].Some? ensures 0 <= ideps[i].value < i {
        assert p[i] == i;
        var m :| 0 <= m < i && p[m] == ideps[p[i]].value;
      }
    }
  }

  lemma {:induction false} StrictlyIncreasingFrom(p: seq<nat>, k: nat, j: nat)
    requires forall a, b :: 0 <= a < b < |p| ==> p[a] < p[b]
    requires k <= j < |p|
    ensures p[k] + (j - k) <= p[j]
    decreases j - k
  {
    if k < j {
      StrictlyIncreasingFrom(p, k, j - 1);
    }
  }

  /**
   * A permutation of the slots is in ascending order exactly when it is the
   * identity (so `sorted(p) != p` holds exactly when `p` reorders).
   */
  lemma AscendingPermutationIsIdentity(ideps: Deps, p: seq<nat>)
    requires IsTopologicalOrder(ideps, p)
    ensures NonDecreasing(p) <==> p == Iota(|ideps|)
  {
    if NonDecreasing(p) {
      var n := |p|;
      forall k | 0 <= k < n ensures p[k] == k {
        StrictlyIncreasingFrom(p, 0, k);
        StrictlyIncreasingFrom(p, k, n - 1);
        assert p[n - 1] < n by { assert DependenciesFirst(ideps, p); }
      }
    }
  }

  // ---------------------------------------------------------------------------
  // Errors: every ValueError names a real defect of the input.

  /** Following n dependencies from slot x, each in range, leads to slot y. */
  ghost predicate Reaches(ideps: Deps, x: nat, y: nat, n: nat)
    decreases n
  {
    x < |ideps| &&
    if n == 0 then x == y
    else ideps[x].Some? && 0 <= ideps[x].value < |ideps| && Reaches(ideps, ideps[x].value, y, n - 1)
  }

  /** What each error says about the input. */
  ghost predicate Defect(ideps: Deps, e: SortError)
  {
    match e
    case NegativeIndex(c, p) => c < |ideps| && ideps[c] == Some(p) && p < 0
    case IndexTooLarge(c, p) => c < |ideps| && ideps[c] == Some(p) && p >= |ideps|
    case SelfDependency(c) => c < |ideps| && ideps[c] == Some(c)
    case CycleToRoot(r) => exists n :: n >= 2 && Reaches(ideps, r, r, n)
  }

  lemma {:induction false} ReachesSnoc(ideps: Deps, x: nat, y: nat, n: nat)
    requires Reaches(ideps, x, y, n)
    requires y < |ideps| && ideps[y].Some? && 0 <= ideps[y].value < |ideps|
    ensures Reaches(ideps, x, ideps[y].value, n + 1)
    decreases n
  {
    if n > 0 {
      ReachesSnoc(ideps, ideps[x].value, y, n - 1);
    }
  }

  /** A walk that reached `cons` from `root` in n steps stops only on a real defect. */
  lemma {:induction false} FollowRejectsDefect(ideps: Deps, root: nat, cons: nat, perm: seq<nat>,
                                                path: set<nat>, n: nat)
    requires cons < |ideps| && cons !in path && path <= Nodes(|ideps|)
    requires Reaches(ideps, root, cons, n)
    ensures Follow(ideps, root, cons, perm, path).Stopped? && Follow(ideps, root, cons, perm, path).stop.Rejects? ==>
            Defect(ideps, Follow(ideps, root, cons, perm, path).stop.error)
    decreases Nodes(|ideps|) - path
  {
    if cons !in perm && ideps[cons].Some? {
      var prod := ideps[cons].value;
      if 0 <= prod < |ideps| && prod != cons {
        ReachesSnoc(ideps, root, cons, n);
        if prod == root {
          assert n + 1 >= 2 && Reaches(ideps, root, root, n + 1);
        } else if prod !in path {
          FollowRejectsDefect(ideps, root, prod, perm, path + {cons}, n + 1);
        }
      }
    }
  }

  lemma {:induction false} SortFromRejectsDefect(ideps: Deps, next: nat, perm: seq<nat>)
    ensures SortFrom(ideps, next, perm).Raised? ==> Defect(ideps, SortFrom(ideps, next, perm).error)
    decreases |ideps| - next
  {
    if next < |ideps| {
      FollowRejectsDefect(ideps, next, next, perm, {}, 0);
      var w := Follow(ideps, next, next, perm, {});
      if w.Placed? {
        SortFromRejectsDefect(ideps, next + 1, w.permutation);
      }
    }
  }

  /**
   * Each ValueError points at the input's fault: a negative or too large
   * dependency index, a slot depending on itself, or a chain of
   * dependencies leading from the named root back to it.
   */
  lemma TopoOrderRejectsDefect(ideps: Deps)
    ensures TopoOrder(ideps).Raised? ==> Defect(ideps, TopoOrder(ideps).error)
  {
    SortFromRejectsDefect(ideps, 0, []);
  }

  // ---------------------------------------------------------------------------
  // The documented examples.

  lemma DocumentedExample()
    ensures TopoOrder([Some(2), None, Some(1)]) == Done([1, 2, 0])
  {
    var d: Deps := [Some(2), None, Some(1)];
    assert Follow(d, 0, 1, [], {0, 2}) == Placed([1]);
    assert Follow(d, 0, 2, [], {0}) == Placed([1, 2]);
    assert Follow(d, 0, 0, [], {}) == Placed([1, 2, 0]);
    assert Follow(d, 1, 1, [1, 2, 0], {}) == Placed([1, 2, 0]);
    assert Follow(d, 2, 2, [1, 2, 0], {}) == Placed([1, 2, 0]);
  }

  lemma RejectedExamples()
    ensures TopoOrder([Some(0)]) == Raised(SelfDependency(0))
    ensures TopoOrder([Some(1), Some(0)]) == Raised(CycleToRoot(0))
    ensures TopoOrder([Some(5)]) == Raised(IndexTooLarge(0, 5))
    ensures TopoOrder([Some(-1)]) == Raised(NegativeIndex(0, -1))
  {
    assert Follow([Some(1), Some(0)], 0, 1, [], {0}) == Stopped(Rejects(CycleToRoot(0)));
  }

  /** 1 -> 2 -> 1 is a cycle that avoids the root 0: the source recurses forever. */
  lemma DivergingExample()
    ensures TopoOrder([Some(1), Some(2), Some(1)]) == Diverges
  {
    var d: Deps := [Some(1), Some(2), Some(1)];
    assert Follow(d, 0, 2, [], {0, 1}) == Stopped(Loops);
    assert Follow(d, 0, 1, [], {0}) == Stopped(Loops);
    assert Follow(d, 0, 0, [], {}) == Stopped(Loops);
    assert SortFrom(d, 0, []) == Diverges;
  }

  // ---------------------------------------------------------------------------
  // The algorithm as the source runs it.

  /** The state the source keeps in the closure of its nested walk. */
  class Walker {
    const ideps: Deps
    var permutation: seq<nat>
    var permutationSet: set<nat>

    /** The set mirrors the list. */
    ghost predicate Valid()
      reads this
    {
      forall x :: x in permutationSet <==> x in permutation
    }

    constructor (ideps: Deps)
      ensures Valid() && this.ideps == ideps && permutation == []
    {
      this.ideps := ideps;
      permutation := [];
      permutationSet := {};
    }

    /** The recursive walk; the model's `path` marks where the source would loop. */
    method FollowDeps(root: nat, cons: nat, path: set<nat>) returns (stop: Option<Stop>)
      requires Valid() && cons < |ideps| && cons !in path && path <= Nodes(|ideps|)
      modifies this
      ensures Valid()
      ensures Follow(ideps, root, cons, old(permutation), path) ==
              (if stop.None? then Placed(permutation) else Stopped(stop.value))
      decreases Nodes(|ideps|) - path
    {
      if cons in permutationSet {
        return None;
      }
      var dep := ideps[cons];
      if dep.Some? {
        var prod := dep.value;
        if prod < 0 {
          return Some(Rejects(NegativeIndex(cons, prod)));
        }
        if prod >= |ideps| {
          return Some(Rejects(IndexTooLarge(cons, prod)));
        }
        if prod == cons {
          return Some(Rejects(SelfDependency(cons)));
        }
        if prod == root {
          return Some(Rejects(CycleToRoot(root)));
        }
        if prod in path {
          return Some(Loops);
        }
        stop := FollowDeps(root, prod, path + {cons});
        if stop.Some? {
          return;
        }
      }
      permutation := permutation + [cons];
      permutationSet := permutationSet + {cons};
      stop := None;
    }
  }

  /** TopologicalSortSimple: a permutation with each dependency before its dependents. */
  method TopologicalSortSimple(ideps: Deps) returns (r: Outcome<seq<nat>, SortError>)
    ensures r == TopoOrder(ideps)
    ensures r.Done? ==> IsTopologicalOrder(ideps, r.value)
    ensures r.Done? <==> Acyclic(ideps)
  {
    var walker := new Walker(ideps);
    for cons := 0 to |ideps|
      invariant walker.Valid() && walker.ideps == ideps
      invariant SortFrom(ideps, cons, walker.permutation) == TopoOrder(ideps)
    {
      var stop := walker.FollowDeps(cons, cons, {});
      if stop.Some? {
        r := if stop.value.Loops? then Diverges else Raised(stop.value.error);
        SortsExactlyAcyclic(ideps);
        return;
      }
    }
    r := Done(walker.permutation);
    TopoOrderSound(ideps);
    SortsExactlyAcyclic(ideps);
    assert |walker.permutation| == |ideps|;
  }
}

=== FILE: types_init.dfy ===
/**
 * Orders the type-initialisation records of one module so that a class
 * whose base is wrapped in the same module comes after that base.
 */
module TypesInit {
  import opened Common
  import opened TopoSort

  /** A base class defined in Python: its fully qualified name and the top-level name to import it from ("" when absent). */
  datatype PyBase = PyBase(fqName: string, toplevelFqName: string)

  /**
   * One record of `types_init`: the C++ handle of the wrapped type, its
   * Python base (if any) and the handle of its base wrapped in this module
   * (if any). The fourth field of the source's record is not read here.
   */
  datatype TypeInit = TypeInit(cppname: string, base: Option<PyBase>, wrappedBase: Option<string>)

  datatype InitError =
    | DuplicateCppName                                 // the assertion on the index map
    | MissingBaseImport(derived: string, base: string) // NameError
    | BadDependency(error: SortError)                  // ValueError from the sort
    | Reordered(permutation: seq<nat>)                 // RuntimeError (development check)

  function Names(types: seq<TypeInit>): seq<string>
  {
    seq(|types|, i requires 0 <= i < |types| => types[i].cppname)
  }

  /**
   * `cppname_indices` as the first loop leaves it: every name maps to the
   * index of its last record.
   */
  function IndexMap(types: seq<TypeInit>): (m: map<string, nat>)
    ensures forall i :: 0 <= i < |types| ==> types[i].cppname in m
    ensures forall name :: name in m ==> m[name] < |types| && types[m[name]].cppname == name
  {
    if types == [] then map[]
    else
      var init := types[..|types| - 1];
      IndexMap(init)[types[|types| - 1].cppname := |types| - 1]
  }

  lemma IndexMapPrefix(types: seq<TypeInit>, n: nat)
    requires n < |types|
    ensures IndexMap(types[..n + 1]) == IndexMap(types[..n])[types[n].cppname := n]
  {
    assert types[..n + 1][..n] == types[..n];
  }

  /** Every base wrapped in the module names some record. */
  predicate BasesResolved(types: seq<TypeInit>, indices: map<string, nat>)
  {
    forall i :: 0 <= i < |types| && types[i].wrappedBase.Some? ==> types[i].wrappedBase.value in indices
  }

  /** The first record, from `from` on, whose wrapped base names no record. */
  function FirstUnresolved(types: seq<TypeInit>, indices: map<string, nat>, from: nat): (k: Option<nat>)
    ensures k.Some? ==> from <= k.value < |types| && types[k.value].wrappedBase.Some? &&
                        types[k.value].wrappedBase.value !in indices
    ensures k.Some? ==> forall j :: from <= j < k.value ==>
                          types[j].wrappedBase.None? || types[j].wrappedBase.value in indices
    ensures k.None? ==> forall i :: from <= i < |types| && types[i].wrappedBase.Some? ==>
                                    types[i].wrappedBase.value in indices
    decreases |types| - from
  {
    if from >= |types| then None
    else if types[from].wrappedBase.Some? && types[from].wrappedBase.value !in indices then Some(from)
    else FirstUnresolved(types, indices, from + 1)
  }

  function DependencyIndex(t: TypeInit, indices: map<string, nat>): Option<int>
    requires t.wrappedBase.Some? ==> t.wrappedBase.value in indices
  {
    match t.wrappedBase
    case None => None
    case Some(b) => Some(indices[b])
  }

  /** `ideps`: for each record, the index of the record holding its wrapped base. */
  function DependencyIndices(types: seq<TypeInit>, indices: map<string, nat>): (d: Deps)
    requires BasesResolved(types, indices)
    ensures |d| == |types|
  {
    seq(|types|, i requires 0 <= i < |types| => DependencyIndex(types[i], indices))
  }

  /** The records in the order of a permutation of their indices. */
  function Select(types: seq<TypeInit>, p: seq<nat>): (r: seq<TypeInit>)
    requires forall k :: 0 <= k < |p| ==> p[k] < |types|
    ensures |r| == |p|
  {
    seq(|p|, k requires 0 <= k < |p| => types[p[k]])
  }

  /** What `_TypesInitInDependencyOrder` yields, or how it fails. */
  function DependencyOrder(types: seq<TypeInit>, raiseIfReordering: bool): Outcome<seq<TypeInit>, InitError>
  {
    var indices := IndexMap(types);
    if |indices| != |types| then Raised(DuplicateCppName)
    else match FirstUnresolved(types, indices, 0)
      case Some(k) => Raised(MissingBaseImport(types[k].cppname, types[k].wrappedBase.value))
      case None => OrderResolved(types, indices, raiseIfReordering)
  }

  /** The sorting stage, once every wrapped base has an index. */
  function OrderResolved(types: seq<TypeInit>, indices: map<string, nat>, raiseIfReordering: bool)
    : (r: Outcome<seq<TypeInit>, InitError>)
    requires BasesResolved(types, indices)
    ensures r.Raised? ==> r.error.BadDependency? || r.error.Reordered?
  {
    var ideps := DependencyIndices(types, indices);
    match TopoOrder(ideps)
    case Raised(e) => Raised(BadDependency(e))
    case Diverges => Diverges
    case Done(p) =>
      TopoOrderSound(ideps);
      if raiseIfReordering && !NonDecreasing(p) then Raised(Reordered(p))
      else Done(Select(types, p))
  }

  /** Every record's wrapped base is the name of an earlier record. */
  ghost predicate BasesDeclaredFirst(types: seq<TypeInit>)
  {
    forall i :: 0 <= i < |types| && types[i].wrappedBase.Some? ==>
      exists j :: 0 <= j < i && types[j].cppname == types[i].wrappedBase.value
  }

  // ---------------------------------------------------------------------------
  // Lemmas

  lemma {:induction false} IndexMapSize(types: seq<TypeInit>)
    ensures |IndexMap(types)| <= |types|
    ensures |IndexMap(types)| == |types| <==> Distinct(Names(types))
  {
    if types != [] {
      var init := types[..|types| - 1];
      var t := types[|types| - 1];
      IndexMapSize(init);
      NamesSnoc(types);
      IndexMapSnoc(types);
      IndexMapKeys(init, t.cppname);
      DistinctSnoc(Names(init), t.cppname);
    }
  }

  lemma NamesSnoc(types: seq<TypeInit>)
    requires types != []
    ensures Names(types) == Names(types[..|types| - 1]) + [types[|types| - 1].cppname]
  {
  }

  /** Adding the last record adds its name to the index map's keys. */
  lemma IndexMapSnoc(types: seq<TypeInit>)
    requires types != []
    ensures IndexMap(types).Keys == IndexMap(types[..|types| - 1]).Keys + {types[|types| - 1].cppname}
  {
  }

  /** The index map's keys are exactly the records' names. */
  lemma IndexMapKeys(types: seq<TypeInit>, name: string)
    ensures name in Names(types) <==> name in IndexMap(types)
  {
    if name in IndexMap(types) {
      assert Names(types)[IndexMap(types)[name]] == name;
    }
  }

  /** The assertion fails exactly when two records share a C++ name. */
  lemma DuplicateNamesRejected(types: seq<TypeInit>, raiseIfReordering: bool)
    ensures DependencyOrder(types, raiseIfReordering) == Raised(DuplicateCppName) <==> !Distinct(Names(types))
  {
    IndexMapSize(types);
  }

  /**
   * With distinct names, a NameError is raised exactly when some wrapped
   * base names no record, and it names the first such record, in
   * declaration order, and its base.
   */
  lemma MissingBaseRejected(types: seq<TypeInit>, raiseIfReordering: bool)
    requires Distinct(Names(types))
    ensures DependencyOrder(types, raiseIfReordering).Raised? &&
            DependencyOrder(types, raiseIfReordering).error.MissingBaseImport?
        <==> exists i :: 0 <= i < |types| && types[i].wrappedBase.Some? &&
                         types[i].wrappedBase.value !in Names(types)
    ensures match DependencyOrder(types, raiseIfReordering)
      case Raised(MissingBaseImport(d, b)) =>
        exists i :: 0 <= i < |types| && types[i].cppname == d && types[i].wrappedBase == Some(b) &&
                    b !in Names(types) &&
                    forall j :: 0 <= j < i ==> types[j].wrappedBase.None? || types[j].wrappedBase.value in Names(types)
      case _ => true
  {
    IndexMapSize(types);
    var indices := IndexMap(types);
    var k := FirstUnresolved(types, indices, 0);
    if k.Some? {
      IndexMapKeys(types, types[k.value].wrappedBase.value);
      forall j | 0 <= j < k.value && types[j].wrappedBase.Some?
        ensures types[j].wrappedBase.value in Names(types)
      {
        IndexMapKeys(types, types[j].wrappedBase.value);
      }
      assert DependencyOrder(types, raiseIfReordering) ==
             Raised(MissingBaseImport(types[k.value].cppname, types[k.value].wrappedBase.value));
    } else {
      forall i | 0 <= i < |types| && types[i].wrappedBase.Some?
        ensures types[i].wrappedBase.value in Names(types)
      {
        IndexMapKeys(types, types[i].wrappedBase.value);
      }
    }
  }

  /** With distinct names, the index map sends each record's name to that record. */
  lemma IndexMapDistinct(types: seq<TypeInit>, j: nat)
    requires Distinct(Names(types)) && j < |types|
    ensures IndexMap(types)[types[j].cppname] == j
  {
    var m := IndexMap(types);
    assert types[j].cppname == Names(types)[j];
    var i := m[types[j].cppname];
    assert Names(types)[i] == Names(types)[j];
  }

  /**
   * `out` lists every record exactly once (the names being distinct), and
   * each record after the record holding its wrapped base.
   */
  ghost predicate IsDependencyOrder(types: seq<TypeInit>, out: seq<TypeInit>)
  {
    && |out| == |types|
    && Distinct(Names(out))
    && (forall i :: 0 <= i < |types| ==> types[i] in out)
    && (forall k :: 0 <= k < |out| && out[k].wrappedBase.Some? ==>
          exists m :: 0 <= m < k && out[m].cppname == out[k].wrappedBase.value)
  }

  lemma SelectDistinct(types: seq<TypeInit>, p: seq<nat>)
    requires Distinct(Names(types)) && Distinct(p)
    requires forall k :: 0 <= k < |p| ==> p[k] < |types|
    ensures Distinct(Names(Select(types, p)))
  {
    var out := Select(types, p);
    forall i, j | 0 <= i < j < |out| ensures Names(out)[i] != Names(out)[j] {
      assert Names(types)[p[i]] != Names(types)[p[j]];
    }
  }

  lemma SelectCovers(types: seq<TypeInit>, p: seq<nat>)
    requires forall k :: 0 <= k < |p| ==> p[k] < |types|
    requires forall i :: 0 <= i < |types| ==> i in p
    ensures forall i :: 0 <= i < |types| ==> types[i] in Select(types, p)
  {
    var out := Select(types, p);
    forall i | 0 <= i < |types| ensures types[i] in out {
      assert i in p;
      var k :| 0 <= k < |p| && p[k] == i;
      assert out[k] == types[i];
    }
  }

  lemma SelectBasesFirst(types: seq<TypeInit>, p: seq<nat>)
    requires BasesResolved(types, IndexMap(types))
    requires DependenciesFirst(DependencyIndices(types, IndexMap(types)), p)
    ensures var out := Select(types, p);
      forall k :: 0 <= k < |out| && out[k].wrappedBase.Some? ==>
        exists m :: 0 <= m < k && out[m].cppname == out[k].wrappedBase.value
  {
    var indices := IndexMap(types);
    var ideps := DependencyIndices(types, indices);
    var out := Select(types, p);
    forall k | 0 <= k < |out| && out[k].wrappedBase.Some?
      ensures exists m :: 0 <= m < k && out[m].cppname == out[k].wrappedBase.value
    {
      assert ideps[p[k]] == Some(indices[out[k].wrappedBase.value]);
      var m :| 0 <= m < k && p[m] == ideps[p[k]].value;
      assert out[m] == types[p[m]];
    }
  }

  /** Whatever is yielded is a dependency order of the records. */
  lemma OrderedIsDependencyOrder(types: seq<TypeInit>, raiseIfReordering: bool)
    ensures DependencyOrder(types, raiseIfReordering).Done? ==>
            IsDependencyOrder(types, DependencyOrder(types, raiseIfReordering).value)
  {
    var indices := IndexMap(types);
    IndexMapSize(types);
    if DependencyOrder(types, raiseIfReordering).Done? {
      var ideps := DependencyIndices(types, indices);
      TopoOrderSound(ideps);
      var p := TopoOrder(ideps).value;
      assert DependencyOrder(types, raiseIfReordering).value == Select(types, p);
      SelectDistinct(types, p);
      SelectCovers(types, p);
      SelectBasesFirst(types, p);
    }
  }

  /**
   * With distinct names and every wrapped base present, the records are
   * ordered (without the development check) exactly when the base relation
   * has no cycle.
   */
  lemma OrderedIffAcyclic(types: seq<TypeInit>)
    requires Distinct(Names(types)) && BasesResolved(types, IndexMap(types))
    ensures DependencyOrder(types, false).Done? <==> Acyclic(DependencyIndices(types, IndexMap(types)))
  {
    IndexMapSize(types);
    SortsExactlyAcyclic(DependencyIndices(types, IndexMap(types)));
  }

  lemma DeclaredInOrderIffBasesFirst(types: seq<TypeInit>)
    requires Distinct(Names(types)) && BasesResolved(types, IndexMap(types))
    ensures DeclaredInOrder(DependencyIndices(types, IndexMap(types))) <==> BasesDeclaredFirst(types)
  {
    var indices := IndexMap(types);
    var ideps := DependencyIndices(types, indices);
    if DeclaredInOrder(ideps) {
      forall i | 0 <= i < |types| && types[i].wrappedBase.Some?
        ensures exists j :: 0 <= j < i && types[j].cppname == types[i].wrappedBase.value
      {
        assert ideps[i] == Some(indices[types[i].wrappedBase.value]);
      }
    }
    if BasesDeclaredFirst(types) {
      forall i | 0 <= i < |ideps| && ideps[i].Some? ensures 0 <= ideps[i].value < i {
        var j :| 0 <= j < i && types[j].cppname == types[i].wrappedBase.value;
        IndexMapDistinct(types, j);
      }
    }
  }

  /**
   * With the development check on, a RuntimeError is raised exactly when the
   * sort moves some class, that is, when some wrapped base is declared after
   * the class deriving from it; otherwise the records come out unchanged.
   */
  lemma ReorderingRaisedExactly(types: seq<TypeInit>)
    requires Distinct(Names(types)) && BasesResolved(types, IndexMap(types))
    requires DependencyOrder(types, false).Done?
    ensures DependencyOrder(types, true).Raised? <==> !BasesDeclaredFirst(types)
    ensures !DependencyOrder(types, true).Raised? ==> DependencyOrder(types, true) == Done(types)
  {
    var indices := IndexMap(types);
    IndexMapSize(types);
    var ideps := DependencyIndices(types, indices);
    var p := TopoOrder(ideps).value;
    TopoOrderSound(ideps);
    AscendingPermutationIsIdentity(ideps, p);
    IdentityIffDeclaredInOrder(ideps);
    DeclaredInOrderIffBasesFirst(types);
    if p == Iota(|types|) {
      assert Select(types, p) == types;
    }
  }

  // ---------------------------------------------------------------------------
  // The generator as the source writes it.

  /** The first loop of the generator: `cppname_indices`. */
  method IndexRecords(typesInit: seq<TypeInit>) returns (cppnameIndices: map<string, nat>)
    ensures cppnameIndices == IndexMap(typesInit)
  {
    cppnameIndices := map[];
    for index := 0 to |typesInit|
      invariant cppnameIndices == IndexMap(typesInit[..index])
    {
      IndexMapPrefix(typesInit, index);
      cppnameIndices := cppnameIndices[typesInit[index].cppname := index];
    }
    assert typesInit[..|typesInit|] == typesInit;
  }

  /** The second loop of the generator: the index of each record's wrapped base, or the NameError. */
  method ResolveBases(typesInit: seq<TypeInit>, cppnameIndices: map<string, nat>)
    returns (r: Result<Deps, InitError>)
    ensures match FirstUnresolved(typesInit, cppnameIndices, 0)
      case Some(k) => r == Err(MissingBaseImport(typesInit[k].cppname, typesInit[k].wrappedBase.value))
      case None => r == Ok(DependencyIndices(typesInit, cppnameIndices))
  {
    var ideps: Deps := [];
    for i := 0 to |typesInit|
      invariant FirstUnresolved(typesInit, cppnameIndices, 0) == FirstUnresolved(typesInit, cppnameIndices, i)
      invariant |ideps| == i
      invariant forall j :: 0 <= j < i ==> typesInit[j].wrappedBase.Some? ==> typesInit[j].wrappedBase.value in cppnameIndices
      invariant forall j :: 0 <= j < i ==> ideps[j] == DependencyIndex(typesInit[j], cppnameIndices)
    {
      var wrappedBase := typesInit[i].wrappedBase;
      if wrappedBase.Some? && wrappedBase.value !in cppnameIndices {
        return Err(MissingBaseImport(typesInit[i].cppname, wrappedBase.value));
      }
      ideps := ideps + [if wrappedBase.None? then None else Some(cppnameIndices[wrappedBase.value])];
    }
    assert BasesResolved(typesInit, cppnameIndices);
    assert ideps == DependencyIndices(typesInit, cppnameIndices);
    return Ok(ideps);
  }

  /** The final loop of the generator: the records in the sorted order. */
  method Arrange(typesInit: seq<TypeInit>, p: seq<nat>) returns (out: seq<TypeInit>)
    requires forall k :: 0 <= k < |p| ==> p[k] < |typesInit|
    ensures out == Select(typesInit, p)
  {
    out := [];
    for k := 0 to |p|
      invariant |out| == k
      invariant forall j :: 0 <= j < k ==> out[j] == typesInit[p[j]]
    {
      out := out + [typesInit[p[k]]];
    }
  }

  method TypesInitInDependencyOrder(typesInit: seq<TypeInit>, raiseIfReordering: bool)
    returns (r: Outcome<seq<TypeInit>, InitError>)
    ensures r == DependencyOrder(typesInit, raiseIfReordering)
  {
    var cppnameIndices := IndexRecords(typesInit);
    if |cppnameIndices| != |typesInit| {
      return Raised(DuplicateCppName);
    }
    var resolved := ResolveBases(typesInit, cppnameIndices);
    if resolved.Err? {
      return Raised(resolved.error);
    }
    var ideps := resolved.value;
    assert DependencyOrder(typesInit, raiseIfReordering) == OrderResolved(typesInit, cppnameIndices, raiseIfReordering);
    var permutation := TopologicalSortSimple(ideps);
    match permutation
    case Raised(e) => return Raised(BadDependency(e));
    case Diverges => return Diverges;
    case Done(p) =>
      if raiseIfReordering && !NonDecreasing(p) {
        return Raised(Reordered(p));
      }
      var out := Arrange(typesInit, p);
      return Done(out);
  }
}
